=== FILE: README.md ===
# Athenix, modelled in Dafny

Athenix is a Next.js fitness-coaching web app. It works entirely in the
browser, on `localStorage`. This project models the logic of its pages:

- **signup** and **login**: form validation and where the user goes next;
- **onboarding**: a nine-step questionnaire with step gating and
  multi-select answers;
- **plan generation**: the 12-week, three-phase workout plan and the
  nutrition plan (BMR, TDEE, goal adjustment, macros, meals, guidelines);
- **dashboard** pages:
  - the home dashboard (guard, today's workout, phase countdown, water tracker);
  - the plan overview (phase locks and labels);
  - the workout tracker (phase/week selection, completion ids, workout count);
  - the nutrition tracker (meal log, totals, water counter);
  - the progress tracker (check-ins, photos, weight trend);
  - the form checker (canned analyses and a ten-entry history);
  - the AI coach (keyword routing, protein advice, chat history);
- **admin dashboard**: password gate, user scan, analytics and CSV export.

How the JavaScript becomes Dafny:

- **Pure computations** become functions, each with lemmas stating what
  the result means. This covers the plan generators, validation, routing
  and the CSV text.
- **Pages whose handlers update state** become classes. The React state
  and the `localStorage` entries a page writes are fields, and each
  handler is a method whose `ensures` gives the whole new state.
- **The two loops in the source** are methods with loop invariants,
  proved against the functions that specify them: the week-1 loop of
  `generatePhase1Workouts` and the admin scan over storage keys.

JavaScript semantics are written out where the pages depend on them:

- `parseInt(x) || d`, `Math.round` (half up) and `Math.ceil`;
- optional chaining (`?.`), and the truthiness of `localStorage` values;
- `includes`, `trim` (ECMAScript white space), `toLowerCase` on ASCII
  letters, and decimal conversion in template literals;
- `Array.prototype.join`, `split` and `filter`.

Integers are unbounded. Amounts the source computes as floating-point
numbers are `real`s, and each `Math.round` is explicit.

The modules are `Basics` (Option, routes, truthiness), `Text`, `Lists`,
`PlanGenerator`, `NutritionPlanner`, `Onboarding`, `PlanPage`,
`WorkoutsPage`, `Dashboard`, `NutritionPage`, `ProgressPage`,
`FormCheck`, `AiCoach`, `Signup`, `Login` and `Admin`.

### Behaviour of the code worth knowing

- **Carbohydrates.** The carbohydrate amount is never clamped at zero.
  Small calorie targets give negative carbs (`NutritionPlanner.NegativeCarbs`).
- **Invalid profiles.** The planners raise no error for an invalid
  profile. Missing or non-numeric weight, age and days fall back to 150,
  25 and 3.
- **Activity multiplier.** It compares the raw `daysPerWeek` answer with
  `'2'` and `'3'`. So an unanswered field plans a 3-day split but uses the
  1.725 multiplier (`NutritionPlanner.UnansweredDaysMismatch`).
- **Goal names.** The goal list on the onboarding form has no option
  containing "Build muscle", so the 10% surplus is never applied to a
  form-chosen goal (`Onboarding.FormGoalsNeverGetSurplus`).

## Model

| member | source | states |
|---|---|---|
| Basics.Truthy | app/dashboard/page.js:24 | a stored text is truthy exactly when present and non-empty; its consequences are stated by `Dashboard.Guard` and `Login.Decide` |
| Text.TrimEmptyIffBlank | app/signup/page.js:23 | `!s.trim()` holds exactly when every character of `s` is ECMAScript white space |
| Text.Utf16Length | app/signup/page.js:35 | JavaScript's `length`: between one and two code units per character, zero only for the empty text |
| Text.Utf16LengthBmp | app/signup/page.js:35 | text inside the Basic Multilingual Plane has one code unit per character |
| Text.Utf16LengthAstral | app/signup/page.js:35 | text of characters above U+FFFF has two code units per character |
| Text.ToLower | app/dashboard/ai-coach/page.js:88 | lower-casing keeps the length and maps each character independently (ASCII letters only) |
| Text.NatToString | app/dashboard/plan/page.js:156 | a number's decimal text is a non-empty digit string whose value is the number |
| Text.NatToStringInjective | app/dashboard/workouts/page.js:225 | different numbers are written differently |
| Text.IntToString | app/generate-plan/page.js:313 | the text is a non-empty digit string whose value is the magnitude, with a leading '-' exactly for negative numbers; a non-negative number is written as `NatToString` writes it |
| Text.SplitJoin | app/admin/dashboard/page.js:118 | splitting a comma-joined row recovers the cells when no cell contains a comma |
| Text.JoinStartsWithHead | app/admin/dashboard/page.js:107-118 | a joined list of two or more parts begins with the first part and the separator |
| Lists.RemoveAll | app/onboarding/page.js:93 | `filter(item => item !== v)` drops every copy of `v` and keeps every other value with its number of copies |
| Lists.RemoveAllAppend | app/onboarding/page.js:93 | filtering distributes over concatenation, so the kept values stay in their order |
| Lists.Toggle | app/onboarding/page.js:89-96 | toggling flips membership of the value, keeps every other value, appends when absent and shrinks when present |
| Lists.RemoveAbsent | app/onboarding/page.js:93 | filtering out a value that is not there changes nothing |
| Lists.RemoveAppended | app/onboarding/page.js:93-94 | filtering out a value just appended gives the filtered original |
| Lists.RemoveShrinks | app/onboarding/page.js:93 | filtering out a present value shortens the list |
| Lists.ToggleTwiceRestores | app/onboarding/page.js:89-96 | selecting an unselected value and deselecting it gives back the list |
| Lists.ToggleTwiceMovesToEnd | app/onboarding/page.js:89-96 | deselecting and reselecting a selected value removes its copies and puts one at the end |
| PlanGenerator.ParseInt | app/generate-plan/page.js:155 | `parseInt`: nothing for blank text, the decimal value for a digit string, and a negative number only after a leading '-' |
| PlanGenerator.DigitPrefix | app/generate-plan/page.js:155 | the digits `parseInt` reads: the longest all-digit prefix |
| PlanGenerator.ParseSingleDigit | app/generate-plan/page.js:155 | `parseInt` of a text beginning with one digit and then a non-digit is that digit |
| PlanGenerator.TrainingDays | app/generate-plan/page.js:155 | `parseInt(days) \|\| 3`: the parsed number when it is non-zero, 3 when it does not parse or is 0, never 0 |
| PlanGenerator.TrainingDaysLeadingDigit | app/generate-plan/page.js:155 | answers "2", "4-5", "6+" train their leading digit's number of days |
| PlanGenerator.TrainingDaysBlank | app/generate-plan/page.js:155 | a blank answer does not parse and falls back to 3 days |
| PlanGenerator.DayName | app/generate-plan/page.js:228-236 | a day has a name exactly for days 1-3 of a split up to three days, 1-4 of four days and 1-6 of more; the table entry is `Lookup` |
| PlanGenerator.TargetMuscles | app/generate-plan/page.js:238-246 | a day has target muscles exactly when it has a name, and on every day of a four-day split |
| PlanGenerator.FullBodySplit | app/generate-plan/page.js:228-240 | up to three days train Full Body A/B/C with their muscle groups |
| PlanGenerator.UpperLowerSplit | app/generate-plan/page.js:231-242 | four days alternate Upper and Lower Body, and the muscles follow the same parity |
| PlanGenerator.RotationSplit | app/generate-plan/page.js:233-244 | five or more days rotate Push/Pull/Legs/Upper/Lower/Full Body; a seventh day has neither name nor muscles |
| PlanGenerator.HasGym | app/generate-plan/page.js:195 | an equipment answer containing "gym" or "weights"; `GenerateWorkoutPlan` states the plan is built with it |
| PlanGenerator.PlannedExercises | app/generate-plan/page.js:248-275 | six exercises or none; without a gym only bodyweight or light dumbbells; none exactly for gym users on days after the first of a 4+ day split |
| PlanGenerator.GenerateExercises | app/generate-plan/page.js:248-275 | the list the method pushes for a day is exactly the planned one, `PlannedExercises` |
| PlanGenerator.PlannedDay | app/generate-plan/page.js:199-216 | the day object carries its day number, a non-empty time, notes beginning with the form advice, and the planned exercises |
| PlanGenerator.PlannedWeek | app/generate-plan/page.js:197-217 | the week has one planned day per training day |
| PlanGenerator.GymDaysAfterFirstAreEmpty | app/generate-plan/page.js:252-253 | gym users of a 4+ day split get the gym list on day 1 and nothing on later days |
| PlanGenerator.WithNotes | app/generate-plan/page.js:222-224 | week 2-4 copies keep every day and replace only its notes |
| PlanGenerator.PlannedWeekDays | app/generate-plan/page.js:197-217 | the week-1 loop produces one planned day per training day, day i+1 at index i |
| PlanGenerator.WeeksOf | app/generate-plan/page.js:220-225 | the detail holds exactly weeks 1-4: week 1 as built, weeks 2-4 with their progression notes |
| PlanGenerator.WeeksOfKeepsDays | app/generate-plan/page.js:220-225 | every week 1-4 has as many days as week 1, each with the same day number at the same index |
| PlanGenerator.Phase1DayNumbers | app/generate-plan/page.js:197-225 | in every week 1-4 of phase 1 of a generated plan, the day at index i is day i+1 |
| PlanGenerator.GeneratePhase1Workouts | app/generate-plan/page.js:194-226 | the loop builds the four-week detail of the planned week for the profile's equipment |
| PlanGenerator.Phase1Weeks | app/generate-plan/page.js:199-224 | every week has the same days and exercises as week 1 and differs only in its notes (injury note in week 1) |
| PlanGenerator.GenerateWorkoutPlan | app/generate-plan/page.js:154-192 | three phases over weeks 1-4, 5-8, 9-12, only phase 1 detailed and unlocked, trained `parseInt(days) \|\| 3` days |
| PlanGenerator.SkeletonPartitionsWeeks | app/generate-plan/page.js:161-190 | every week 1-12 belongs to exactly one phase, phase ⌈w/4⌉ |
| NutritionPlanner.Round | app/generate-plan/page.js:288 | `Math.round` lands within half a unit of its argument |
| NutritionPlanner.BodyWeight | app/generate-plan/page.js:279 | the weight used is the answer when it is non-zero and 150 when it is missing or zero; never 0 |
| NutritionPlanner.Age | app/generate-plan/page.js:280 | `parseInt(age) \|\| 25`: the parsed age when it is a non-zero number, 25 when it does not parse or is 0 |
| NutritionPlanner.Bmr | app/generate-plan/page.js:284 | Mifflin-St Jeor with fixed heights: 4.53592 per pound, -5 per year, plus 1098.75 for men and 870.25 otherwise |
| NutritionPlanner.ActivityMultiplier | app/generate-plan/page.js:287 | between 1.375 and 1.725, and 1.725 exactly for answers other than "2" and "3" |
| NutritionPlanner.Tdee | app/generate-plan/page.js:288 | TDEE is BMR times the multiplier rounded, within half a calorie |
| NutritionPlanner.DailyCalories | app/generate-plan/page.js:290-296 | for a non-negative TDEE a "Lose fat" goal never exceeds it and any other goal never falls below it; without either goal the target is TDEE |
| NutritionPlanner.BmrGenderGap | app/generate-plan/page.js:281-284 | for the same weight and age a male BMR exceeds the female one by 228.5 |
| NutritionPlanner.BmrSlopes | app/generate-plan/page.js:284 | BMR rises 4.53592 per pound and falls 5 per year |
| NutritionPlanner.UnansweredDaysMismatch | app/generate-plan/page.js:287 | an unanswered days field plans 3 days yet uses the 1.725 multiplier, unlike "3" |
| NutritionPlanner.GoalAdjustment | app/generate-plan/page.js:290-296 | a "Lose fat" goal gets 85% of TDEE and otherwise a "Build muscle" goal 110%, each within rounding |
| NutritionPlanner.MacroSplit | app/generate-plan/page.js:299-301 | protein, fat and carb grams give back the calorie target within rounding (-1 to +2 kcal) |
| NutritionPlanner.MacroShares | app/generate-plan/page.js:299-300 | fat is a quarter of the calories within rounding; protein is 0.8 g per pound within rounding |
| NutritionPlanner.NegativeCarbs | app/generate-plan/page.js:299-301 | carbs are not clamped: 70 kcal at 150 lb gives -107 g |
| NutritionPlanner.TotalOfFive | app/generate-plan/page.js:323-381 | the day's total is the sum of the five meals |
| NutritionPlanner.MealPlan | app/generate-plan/page.js:323-381 | five meals, Breakfast to Dinner, at their fixed times |
| NutritionPlanner.MealPlanTotals | app/generate-plan/page.js:323-381 | five meals whose calories, carbs and fats sum to the targets within rounding and whose protein sums to about 110% |
| NutritionPlanner.FoodsFollowRestrictions | app/generate-plan/page.js:324-325 | only the vegan and vegetarian flags change the foods, and of the meals that depend on them only |
| NutritionPlanner.NonEmptyOnly | app/generate-plan/page.js:319 | `filter(Boolean)` keeps exactly the non-empty texts |
| NutritionPlanner.NonEmptyOnlyAppend | app/generate-plan/page.js:319 | filtering distributes over concatenation |
| NutritionPlanner.NonEmptyOnlyKeeps | app/generate-plan/page.js:319 | texts already non-empty are kept in order |
| NutritionPlanner.CalorieGuideline | app/generate-plan/page.js:313 | the calorie guideline is never dropped by the filter |
| NutritionPlanner.ProteinGuideline | app/generate-plan/page.js:314 | the protein guideline is never dropped by the filter |
| NutritionPlanner.Guidelines | app/generate-plan/page.js:312-319 | every guideline is non-empty; meal spreading and water are always there, meal prep for a time challenge and plant protein for vegetarians and vegans |
| NutritionPlanner.GuidelinesShape | app/generate-plan/page.js:312-319 | four fixed guidelines, then the meal-prep and plant-protein tips exactly when their answers ask for them |
| NutritionPlanner.GenerateNutritionPlan | app/generate-plan/page.js:277-321 | the plan carries the goal-adjusted target, exactly the `MacroSplit` macros of that target and the body weight (which give it back within rounding), five meals and a water goal of 8 |
| NutritionPlanner.NutritionPlanConsistent | app/generate-plan/page.js:277-321 | the plan's five meals add up to its calorie target within 2 kcal, and its first two guidelines state that target with the goal and the protein grams |
| Onboarding.DefaultForm | app/onboarding/page.js:20-30 | without saved answers every answer is empty |
| Onboarding.AllAnswersListed | app/onboarding/page.js:133-156 | the answer tables name every field |
| Onboarding.CanProceed | app/onboarding/page.js:133-156 | whether Next is enabled on a step; stated step by step by `CanProceedTable` and `DefaultFormBlocks` |
| Onboarding.CanProceedTable | app/onboarding/page.js:133-156 | a step proceeds iff it is one of steps 1-9 and all its required answers are given |
| Onboarding.DefaultFormBlocks | app/onboarding/page.js:133-156 | with empty answers only the optional steps 8 and 9 proceed |
| Onboarding.OnboardingWizard.constructor | app/onboarding/page.js:10-19 | the wizard starts on step 1 with the saved answers, or the defaults |
| Onboarding.OnboardingWizard.HandleNext | app/onboarding/page.js:98-103 | one step forward, never past step 9 |
| Onboarding.OnboardingWizard.HandleBack | app/onboarding/page.js:105-110 | one step back, never before step 1 |
| Onboarding.OnboardingWizard.ClickNext | app/onboarding/page.js:1127-1131 | the Next button advances only when shown (before step 9) and enabled (the step can proceed) |
| Onboarding.OnboardingWizard.UpdateFormData | app/onboarding/page.js:81-88 | one answer changes, the others and the saved copy follow |
| Onboarding.OnboardingWizard.ToggleArrayItem | app/onboarding/page.js:89-96 | the list answer is toggled, everything else kept |
| Onboarding.OnboardingWizard.ToggleCapped | app/onboarding/page.js:411-421 | deselecting always works, selecting only below two choices, so at most two stay chosen |
| Onboarding.ToggleRoundTrip | app/onboarding/page.js:89-96 | toggling an unselected answer twice restores the list |
| Onboarding.HeightLabel | app/onboarding/page.js:216-217 | the label of height option i; `HeightOption` and `HeightLabelsDistinct` state what it shows |
| Onboarding.HeightOptions | app/onboarding/page.js:215-222 | 36 height options, option i labelled from i + 48 inches |
| Onboarding.HeightOption | app/onboarding/page.js:216-217 | each option has 4-6 feet and under 12 inches totalling i + 48 inches |
| Onboarding.HeightLabelsDistinct | app/onboarding/page.js:215-222 | no two height options share a label |
| Onboarding.NoGoalOptionMentionsBuildMuscle | app/onboarding/page.js:251-260 | none of the eight goal options contains "Build muscle" |
| Onboarding.FormGoalsNeverGetSurplus | app/onboarding/page.js:251-260 | a form-chosen goal gets the deficit or maintenance, never the surplus |
| Onboarding.DaysOptionsTrain | app/onboarding/page.js:458 | the options "2", "3", "4-5", "6+" train 2, 3, 4 and 6 days |
| PlanPage.StoredNumber | app/dashboard/plan/page.js:23 | `parseInt(stored) \|\| fallback`: the parsed value when it is a non-zero number; the fallback when absent, unparsable or 0 |
| PlanPage.ParseNatToString | app/dashboard/plan/page.js:23 | a written number parses back to itself |
| PlanPage.StoredNumberRoundTrip | app/dashboard/plan/page.js:23 | a stored positive week is read back unchanged |
| PlanPage.DisplayedPhase | app/dashboard/plan/page.js:82 | `Math.ceil(week / 4)` is the phase whose four weeks contain the week |
| PlanPage.DisplayedPhaseOfWeek | app/dashboard/plan/page.js:82 | weeks 1-4 show phase 1, 9-12 phase 3, and every week 1-12 a phase 1-3 |
| PlanPage.Locked | app/dashboard/plan/page.js:129 | whether a phase is locked in a week; stated phase by phase by `LockRule` |
| PlanPage.LockRule | app/dashboard/plan/page.js:129 | phase 2 is locked before week 5, phase 3 before week 9, phase 1 never |
| PlanPage.Current | app/dashboard/plan/page.js:130 | whether a phase is the one the week falls in; `ExactlyOneCurrent` shows one phase per week 1-12 |
| PlanPage.ExactlyOneCurrent | app/dashboard/plan/page.js:129-130 | each week 1-12 marks exactly one phase current, and it is not locked; later weeks mark none |
| PlanPage.WeekText | app/dashboard/plan/page.js:156 | a week number prints as its decimal text, a missing entry as nothing |
| PlanPage.RangeLabel | app/dashboard/plan/page.js:156 | the "Weeks a-b" text of a phase; `GeneratedRangeLabels` and `RangeLabelsDistinct` state its values |
| PlanPage.GeneratedRangeLabels | app/dashboard/plan/page.js:156 | the generated phases are labelled 1-4, 5-8 and 9-12 |
| PlanPage.RangeLabelsDistinct | app/dashboard/plan/page.js:156 | the three range labels differ |
| PlanPage.UnlockWeekShown | app/dashboard/plan/page.js:148-151 | a locked phase unlocks exactly at the first week its badge names |
| PlanPage.OnlyFirstPhaseShowsDetail | app/dashboard/plan/page.js:171-180 | only phase 1 offers the detailed-workouts button |
| WorkoutsPage.Selectable | app/dashboard/workouts/page.js:93 | whether a phase click takes effect; `DisabledIffNotSelectable` ties it to the disabled flag |
| WorkoutsPage.DisabledIffNotSelectable | app/dashboard/workouts/page.js:92-98 | a phase button is disabled exactly when a click on it does nothing |
| WorkoutsPage.PhaseAt | app/dashboard/workouts/page.js:61 | `phases[n - 1]` exists exactly for n in 1..3 |
| WorkoutsPage.GeneratedWeekWorkouts | app/dashboard/workouts/page.js:62 | `WeekWorkouts` (`weeks_detail?.[week]` or an empty list) of a generated plan: weeks 1-4 of phase 1 list every training day, all else is empty |
| WorkoutsPage.SplitAtFirstDash | app/dashboard/workouts/page.js:225 | a digits-dash-rest text splits uniquely at its first dash |
| WorkoutsPage.ExerciseId | app/dashboard/workouts/page.js:225 | the id `day-index` of an exercise slot; `ExerciseIdInjective` shows it determines both |
| WorkoutsPage.ExerciseIdInjective | app/dashboard/workouts/page.js:225 | the id `day-index` determines the day and the index |
| WorkoutsPage.CompletionSharedAcrossWeeks | app/dashboard/workouts/page.js:225 | the same exercise slot in weeks 1-4 has the same id, so completing it once checks it in every week |
| WorkoutsPage.SameKeyInEveryWeek | app/dashboard/workouts/page.js:225 | for a phase whose weeks come from one week 1, the workout at index i has the same exercise id in every week |
| WorkoutsPage.CountWorkout | app/dashboard/workouts/page.js:47-49 | completing a workout always records a count |
| WorkoutsPage.CountWorkoutIncrements | app/dashboard/workouts/page.js:47-49 | the count goes up by one from the stored value or 0, and nothing else in the progress changes |
| WorkoutsPage.CountedTimesAdds | app/dashboard/workouts/page.js:42-51 | n completions add n to the count |
| WorkoutsPage.WorkoutTracker.constructor | app/dashboard/workouts/page.js:17-30 | phase and week restored with `parseInt \|\| 1`, completions from storage |
| WorkoutsPage.WorkoutTracker.SelectPhase | app/dashboard/workouts/page.js:92-97 | a selectable phase jumps to its first week; otherwise nothing changes |
| WorkoutsPage.WorkoutTracker.SelectWeek | app/dashboard/workouts/page.js:132 | the week changes and nothing else |
| WorkoutsPage.WorkoutTracker.OpenDay | app/dashboard/workouts/page.js:149 | the day opens and nothing else changes |
| WorkoutsPage.WorkoutTracker.Back | app/dashboard/workouts/page.js:70 | back closes an open day, else goes to the dashboard |
| WorkoutsPage.WorkoutTracker.ToggleExercise | app/dashboard/workouts/page.js:32-40 | the exercise id flips between done and not done, is saved, and no other id changes |
| WorkoutsPage.WorkoutTracker.CompleteWorkout | app/dashboard/workouts/page.js:42-51 | a confirmed completion closes the day and saves the incremented count |
| WorkoutsPage.SelectionAgreesWithDisplay | app/dashboard/workouts/page.js:92-95 | selecting a generated phase lands on a week that displays that phase and unlocks it |
| Dashboard.Guard | app/dashboard/page.js:21-32 | no user goes to login, no onboarding flag goes to onboarding, otherwise the data loads |
| Dashboard.TodayIsFirstPlannedDay | app/dashboard/page.js:43-47 | `TodayWorkout`, the first day of week 1 of phase 1, is for a generated plan day 1 of the profile's split, absent only for zero days |
| Dashboard.Preview | app/dashboard/page.js:217 | the preview is the first four exercises, or all of fewer |
| Dashboard.MoreCount | app/dashboard/page.js:226-230 | the "+ n more" line appears exactly above four exercises, with n > 0 |
| Dashboard.PreviewAccountsForAll | app/dashboard/page.js:217-230 | the preview plus the "more" count is every exercise |
| Dashboard.FirstDayPreview | app/dashboard/page.js:217-230 | the preview of a generated day-1 workout |
| Dashboard.DaysIntoProgram | app/dashboard/page.js:85 | the mock day count lies inside the current week, on its third day |
| Dashboard.CountdownInPhase | app/dashboard/page.js:85-86 | `DaysUntilNextPhase` (28 or 56 minus the days into the program) is 7(4p - w) + 4 in weeks 1-8 of phase p, between 4 and 25 |
| Dashboard.StalePhaseGoesNegative | app/dashboard/page.js:86 | a stored phase behind the stored week shows a negative countdown |
| Dashboard.RestoreWater | app/dashboard/page.js:49-56 | a non-zero count comes only from a log saved today, a log saved today is used as is, and a saved count within 0..8 restores within 0..8 |
| Dashboard.SaturatingStep | app/dashboard/page.js:59-61 | a click adds one glass exactly below 8, never more than one, and keeps a count within 0..8 inside 0..8 without going down |
| Dashboard.SaturatingClicks | app/dashboard/page.js:59-68 | repeated clicks never lower a count and keep it at most 8; at or above 8 they do nothing |
| Dashboard.SaturatingClicksReach | app/dashboard/page.js:59-68 | k clicks give min(count + k, 8) |
| Dashboard.DashboardWater.constructor | app/dashboard/page.js:49-56 | the counter starts from today's saved log |
| Dashboard.DashboardWater.HandleWaterClick | app/dashboard/page.js:59-68 | the counter steps with saturation and is saved only when it changed |
| NutritionPage.WrapStep | app/dashboard/nutrition/page.js:41 | a click adds a glass below 8 and resets to 0 at 8 |
| NutritionPage.WrapClicks | app/dashboard/nutrition/page.js:40-47 | repeated water clicks keep a count within 0..8 inside 0..8 |
| NutritionPage.WrapClicksCycle | app/dashboard/nutrition/page.js:40-47 | k clicks from 0..8 give (count + k) mod 9 |
| NutritionPage.NineClicksReturn | app/dashboard/nutrition/page.js:40-47 | nine clicks return to the starting count |
| NutritionPage.LoggedTotal | app/dashboard/nutrition/page.js:70-76 | the sum over logged indices of `meals[i]?.calories \|\| 0` (`LoggedAmount`): 0 when no index names a meal, never negative for non-negative meals |
| NutritionPage.LoggedTotalAppend | app/dashboard/nutrition/page.js:70-76 | the logged total is additive over the log |
| NutritionPage.LoggedTotalRemove | app/dashboard/nutrition/page.js:49-72 | removing a meal index subtracts its amount once per copy |
| NutritionPage.LoggedTotalRemoveCopies | app/dashboard/nutrition/page.js:49-72 | removing every copy of a meal index lowers the total by that meal's amount added once per copy |
| NutritionPage.ToggleMealTotal | app/dashboard/nutrition/page.js:49-76 | logging a meal adds its amount, unlogging a single entry subtracts it |
| NutritionPage.AllMealsLogged | app/dashboard/nutrition/page.js:70-76 | logging all five meals totals the plan's meals |
| NutritionPage.Remaining | app/dashboard/nutrition/page.js:119-138 | remaining plus logged is the target; negative exactly when over |
| NutritionPage.LoggingEveryMealMeetsTarget | app/dashboard/nutrition/page.js:119 | eating all five generated meals leaves the calorie target met within 2 kcal |
| NutritionPage.BarWidth | app/dashboard/nutrition/page.js:78-115 | the bar is the logged share in percent, capped at 100 |
| NutritionPage.NutritionTracker.constructor | app/dashboard/nutrition/page.js:15-38 | water and meals restored from the logs saved today; `RestoreMeals` yields a non-empty list only from a log saved today |
| NutritionPage.NutritionTracker.HandleWaterClick | app/dashboard/nutrition/page.js:40-47 | the counter wraps and is always saved; meals unchanged |
| NutritionPage.NutritionTracker.ToggleMeal | app/dashboard/nutrition/page.js:49-60 | the meal index flips, is saved with today's date, other indices unchanged |
| NutritionPage.ToggleMealTwice | app/dashboard/nutrition/page.js:49-60 | two clicks restore whether the meal is logged |
| ProgressPage.CheckedIn | app/dashboard/progress/page.js:57-68 | a check-in always leaves a check-in list |
| ProgressPage.CheckInAppends | app/dashboard/progress/page.js:57-68 | a check-in appends one entry with the weight and notes, sets the current weight and keeps everything else |
| ProgressPage.WithPhoto | app/dashboard/progress/page.js:36-42 | an upload always leaves a photo list |
| ProgressPage.PhotoAppends | app/dashboard/progress/page.js:36-42 | an upload appends one photo and keeps everything else |
| ProgressPage.ProgressTracker.constructor | app/dashboard/progress/page.js:12-29 | the progress is the saved one and the form blank |
| ProgressPage.ProgressTracker.SubmitCheckIn | app/dashboard/progress/page.js:51-82 | without a weight nothing changes; otherwise the check-in is recorded, saved and the form reset |
| ProgressPage.ProgressTracker.HandlePhotoUpload | app/dashboard/progress/page.js:31-49 | with a file the photo is recorded and saved; without one nothing changes |
| ProgressPage.WeightChange | app/dashboard/progress/page.js:92 | a change exists exactly when start and current weight exist |
| ProgressPage.TrendIcon | app/dashboard/progress/page.js:126-130 | down for a loss, up for a gain, no icon otherwise |
| ProgressPage.TrendAfterCheckIn | app/dashboard/progress/page.js:57-130 | after a check-in the trend is down exactly below the start weight and blank exactly at it |
| FormCheck.MockAnalysis | app/dashboard/form-check/page.js:86-164 | the canned analysis for an exercise; `MockScores`, `OnlyBenchHasCriticalIssues` and `ChoicesAnalysed` state what it returns |
| FormCheck.MockScores | app/dashboard/form-check/page.js:86-164 | Squat 8.5, Bench Press 7.5, Deadlift 9.0, anything else the default 8.0 |
| FormCheck.OnlyBenchHasCriticalIssues | app/dashboard/form-check/page.js:100-139 | only the Bench Press analysis lists a critical issue |
| FormCheck.ChoicesAnalysed | app/dashboard/form-check/page.js:24-35 | of the ten choices only the first three have their own analysis |
| FormCheck.Record | app/dashboard/form-check/page.js:70-79 | the new entry goes first, the older ones follow, at most ten kept |
| FormCheck.Take | app/dashboard/form-check/page.js:79 | `slice(0, n)` is the first n entries, or all of fewer |
| FormCheck.Reversed | app/dashboard/form-check/page.js:70-79 | reversal mirrors the indices |
| FormCheck.RecordAllKeepsNewest | app/dashboard/form-check/page.js:70-79 | after any number of analyses the history is the ten newest, newest first |
| FormCheck.FormCheckPage.constructor | app/dashboard/form-check/page.js:16-22 | the history is loaded from storage |
| FormCheck.FormCheckPage.SelectExercise | app/dashboard/form-check/page.js:212 | only the exercise changes |
| FormCheck.FormCheckPage.HandleVideoUpload | app/dashboard/form-check/page.js:37-53 | only a file whose type starts with "video/" replaces the video |
| FormCheck.FormCheckPage.AnalyzeForm | app/dashboard/form-check/page.js:55-84 | without a video or an exercise nothing starts; otherwise the analysis is shown and recorded at the head of the saved history |
| AiCoach.FirstMatch | app/dashboard/ai-coach/page.js:91-127 | the first rule whose keywords occur, and none exactly when no rule's keywords occur |
| AiCoach.RouteTopic | app/dashboard/ai-coach/page.js:88-127 | the topic of the first rule, in source order, whose keyword occurs in the lower-cased question |
| AiCoach.MentionsProgressWins | app/dashboard/ai-coach/page.js:91 | a progress keyword always routes to progress |
| AiCoach.ProteinRouting | app/dashboard/ai-coach/page.js:91-95 | "protein" routes to protein exactly when no progress keyword occurs |
| AiCoach.LowerCharIdempotent | app/dashboard/ai-coach/page.js:88 | lower-casing a lower-cased character changes nothing |
| AiCoach.RoutingIgnoresCase | app/dashboard/ai-coach/page.js:88 | a question and its lower-cased form route alike |
| AiCoach.SquatFormRouting | app/dashboard/ai-coach/page.js:101 | "squat" or "form", with no earlier keyword, routes to form advice |
| AiCoach.KeywordsMatchInsideWords | app/dashboard/ai-coach/page.js:101 | keywords match inside words: "platform" routes to form advice |
| AiCoach.CoachProtein | app/dashboard/ai-coach/page.js:96-97 | `Math.round(weight * 0.8)`, with 150 lb when no weight is known |
| AiCoach.CoachAgreesWithPlan | app/dashboard/ai-coach/page.js:96-97 | the coach's protein figure equals the nutrition plan's for a known non-zero weight |
| AiCoach.GenerateReply | app/dashboard/ai-coach/page.js:87-139 | a routed topic's reply, the protein reply with its grams, or one of three default replies when nothing matches |
| AiCoach.Chat.constructor | app/dashboard/ai-coach/page.js:16-36 | the saved history, or the welcome message |
| AiCoach.Chat.QuickQuestionsShown | app/dashboard/ai-coach/page.js:250 | the quick questions show while at most the welcome message is there and no reply is pending; `HandleSendMessage` hides them and `ClearChat` shows them again unless a reply is pending |
| AiCoach.Chat.HandleSendMessage | app/dashboard/ai-coach/page.js:60-74 | blank text changes nothing; otherwise the question is appended, the input cleared, typing shown, the quick questions hidden, the question kept for the reply, and the chat saved once it holds more than the welcome message (`Saved`) |
| AiCoach.Chat.ReceiveReply | app/dashboard/ai-coach/page.js:75-84 | while typing, the reply generated for the question just sent is appended, typing ends and the chat is saved once it holds more than the welcome message |
| AiCoach.Chat.ClearChat | app/dashboard/ai-coach/page.js:141-151 | a confirmed clear leaves one message and removes the saved chat |
| Signup.UsualAddressMatches | app/signup/page.js:29 | name@domain.tld without spaces passes the e-mail pattern |
| Signup.MatchNeedsAtAndDot | app/signup/page.js:29 | text without '@' or '.' fails the pattern |
| Signup.SpaceBeforeAtFails | app/signup/page.js:29 | a space just before the only '@' fails the pattern |
| Signup.PaddingStillMatches | app/signup/page.js:29 | the unanchored pattern accepts text around a matching address |
| Signup.NameError | app/signup/page.js:23-25 | the name is required once trimmed |
| Signup.EmailError | app/signup/page.js:27-31 | the e-mail is required once trimmed, then must match the pattern |
| Signup.PasswordError | app/signup/page.js:33-37 | the password is too short exactly when it has fewer than 8 UTF-16 code units: 8 characters always pass, fewer than 4 always fail |
| Signup.FourEmojiPasswordAccepted | app/signup/page.js:35 | four emoji outside the Basic Multilingual Plane count as 8 code units and pass |
| Signup.Validate | app/signup/page.js:20-45 | one message per failing field, none for the others |
| Signup.NoErrorsIff | app/signup/page.js:20-45 | no message is shown exactly when none of the four field checks fails |
| Signup.ValidIff | app/signup/page.js:43-44 | the form is valid exactly when every field passes its check: a non-blank name, a non-blank e-mail matching the pattern, at least 8 UTF-16 code units of password and a confirmation equal to it (`ConfirmError`) |
| Signup.EmptyFormErrors | app/signup/page.js:20-45 | the empty form fails name, e-mail and password but not the confirmation |
| Signup.SignupPage.constructor | app/signup/page.js:1-19 | the form starts empty without errors |
| Signup.SignupPage.Edit | app/signup/page.js:97-157 | the edited field changes, errors stay |
| Signup.SignupPage.HandleSubmit | app/signup/page.js:47-66 | an invalid form shows its errors; a valid one stores the name and e-mail with a clock id and goes to onboarding |
| Login.Validate | app/login/page.js:18-31 | the e-mail is required once trimmed, the password as typed |
| Login.LoginValidIff | app/login/page.js:18-31 | valid exactly for a non-blank e-mail and a non-empty password |
| Login.BlankPasswordAccepted | app/login/page.js:18-31 | a password of spaces is accepted |
| Login.Decide | app/login/page.js:43-57 | no stored user gives the no-account error; otherwise dashboard or onboarding by the onboarding flag |
| Login.LoginAgreesWithGuard | app/login/page.js:43-57 | login routes exactly as the dashboard's guard would |
| Login.LoginPage.constructor | app/login/page.js:1-17 | the form starts empty without errors |
| Login.LoginPage.Edit | app/login/page.js:92-119 | the edited field changes, errors stay |
| Login.LoginPage.HandleSubmit | app/login/page.js:33-59 | an invalid form shows its errors; a valid one navigates or reports the missing account |
| Admin.StoredUsers | app/admin/dashboard/page.js:52-58 | the users of the parsed `athenix_user_` entries in key order; stated by `StoredUsersFromListedEntries`, `StoredUsersAppend` and `StoredUsersComplete` |
| Admin.StoredUsersFromListedEntries | app/admin/dashboard/page.js:52-59 | never more users than entries, each from an `athenix_user_` entry that parses, and one per entry when every entry is listed |
| Admin.StoredUsersAppend | app/admin/dashboard/page.js:52-58 | the scan distributes over concatenation of the key list, so users appear in key order |
| Admin.StoredUsersComplete | app/admin/dashboard/page.js:52-58 | every parsed `athenix_user_` entry is listed, between the users of the keys before it and those after it |
| Admin.SignupRecordNotListed | app/admin/dashboard/page.js:53 | the signup record `athenix_user` is not an `athenix_user_` key and is not listed |
| Admin.CollectStoredUsers | app/admin/dashboard/page.js:48-59 | the scan loop collects exactly the listed users in key order |
| Admin.MockUsers | app/admin/dashboard/page.js:62-93 | three mock users |
| Admin.ComputeAnalytics | app/admin/dashboard/page.js:97-103 | total is 3 plus the stored users, active is ⌊75%⌋ and strictly between 0 and total, workouts 45 plus 3 per stored user, revenue and conversion 0 |
| Admin.Cells | app/admin/dashboard/page.js:107-117 | each row has as many cells as the header |
| Admin.RowRoundTrip | app/admin/dashboard/page.js:118 | each row of `Rows` is a user's comma-joined cells, and a row without commas in its cells splits back into them |
| Admin.CommaInNameAddsColumn | app/admin/dashboard/page.js:108-118 | a comma in a name adds one column, since cells are not quoted |
| Admin.IntTextHasNoLineBreak | app/admin/dashboard/page.js:112-116 | numbers never contain a line break |
| Admin.HeaderIsOneLine | app/admin/dashboard/page.js:108 | the header row has no line break |
| Admin.RowIsOneLine | app/admin/dashboard/page.js:109-117 | a row without line breaks in its texts has none |
| Admin.ExportCsv | app/admin/dashboard/page.js:106-118 | the export text; `CsvStartsWithHeader`, `CsvIsOneLine` and `RowRoundTrip` state its shape |
| Admin.CsvIsOneLine | app/admin/dashboard/page.js:118 | rows are joined with a literal backslash-n, so the whole export is one line |
| Admin.CsvStartsWithHeader | app/admin/dashboard/page.js:107-118 | the export starts with the header, followed by the separator when there are users |
| Admin.AdminDashboard.LoadDashboardData | app/admin/dashboard/page.js:44-104 | the users are the mocks then the stored ones, and the analytics count them all |
| Admin.AdminDashboard.constructor | app/admin/dashboard/page.js:24-32 | the stored flag "true" authenticates and loads the data |
| Admin.AdminDashboard.SetPassword | app/admin/dashboard/page.js:145 | only the typed password changes |
| Admin.AdminDashboard.HandleLogin | app/admin/dashboard/page.js:34-42 | the right password authenticates, stores the flag and loads; a wrong one alerts and changes nothing |
| Admin.AdminDashboard.Leave | app/admin/dashboard/page.js:168-171 | leaving removes the flag and goes home |

## Left out

- Browser storage is modelled as values. A stored entry is a parameter or a field. JSON encoding and JSON `null` entries are not modelled. A failing `JSON.parse` is modelled only in the admin scan, where an entry that does not parse is `None` and is skipped (`Admin.StorageEntry`); elsewhere a stored value is taken as already parsed.
- Timers (`setTimeout`, the typing delay, the analysis delay) are taken as one atomic step. Clock-derived ids and dates are parameters.
- `alert`, `window.scrollTo`, and scrolling the chat to the bottom have no state here. Neither does the React rendering beyond the values listed above.
- `FileReader` is a parameter: the data URL it produces.
- The onboarding body photo and its upload are left out, as are the measurements, the slider answers and the review flag. They gate nothing.
- `handleGeneratePlan` is left out. The onboarding-complete flag, the generation screen's timers and the copying of plans into storage are plumbing around the generators that are modelled.
- The logout confirmation is left out. So are the landing, settings, forgot-password and layout pages and the logo component.
- The inputs' onChange on the progress check-in form and on the AI-coach text box are plain field assignments and are left out.
- Floating point: weights, BMR and macros are exact reals. IEEE rounding error and `toFixed` formatting are not modelled.
- `parseFloat` on the weight answer: the weight is a parameter that is already a number, or absent. Non-numeric text (NaN) is not modelled.
- `parseInt`: leading white space, one optional `+` or `-` sign and the decimal digits that follow are modelled (`PlanGenerator.ParseInt`). The `0x` hexadecimal prefix is not: the inputs are the page's own option texts and stored decimal numbers.
- `toLowerCase` and `trim`: only ASCII letters are lower-cased. White space follows the ECMAScript list.
- Locale formatting of dates in the CSV export is a function parameter.
- `Object.keys(localStorage)` order is taken as the order of the entries given.
- The text of the AI coach's replies is not modelled; only which reply is chosen. The random draw is a parameter in [0, 1).
- The form checker's analysis table: keys inherited from `Object.prototype` (such as "constructor") are not looked up. Only the page's own three keys are.
- WorkoutsPage.WorkoutTracker.SelectPhase: requires the clicked phase to list at least one week. Every phase the plan generator builds lists four.
- NutritionPlanner.DailyCalories: the direction of the goal adjustment is stated only for a non-negative TDEE. A negative typed weight or a very large age gives a negative BMR and TDEE, and then the 85% deficit lies above TDEE and the 110% surplus below it, as in the page's own arithmetic.
- NutritionPage.BarWidth: a zero target gives no width (`None`). The page divides by zero there and passes the quotient through `Math.min(pct, 100)`: a positive logged amount draws a full 100% bar, and a zero or negative one gives a `NaN` or `-Infinity` width that the browser ignores. A zero protein target is reachable, since a weight of 0.5 lb rounds 0.4 g to 0.

=== FILE: admin.dfy ===
/**
 * The admin dashboard: the password gate, the scan of stored user records
 * under the `athenix_user_` prefix, the analytics derived from their
 * number, and the CSV export of the user table.
 */
module Admin {
  import opened Basics
  import opened Text

  const AdminPassword := "athenix2025"
  const AuthFlag := "true"

  // ---------------------------------------------------------------------------
  // Users

  /**
   * A user row as parsed from JSON. Missing properties are None; the two
   * dates are the instants (milliseconds since the epoch) their ISO texts
   * denote.
   */
  datatype UserRow = UserRow(
    id: Option<string>,
    name: Option<string>,
    email: Option<string>,
    signupDate: Option<int>,
    plan: Option<string>,
    status: Option<string>,
    workoutsCompleted: Option<int>,
    lastActive: Option<int>
  )

  /** One stored key and its value parsed as JSON; None when parsing throws. */
  datatype StorageEntry = StorageEntry(key: string, value: Option<UserRow>)

  const UserKeyPrefix := "athenix_user_"

  /** The key the signup page writes its record under. */
  const SignupKey := "athenix_user"

  /** Whether the scan keeps an entry: its key has the prefix and its value parsed. */
  predicate Listed(e: StorageEntry) {
    StartsWith(e.key, UserKeyPrefix) && e.value.Some?
  }

  /** The rows the scan collects from the entries, in key order. */
  function StoredUsers(entries: seq<StorageEntry>): seq<UserRow> {
    if entries == [] then []
    else
      var last := entries[|entries| - 1];
      StoredUsers(entries[..|entries| - 1]) + (if Listed(last) then [last.value.value] else [])
  }

  /** The scan keeps key order: the rows of two runs of entries are the rows of the first, then those of the second. */
  lemma {:induction false} StoredUsersAppend(a: seq<StorageEntry>, b: seq<StorageEntry>)
    ensures StoredUsers(a + b) == StoredUsers(a) + StoredUsers(b)
  {
    if b == [] {
      assert a + b == a;
    } else {
      var front := b[..|b| - 1];
      assert (a + b)[..|a + b| - 1] == a + front;
      assert (a + b)[|a + b| - 1] == b[|b| - 1];
      StoredUsersAppend(a, front);
    }
  }

  /**
   * Every listed entry is shown, at its place among the others: its row
   * follows the rows of the entries before it and precedes those after it.
   */
  lemma {:induction false} StoredUsersComplete(entries: seq<StorageEntry>, j: int)
    requires 0 <= j < |entries| && Listed(entries[j])
    ensures StoredUsers(entries) == StoredUsers(entries[..j]) + [entries[j].value.value] + StoredUsers(entries[j + 1..])
    ensures entries[j].value.value in StoredUsers(entries)
  {
    var e := entries[j];
    assert entries == entries[..j] + [e] + entries[j + 1..];
    StoredUsersAppend(entries[..j] + [e], entries[j + 1..]);
    StoredUsersAppend(entries[..j], [e]);
    assert [e][..0] == [];
  }

  /** Never more rows than entries, each from a listed entry, and one row per entry when every entry is listed. */
  lemma {:induction false} StoredUsersFromListedEntries(entries: seq<StorageEntry>)
    ensures |StoredUsers(entries)| <= |entries|
    ensures forall u :: u in StoredUsers(entries) ==> exists j :: 0 <= j < |entries| && Listed(entries[j]) && entries[j].value == Some(u)
    ensures (forall j :: 0 <= j < |entries| ==> Listed(entries[j])) ==> |StoredUsers(entries)| == |entries|
  {
    if entries != [] {
      var front := entries[..|entries| - 1];
      StoredUsersFromListedEntries(front);
      forall u | u in StoredUsers(entries)
        ensures exists j :: 0 <= j < |entries| && Listed(entries[j]) && entries[j].value == Some(u)
      {
        if u in StoredUsers(front) {
          var j :| 0 <= j < |front| && Listed(front[j]) && front[j].value == Some(u);
          assert entries[j] == front[j];
        } else {
          assert entries[|entries| - 1].value == Some(u);
        }
      }
      if forall j :: 0 <= j < |entries| ==> Listed(entries[j]) {
        assert forall j :: 0 <= j < |front| ==> front[j] == entries[j];
      }
    }
  }

  /** The record the signup page stores is never listed: its key is shorter than the prefix. */
  lemma SignupRecordNotListed(entries: seq<StorageEntry>, v: Option<UserRow>)
    ensures StoredUsers(entries + [StorageEntry(SignupKey, v)]) == StoredUsers(entries)
  {
    var all := entries + [StorageEntry(SignupKey, v)];
    assert all[..|all| - 1] == entries;
    assert !StartsWith(SignupKey, UserKeyPrefix) by {
      assert |SignupKey| < |UserKeyPrefix|;
    }
  }

  /** loadDashboardData's `forEach` over the stored entries. */
  method CollectStoredUsers(entries: seq<StorageEntry>) returns (all: seq<UserRow>)
    ensures all == StoredUsers(entries)
  {
    all := [];
    var i := 0;
    while i < |entries|
      invariant 0 <= i <= |entries|
      invariant all == StoredUsers(entries[..i])
    {
      assert entries[..i + 1][..i] == entries[..i];
      if StartsWith(entries[i].key, UserKeyPrefix) && entries[i].value.Some? {
        all := all + [entries[i].value.value];
      }
      i := i + 1;
    }
    assert entries[..|entries|] == entries;
  }

  const HourMs := 60 * 60 * 1000
  const DayMs := 24 * HourMs

  /** The three demonstration users, dated relative to `now`. */
  function MockUsers(now: int): (r: seq<UserRow>)
    ensures |r| == 3
  {
    [ UserRow(Some("user_001"), Some("John Doe"), Some("john@example.com"), Some(now - 7 * DayMs),
              Some("Beta"), Some("Active"), Some(12), Some(now - 2 * HourMs)),
      UserRow(Some("user_002"), Some("Sarah Smith"), Some("sarah@example.com"), Some(now - 14 * DayMs),
              Some("Beta"), Some("Active"), Some(28), Some(now - 5 * HourMs)),
      UserRow(Some("user_003"), Some("Mike Johnson"), Some("mike@example.com"), Some(now - 3 * DayMs),
              Some("Beta"), Some("Active"), Some(5), Some(now - DayMs)) ]
  }

  // ---------------------------------------------------------------------------
  // Analytics

  datatype Analytics = Analytics(totalUsers: int, activeUsers: int, totalWorkouts: int, totalRevenue: int, conversionRate: int)

  const NoAnalytics := Analytics(0, 0, 0, 0, 0)

  /** The analytics for `stored` users found besides the three mock users; 0.75 times an integer is exact in binary. */
  function ComputeAnalytics(stored: nat): (a: Analytics)
    ensures a.totalUsers == 3 + stored
    ensures a.activeUsers == (3 * a.totalUsers) / 4
    ensures 0 < a.activeUsers < a.totalUsers
    ensures a.totalWorkouts == 45 + 3 * stored
    ensures a.totalRevenue == 0 && a.conversionRate == 0
  {
    var total := 3 + stored;
    var active := (total as real * 0.75).Floor;
    assert active == (3 * total) / 4 by {
      var q := (3 * total) / 4;
      assert q as real <= total as real * 0.75 < q as real + 1.0;
    }
    Analytics(total, active, 45 + 3 * stored, 0, 0)
  }

  // ---------------------------------------------------------------------------
  // CSV export

  const CsvHeader := ["Name", "Email", "Signup Date", "Plan", "Status", "Workouts", "Last Active"]

  /** The rows are joined by a backslash followed by 'n', two characters, not by a line break. */
  const RowSeparator := "\\n"

  /** `[u.name, ..., u.workoutsCompleted || 0, ...]` with `join`'s empty text for a missing property; `fmt` is the locale date formatting. */
  function Cells(u: UserRow, fmt: Option<int> -> string): (r: seq<string>)
    ensures |r| == |CsvHeader|
  {
    [u.name.GetOr(""), u.email.GetOr(""), fmt(u.signupDate), u.plan.GetOr(""), u.status.GetOr(""),
     IntToString(u.workoutsCompleted.GetOr(0)), fmt(u.lastActive)]
  }

  function Rows(users: seq<UserRow>, fmt: Option<int> -> string): (r: seq<string>)
    ensures |r| == |users|
    ensures forall i :: 0 <= i < |users| ==> r[i] == Join(Cells(users[i], fmt), ",")
  {
    seq(|users|, i requires 0 <= i < |users| => Join(Cells(users[i], fmt), ","))
  }

  /** exportUserData's text: the header line, then one line per user, in order. */
  function ExportCsv(users: seq<UserRow>, fmt: Option<int> -> string): string {
    Join([Join(CsvHeader, ",")] + Rows(users, fmt), RowSeparator)
  }

  /** A user's line splits back into its seven cells when no cell holds a comma: nothing is quoted. */
  lemma RowRoundTrip(u: UserRow, fmt: Option<int> -> string)
    requires forall k :: 0 <= k < |Cells(u, fmt)| ==> ',' !in Cells(u, fmt)[k]
    ensures Split(Join(Cells(u, fmt), ","), ',') == Cells(u, fmt)
  {
    SplitJoin(Cells(u, fmt), ',');
  }

  /** A comma inside a name shifts the columns: the line splits into more cells than the header has. */
  lemma CommaInNameAddsColumn(u: UserRow, fmt: Option<int> -> string, first: string, second: string)
    requires u.name == Some(first + "," + second)
    requires ',' !in first && ',' !in second
    requires forall k :: 1 <= k < |Cells(u, fmt)| ==> ',' !in Cells(u, fmt)[k]
    ensures |Split(Join(Cells(u, fmt), ","), ',')| == |CsvHeader| + 1
  {
    var cells := Cells(u, fmt);
    var parts := [first, second] + cells[1..];
    assert Join(cells, ",") == Join(parts, ",") by {
      assert cells == [first + "," + second] + cells[1..];
      assert Join(cells, ",") == first + "," + second + "," + Join(cells[1..], ",");
      assert Join(parts, ",") == first + "," + Join(parts[1..], ",");
      assert parts[1..] == [second] + cells[1..];
      assert Join(parts[1..], ",") == second + "," + Join(cells[1..], ",");
    }
    SplitJoin(parts, ',');
  }

  lemma IntTextHasNoLineBreak(i: int)
    ensures '\n' !in IntToString(i)
  {
    var s := IntToString(i);
    if i >= 0 {
      assert forall k :: 0 <= k < |s| ==> IsDigit(s[k]);
    } else {
      var d := NatToString(-i);
      assert forall k :: 0 <= k < |d| ==> IsDigit(d[k]);
    }
  }

  /** No text of the row, and neither formatted date, holds a line break. */
  predicate NoLineBreakIn(u: UserRow, fmt: Option<int> -> string) {
    && '\n' !in u.name.GetOr("") && '\n' !in u.email.GetOr("")
    && '\n' !in u.plan.GetOr("") && '\n' !in u.status.GetOr("")
    && '\n' !in fmt(u.signupDate) && '\n' !in fmt(u.lastActive)
  }

  lemma HeaderIsOneLine()
    ensures '\n' !in Join(CsvHeader, ",")
  {
    JoinAvoids(CsvHeader, ",", '\n');
  }

  lemma RowIsOneLine(u: UserRow, fmt: Option<int> -> string)
    requires NoLineBreakIn(u, fmt)
    ensures '\n' !in Join(Cells(u, fmt), ",")
  {
    IntTextHasNoLineBreak(u.workoutsCompleted.GetOr(0));
    JoinAvoids(Cells(u, fmt), ",", '\n');
  }

  /** The export contains no line break unless some user's text or date does: everything is on one line. */
  lemma CsvIsOneLine(users: seq<UserRow>, fmt: Option<int> -> string)
    requires forall i :: 0 <= i < |users| ==> NoLineBreakIn(users[i], fmt)
    ensures '\n' !in ExportCsv(users, fmt)
  {
    var lines := [Join(CsvHeader, ",")] + Rows(users, fmt);
    HeaderIsOneLine();
    forall i | 0 <= i < |users|
      ensures '\n' !in Join(Cells(users[i], fmt), ",")
    {
      RowIsOneLine(users[i], fmt);
    }
    assert forall k :: 0 <= k < |lines| ==> '\n' !in lines[k];
    JoinAvoids(lines, RowSeparator, '\n');
  }

  /** The export starts with the header line, followed by the separator when there are users. */
  lemma CsvStartsWithHeader(users: seq<UserRow>, fmt: Option<int> -> string)
    ensures users == [] ==> ExportCsv(users, fmt) == Join(CsvHeader, ",")
    ensures users != [] ==> StartsWith(ExportCsv(users, fmt), Join(CsvHeader, ",") + RowSeparator)
  {
    var lines := [Join(CsvHeader, ",")] + Rows(users, fmt);
    if users != [] {
      JoinStartsWithHead(lines, RowSeparator);
    } else {
      assert lines == [Join(CsvHeader, ",")];
    }
  }

  // ---------------------------------------------------------------------------
  // The page

  class AdminDashboard {
    var isAuthenticated: bool
    var password: string
    var users: seq<UserRow>
    var analytics: Analytics
    var storedAuth: Option<string>

    /** loadDashboardData: the mock users, then the stored ones, and the analytics on their count. */
    method LoadDashboardData(entries: seq<StorageEntry>, now: int)
      modifies this
      ensures users == MockUsers(now) + StoredUsers(entries)
      ensures analytics == ComputeAnalytics(|StoredUsers(entries)|)
      ensures analytics.totalUsers == |users|
      ensures isAuthenticated == old(isAuthenticated) && password == old(password) && storedAuth == old(storedAuth)
    {
      var allUsers := CollectStoredUsers(entries);
      users := MockUsers(now) + allUsers;
      analytics := ComputeAnalytics(|allUsers|);
    }

    /** The mount effect: a stored flag of exactly 'true' authenticates and loads the data. */
    constructor(stored: Option<string>, entries: seq<StorageEntry>, now: int)
      ensures isAuthenticated <==> stored == Some(AuthFlag)
      ensures isAuthenticated ==> users == MockUsers(now) + StoredUsers(entries) && analytics == ComputeAnalytics(|StoredUsers(entries)|)
      ensures !isAuthenticated ==> users == [] && analytics == NoAnalytics
      ensures password == "" && storedAuth == stored
    {
      isAuthenticated := stored == Some(AuthFlag);
      password := "";
      users := [];
      analytics := NoAnalytics;
      storedAuth := stored;
      new;
      if isAuthenticated {
        LoadDashboardData(entries, now);
      }
    }

    method SetPassword(value: string)
      modifies this
      ensures password == value
      ensures isAuthenticated == old(isAuthenticated) && users == old(users) && analytics == old(analytics) && storedAuth == old(storedAuth)
    {
      password := value;
    }

    /** handleLogin: the exact password authenticates, stores the flag and loads the data; anything else only alerts. */
    method HandleLogin(entries: seq<StorageEntry>, now: int) returns (alerted: bool)
      modifies this
      ensures alerted <==> password != AdminPassword
      ensures !alerted ==> isAuthenticated && storedAuth == Some(AuthFlag)
      ensures !alerted ==> users == MockUsers(now) + StoredUsers(entries) && analytics == ComputeAnalytics(|StoredUsers(entries)|)
      ensures alerted ==> isAuthenticated == old(isAuthenticated) && storedAuth == old(storedAuth) && users == old(users) && analytics == old(analytics)
      ensures password == old(password)
    {
      if password == AdminPassword {
        isAuthenticated := true;
        storedAuth := Some(AuthFlag);
        LoadDashboardData(entries, now);
        alerted := false;
      } else {
        alerted := true;
      }
    }

    /** The back button: the stored flag is removed and the browser goes home. */
    method Leave() returns (nav: Route)
      modifies this
      ensures nav == Home && storedAuth.None?
      ensures isAuthenticated == old(isAuthenticated) && users == old(users) && analytics == old(analytics) && password == old(password)
    {
      storedAuth := None;
      nav := Home;
    }
  }
}

=== FILE: ai_coach.dfy ===
/**
 * The AI coach page: a chat whose replies are chosen by keyword routing on
 * the lower-cased question (the first topic in a fixed order whose keyword
 * occurs wins), the protein estimate the protein answer quotes, and the
 * message list with its save and clear rules.
 */
module AiCoach {
  import opened Basics
  import opened Text
  import opened PlanGenerator
  import opened NutritionPlanner

  // ---------------------------------------------------------------------------
  // Topic routing

  /** The canned answers, in the order generateAIResponse tests for them. */
  datatype Topic = ProgressTopic | ProteinTopic | SquatForm | PreWorkout | Diet | Injury | Cardio | Supplements | Recovery

  /** One `if` of the chain: any of the words selects the topic. */
  datatype Rule = Rule(words: seq<string>, topic: Topic)

  const ProgressWords := ["progress", "result", "seeing"]
  const ProteinWords := ["protein"]
  const SquatWords := ["squat", "form"]
  const PreWorkoutWords := ["eat before", "pre-workout", "pre workout"]
  const DietWords := ["diet", "nutrition", "calories"]
  const InjuryWords := ["injury", "pain", "hurt"]
  const CardioWords := ["cardio", "running", "hiit"]
  const SupplementWords := ["supplement", "creatine", "bcaa"]
  const RecoveryWords := ["sleep", "recovery", "rest"]

  const TopicRules := [
    Rule(ProgressWords, ProgressTopic),
    Rule(ProteinWords, ProteinTopic),
    Rule(SquatWords, SquatForm),
    Rule(PreWorkoutWords, PreWorkout),
    Rule(DietWords, Diet),
    Rule(InjuryWords, Injury),
    Rule(CardioWords, Cardio),
    Rule(SupplementWords, Supplements),
    Rule(RecoveryWords, Recovery)
  ]

  /** `q.includes(w1) || q.includes(w2) || ...` */
  predicate MentionsAny(q: string, words: seq<string>) {
    exists w :: w in words && Contains(q, w)
  }

  /** The position of the first rule whose words occur in `q`, if any. */
  function FirstMatch(q: string, rules: seq<Rule>): (r: Option<nat>)
    ensures r.None? <==> forall k :: 0 <= k < |rules| ==> !MentionsAny(q, rules[k].words)
    ensures r.Some? ==> r.value < |rules| && MentionsAny(q, rules[r.value].words)
    ensures r.Some? ==> forall j :: 0 <= j < r.value ==> !MentionsAny(q, rules[j].words)
  {
    if rules == [] then None
    else if MentionsAny(q, rules[0].words) then Some(0)
    else match FirstMatch(q, rules[1..])
      case None => None
      case Some(k) => Some(k + 1)
  }

  /** The topic of a question: the first rule matching its lower-cased text; None selects a default reply. */
  function RouteTopic(question: string): (t: Option<Topic>)
    ensures t.None? <==> forall k :: 0 <= k < |TopicRules| ==> !MentionsAny(ToLower(question), TopicRules[k].words)
    ensures t.Some? ==> exists k :: (0 <= k < |TopicRules| && t.value == TopicRules[k].topic
      && MentionsAny(ToLower(question), TopicRules[k].words)
      && forall j :: 0 <= j < k ==> !MentionsAny(ToLower(question), TopicRules[j].words))
  {
    match FirstMatch(ToLower(question), TopicRules)
    case None => None
    case Some(k) => Some(TopicRules[k].topic)
  }

  /** A question mentioning progress, results or seeing always gets the progress answer, whatever else it mentions. */
  lemma MentionsProgressWins(question: string, w: string)
    requires w in ProgressWords && Contains(ToLower(question), w)
    ensures RouteTopic(question) == Some(ProgressTopic)
  {
    assert TopicRules[0].words == ProgressWords;
    assert MentionsAny(ToLower(question), TopicRules[0].words);
  }

  /** Protein comes second: a protein question gets the protein answer unless it also mentions progress. */
  lemma ProteinRouting(question: string)
    requires Contains(ToLower(question), ProteinWords[0])
    ensures RouteTopic(question) == Some(ProteinTopic) <==> !MentionsAny(ToLower(question), ProgressWords)
  {
    assert TopicRules[0].words == ProgressWords && TopicRules[1].words == ProteinWords;
    assert MentionsAny(ToLower(question), TopicRules[1].words);
  }

  lemma LowerCharIdempotent(c: char)
    ensures LowerChar(LowerChar(c)) == LowerChar(c)
  {
  }

  /** Routing ignores case: a question and its lower-cased text get the same topic. */
  lemma RoutingIgnoresCase(question: string)
    ensures RouteTopic(ToLower(question)) == RouteTopic(question)
  {
    var l := ToLower(question);
    forall i | 0 <= i < |l|
      ensures ToLower(l)[i] == l[i]
    {
      LowerCharIdempotent(question[i]);
    }
    assert ToLower(l) == l;
  }

  /** Every character of a text `s` contains occurs in `s`; so a character `s` lacks rules out `s.includes(t)`. */
  lemma ContainedCharsOccur(s: string, t: string, c: char)
    requires c in t
    ensures Contains(s, t) ==> c in s
  {
    if Contains(s, t) {
      var i :| 0 <= i <= |s| - |t| && OccursAt(s, t, i);
      var k :| 0 <= k < |t| && t[k] == c;
      assert s[i + k] == c;
    }
  }

  /** The squat-form answer goes to a question that mentions neither progress words nor protein but a squat word. */
  lemma SquatFormRouting(question: string)
    requires !MentionsAny(ToLower(question), ProgressWords) && !MentionsAny(ToLower(question), ProteinWords)
    requires MentionsAny(ToLower(question), SquatWords)
    ensures RouteTopic(question) == Some(SquatForm)
  {
    assert TopicRules[0].words == ProgressWords && TopicRules[1].words == ProteinWords && TopicRules[2].words == SquatWords;
  }

  const Platform := "platform"

  /** A text without upper-case ASCII letters is its own lower-cased text. */
  lemma LowerCaseUnchanged(s: string)
    requires forall i :: 0 <= i < |s| ==> !('A' <= s[i] <= 'Z')
    ensures ToLower(s) == s
  {
    assert forall i :: 0 <= i < |s| ==> ToLower(s)[i] == s[i];
  }

  lemma PlatformIsLowerCase()
    ensures ToLower(Platform) == Platform
  {
    LowerCaseUnchanged(Platform);
  }

  lemma PlatformAvoidsEarlierTopics()
    ensures !MentionsAny(Platform, ProgressWords) && !MentionsAny(Platform, ProteinWords)
  {
    ContainedCharsOccur(Platform, ProgressWords[0], 'g');
    ContainedCharsOccur(Platform, ProgressWords[1], 'e');
    ContainedCharsOccur(Platform, ProgressWords[2], 'e');
    ContainedCharsOccur(Platform, ProteinWords[0], 'e');
  }

  lemma PlatformMentionsForm()
    ensures MentionsAny(Platform, SquatWords)
  {
    assert OccursAt(Platform, SquatWords[1], 4);
    assert SquatWords[1] in SquatWords && Contains(Platform, SquatWords[1]);
  }

  /**
   * Keywords match inside words: "platform" contains "form" and so gets
   * the squat-form answer.
   */
  lemma KeywordsMatchInsideWords()
    ensures RouteTopic(Platform) == Some(SquatForm)
  {
    PlatformIsLowerCase();
    PlatformAvoidsEarlierTopics();
    PlatformMentionsForm();
    SquatFormRouting(Platform);
  }

  // ---------------------------------------------------------------------------
  // Replies

  /**
   * `Math.round((userData?.weight || 150) * 0.8)`; `weight` is the number
   * the stored weight text coerces to, None when that text is empty or missing.
   */
  function CoachProtein(weight: Option<real>): (g: int)
    ensures weight.None? ==> g == 120
    ensures weight.Some? ==> weight.value * 0.8 - 0.5 < g as real <= weight.value * 0.8 + 0.5
  {
    assert Round(150.0 * 0.8) == 120;
    Round(weight.GetOr(150.0) * 0.8)
  }

  /** The coach quotes the same protein target as a plan generated for the same non-zero weight. */
  lemma CoachAgreesWithPlan(p: Profile)
    requires p.weight.Some? && p.weight.value != 0.0
    ensures CoachProtein(p.weight) == GenerateNutritionPlan(p).protein
  {
  }

  /** What a reply says: a topic's answer, the protein answer with its grams, or one of three default replies. */
  datatype Reply = TopicReply(topic: Topic) | ProteinReply(grams: int) | DefaultReply(index: int)

  const DefaultReplyCount := 3

  /**
   * generateAIResponse, up to the reply texts; `draw` is the value
   * `Math.random()` returned.
   */
  function GenerateReply(question: string, weight: Option<real>, draw: real): (r: Reply)
    requires 0.0 <= draw < 1.0
    ensures r.DefaultReply? <==> RouteTopic(question).None?
    ensures r.DefaultReply? ==> 0 <= r.index < DefaultReplyCount
    ensures r.ProteinReply? <==> RouteTopic(question) == Some(ProteinTopic)
    ensures r.ProteinReply? ==> r.grams == CoachProtein(weight)
    ensures r.TopicReply? ==> RouteTopic(question) == Some(r.topic) && r.topic != ProteinTopic
  {
    match RouteTopic(question)
    case None => DefaultReply((draw * DefaultReplyCount as real).Floor)
    case Some(t) => if t == ProteinTopic then ProteinReply(CoachProtein(weight)) else TopicReply(t)
  }

  // ---------------------------------------------------------------------------
  // The chat

  datatype Sender = User | Ai

  /** A message's content: typed or fixed text, or a generated reply. */
  datatype Body = Said(text: string) | Answer(reply: Reply)

  /** A chat message without its time stamp. */
  datatype Message = Message(id: int, sender: Sender, body: Body)

  const WelcomeText := "Hey! \U{1F44B} I'm your Athenix AI Coach. I'm here to answer any questions about fitness, nutrition, your workout plan, or anything health-related. What's on your mind?"
  const ClearedText := "Chat cleared! \U{1F9F9} What would you like to know?"

  const Welcome := Message(1, Ai, Said(WelcomeText))
  const Cleared := Message(1, Ai, Said(ClearedText))

  /** The save effect that follows every change of the list: it writes the list only when it holds more than one message. */
  function Saved(stored: Option<seq<Message>>, messages: seq<Message>): (r: Option<seq<Message>>)
    ensures |messages| > 1 ==> r == Some(messages)
    ensures |messages| <= 1 ==> r == stored
  {
    if |messages| > 1 then Some(messages) else stored
  }

  /** The chat page's state and the history it keeps under `athenix_chat_history`. */
  class Chat {
    var messages: seq<Message>
    var input: string
    var isTyping: bool
    var stored: Option<seq<Message>>
    /** The text whose reply the timer set by the last send will post. */
    var pending: Option<string>

    /** The mount effect: the saved history, or the welcome message when there is none. */
    constructor(saved: Option<seq<Message>>)
      ensures saved.Some? ==> messages == saved.value
      ensures saved.None? ==> messages == [Welcome]
      ensures stored == saved && input == "" && !isTyping && pending.None?
    {
      messages := if saved.Some? then saved.value else [Welcome];
      input := "";
      isTyping := false;
      pending := None;
      stored := Saved(saved, if saved.Some? then saved.value else [Welcome]);
    }

    /** Whether the quick-question buttons are shown. */
    predicate QuickQuestionsShown()
      reads this
    {
      |messages| <= 1 && !isTyping
    }

    /**
     * handleSendMessage: blank text changes nothing; otherwise the user's
     * message is appended, the input cleared and the coach starts typing.
     */
    method HandleSendMessage(text: string, id: int)
      modifies this
      ensures IsBlank(text) ==>
        messages == old(messages) && input == old(input) && isTyping == old(isTyping) && stored == old(stored) && pending == old(pending)
      ensures !IsBlank(text) ==> messages == old(messages) + [Message(id, User, Said(text))]
      ensures !IsBlank(text) ==> input == "" && isTyping && !QuickQuestionsShown() && pending == Some(text)
      ensures !IsBlank(text) ==> stored == Saved(old(stored), messages)
    {
      TrimEmptyIffBlank(text);
      if Trim(text) == "" {
        return;
      }
      messages := messages + [Message(id, User, Said(text))];
      input := "";
      isTyping := true;
      pending := Some(text);
      stored := Saved(stored, messages);
    }

    /**
     * The delayed reply, taken as one step once the timer a send started
     * fires: the answer to the text that was sent is appended and typing
     * stops. While typing, the input and the send button are disabled, so
     * one reply is pending at a time.
     */
    method ReceiveReply(weight: Option<real>, draw: real, id: int)
      requires 0.0 <= draw < 1.0
      requires isTyping && pending.Some?
      modifies this
      ensures messages == old(messages) + [Message(id, Ai, Answer(GenerateReply(old(pending).value, weight, draw)))]
      ensures !isTyping && pending.None? && input == old(input)
      ensures stored == Saved(old(stored), messages)
    {
      messages := messages + [Message(id, Ai, Answer(GenerateReply(pending.value, weight, draw)))];
      isTyping := false;
      pending := None;
      stored := Saved(stored, messages);
    }

    /** clearChat: once confirmed, the list is the one "cleared" message and the saved history is removed. */
    method ClearChat(confirmed: bool)
      modifies this
      ensures !confirmed ==> messages == old(messages) && stored == old(stored)
      ensures confirmed ==> messages == [Cleared] && stored.None?
      ensures confirmed ==> (QuickQuestionsShown() <==> !isTyping)
      ensures input == old(input) && isTyping == old(isTyping) && pending == old(pending)
    {
      if confirmed {
        messages := [Cleared];
        stored := Saved(None, messages);
      }
    }
  }
}

=== FILE: basics.dfy ===
/** Small shared vocabulary: optional values and the application's routes. */
module Basics {

  /** A value that may be absent: a missing storage key, `undefined`, `null`. */
  datatype Option<+T> = None | Some(value: T) {
    function GetOr(default: T): T {
      match this
      case Some(v) => v
      case None => default
    }
  }

  /** The pages `router.push` can send the browser to. */
  datatype Route = Home | Login | Signup | Onboarding | GeneratePlan | Dashboard | Workouts

  /**
   * JavaScript truthiness of a value read from local storage: `getItem`
   * returns `null` for a missing key, and the empty string is falsy too.
   */
  predicate Truthy(stored: Option<string>) {
    stored.Some? && stored.value != ""
  }
}

=== FILE: dashboard.dfy ===
/**
 * The dashboard: the guard that sends visitors to login or onboarding, the
 * daily water counter that stops at 8, the phase countdown and the preview
 * of today's workout.
 */
module Dashboard {
  import opened Basics
  import opened PlanGenerator
  import opened PlanPage

  /** What the mount effect does: navigate away, or load the stored data. */
  datatype Entry = Redirect(to: Route) | LoadData

  /** The guard on the stored user record and the onboarding-complete flag. */
  function Guard(user: Option<string>, onboardingComplete: Option<string>): (e: Entry)
    ensures e == Redirect(Login) <==> !Truthy(user)
    ensures e == Redirect(Onboarding) <==> Truthy(user) && !Truthy(onboardingComplete)
    ensures e == LoadData <==> Truthy(user) && Truthy(onboardingComplete)
  {
    if !Truthy(user) then Redirect(Login)
    else if !Truthy(onboardingComplete) then Redirect(Onboarding)
    else LoadData
  }

  // ---------------------------------------------------------------------------
  // Today's workout and its preview

  /**
   * `plan.phases[0]?.weeks_detail?.week1` when the plan has one, then its
   * first day; an empty week 1 is present but has no first day.
   */
  function TodayWorkout(plan: Option<WorkoutPlan>): (r: Option<Day>)
    ensures r.Some? <==>
      plan.Some? && |plan.value.phases| > 0 && plan.value.phases[0].weeksDetail.Some?
      && 1 in plan.value.phases[0].weeksDetail.value && |plan.value.phases[0].weeksDetail.value[1]| > 0
    ensures r.Some? ==> r.value == plan.value.phases[0].weeksDetail.value[1][0]
  {
    if plan.None? || |plan.value.phases| == 0 then None
    else match plan.value.phases[0].weeksDetail
      case None => None
      case Some(d) => if 1 in d && |d[1]| > 0 then Some(d[1][0]) else None
  }

  /** For a generated plan, today's workout is day 1 of week 1, and there is none when no training days were parsed. */
  lemma TodayIsFirstPlannedDay(p: Profile, plan: WorkoutPlan, totalDays: int)
    requires IsPlanSkeleton(plan)
    requires IsPhase1Detail(plan.phases[0].weeksDetail.value, p, totalDays)
    ensures totalDays >= 1 ==> TodayWorkout(Some(plan)) == Some(PlannedDay(p, 1, totalDays, HasGym(p.equipment)))
    ensures totalDays < 1 ==> TodayWorkout(Some(plan)).None?
  {
    if totalDays >= 1 {
      PlannedWeekDays(p, WeekLength(totalDays), totalDays, HasGym(p.equipment), 0);
    }
  }

  /** `exercises.slice(0, 4)`: the first four exercises, in order. */
  function Preview(exercises: seq<Exercise>): (r: seq<Exercise>)
    ensures |r| == (if |exercises| < 4 then |exercises| else 4)
    ensures r == exercises[..|r|]
  {
    if |exercises| < 4 then exercises else exercises[..4]
  }

  /** The "+ n more exercises" line: present exactly when more than four exist. */
  function MoreCount(exercises: seq<Exercise>): (r: Option<int>)
    ensures r.Some? <==> |exercises| > 4
    ensures r.Some? ==> r.value > 0
  {
    if |exercises| > 4 then Some(|exercises| - 4) else None
  }

  /** The preview and the "more" line account for every exercise exactly once. */
  lemma PreviewAccountsForAll(exercises: seq<Exercise>)
    ensures |Preview(exercises)| + MoreCount(exercises).GetOr(0) == |exercises|
    ensures Preview(exercises) + exercises[|Preview(exercises)|..] == exercises
  {
  }

  /** Day 1 of a generated plan always has six exercises: four are previewed, and "+ 2 more" follows. */
  lemma FirstDayPreview(p: Profile, totalDays: int)
    requires totalDays >= 1
    ensures var ex := PlannedDay(p, 1, totalDays, HasGym(p.equipment)).exercises;
      |Preview(ex)| == 4 && MoreCount(ex) == Some(2)
  {
    assert |GymExercises| == 6 && |BodyweightExercises| == 6;
  }

  // ---------------------------------------------------------------------------
  // The phase countdown

  /** `(currentWeek - 1) * 7 + 3`: a fixed three days into the current week. */
  function DaysIntoProgram(week: int): (d: int)
    ensures 7 * (week - 1) < d <= 7 * week
    ensures d % 7 == 3
  {
    (week - 1) * 7 + 3
  }

  /** Days left before the next phase: to day 28 in phase 1, to day 56 in phase 2, none in any other phase. */
  function DaysUntilNextPhase(phase: int, week: int): (r: int)
    ensures phase == 1 ==> r == 28 - DaysIntoProgram(week)
    ensures phase == 2 ==> r == 56 - DaysIntoProgram(week)
    ensures phase != 1 && phase != 2 ==> r == 0
  {
    if phase == 1 then 28 - DaysIntoProgram(week)
    else if phase == 2 then 56 - DaysIntoProgram(week)
    else 0
  }

  /**
   * When the stored phase is the one the week belongs to, the countdown in
   * phases 1 and 2 is 25, 18, 11 or 4 days: 7 per remaining week plus 4.
   */
  lemma CountdownInPhase(week: int)
    requires 1 <= week <= 8
    ensures var r := DaysUntilNextPhase(DisplayedPhase(week), week);
      && r == 7 * (4 * DisplayedPhase(week) - week) + 4
      && 4 <= r <= 25
  {
  }

  /** A phase number that lags behind the week gives a negative countdown. */
  lemma StalePhaseGoesNegative(phase: int, week: int)
    requires (phase == 1 && week >= 5) || (phase == 2 && week >= 9)
    ensures DaysUntilNextPhase(phase, week) < 0
  {
  }

  // ---------------------------------------------------------------------------
  // The water counter

  /** The stored `{ date, count }` of glasses drunk, shared with the nutrition page. */
  datatype WaterLog = WaterLog(date: string, count: int)

  /** The count the page starts from: the stored count when it was saved today, 0 otherwise. */
  function RestoreWater(log: Option<WaterLog>, today: string): (r: int)
    ensures log.Some? && log.value.date == today ==> r == log.value.count
    ensures r != 0 ==> log.Some? && log.value.date == today
    ensures log.Some? && 0 <= log.value.count <= 8 ==> 0 <= r <= 8
  {
    if log.Some? && log.value.date == today then log.value.count else 0
  }

  /** One click on the dashboard's water button: add a glass unless that would pass 8. */
  function SaturatingStep(count: int): (r: int)
    ensures r == count + 1 <==> count < 8
    ensures r == count || r == count + 1
    ensures count <= 8 ==> count <= r <= 8
  {
    if count + 1 <= 8 then count + 1 else count
  }

  /** The count after k clicks. */
  function SaturatingClicks(count: int, k: nat): (r: int)
    ensures count <= 8 ==> count <= r <= 8
    ensures count >= 8 ==> r == count
  {
    if k == 0 then count else SaturatingStep(SaturatingClicks(count, k - 1))
  }

  /** From a count in 0..8, k clicks reach min(count + k, 8) and never pass 8. */
  lemma {:induction false} SaturatingClicksReach(count: int, k: nat)
    requires 0 <= count <= 8
    ensures SaturatingClicks(count, k) == if count + k < 8 then count + k else 8
  {
    if k > 0 {
      SaturatingClicksReach(count, k - 1);
    }
  }

  /** The dashboard's water counter and its stored log. */
  class DashboardWater {
    var count: int
    var stored: Option<WaterLog>

    ghost predicate Valid()
      reads this
    {
      0 <= count <= 8
    }

    /** The mount effect's restore. */
    constructor(log: Option<WaterLog>, today: string)
      ensures count == RestoreWater(log, today) && stored == log
    {
      count := RestoreWater(log, today);
      stored := log;
    }

    /** handleWaterClick: below 8 the count rises by one and is stored with today's date; at 8 nothing changes. */
    method HandleWaterClick(today: string)
      modifies this
      ensures count == SaturatingStep(old(count))
      ensures old(count) < 8 ==> stored == Some(WaterLog(today, count))
      ensures old(count) >= 8 ==> stored == old(stored)
      ensures old(Valid()) ==> Valid()
    {
      var newCount := count + 1;
      if newCount <= 8 {
        count := newCount;
        stored := Some(WaterLog(today, newCount));
      }
    }
  }
}

=== FILE: form_check.dfy ===
/**
 * The form-check page: accepting a video upload, the canned analysis for
 * each exercise, and the history of analyses kept newest first and capped
 * at ten entries.
 */
module FormCheck {
  import opened Basics
  import opened Text

  // ---------------------------------------------------------------------------
  // The canned analyses

  /** One analysis; the score is out of 10. */
  datatype Analysis = Analysis(
    overallScore: real,
    strengths: seq<string>,
    improvements: seq<string>,
    criticalIssues: seq<string>,
    recommendations: seq<string>
  )

  const SquatName := "Squat"
  const BenchName := "Bench Press"
  const DeadliftName := "Deadlift"

  /** The exercises the page's select offers. */
  const ExerciseChoices := [SquatName, BenchName, DeadliftName, "Overhead Press", "Barbell Row", "Pull-up", "Push-up", "Lunge", "Plank", "Other"]

  const SquatAnalysis := Analysis(8.5,
    ["Good depth - breaking parallel consistently", "Knees tracking properly over toes", "Maintaining neutral spine throughout the movement"],
    ["Keep chest more upright at the bottom position", "Drive through heels more explosively on the way up"],
    [],
    ["Practice box squats to improve depth consistency", "Add pause squats to work on bottom position strength", "Consider adding mobility work for hip flexors"])

  /** The warning keeps the mis-decoded warning sign that leads the text in the page. */
  const ElbowWarning := "\U{201A}\U{F6}\U{2020}\U{D4}\U{220F}\U{E8} Elbows flaring too much - risk of shoulder impingement"

  const BenchAnalysis := Analysis(7.5,
    ["Good bar path - straight up and down", "Shoulders retracted and stable", "Feet planted firmly on the ground"],
    ["Create more arch in your lower back for better leverage", "Touch the bar slightly lower on your chest (nipple line)"],
    [ElbowWarning],
    ["Keep elbows at 45-75 degree angle from body", "Practice with lighter weight focusing on tucked elbows", "Add rotator cuff strengthening exercises"])

  const DeadliftAnalysis := Analysis(9.0,
    ["Excellent hip hinge pattern", "Bar staying close to shins and thighs", "Neutral spine maintained throughout lift", "Good lockout at the top"],
    ["Reset breath and brace before each rep", "Slightly faster pull off the floor"],
    [],
    ["Great form! Keep progressing with current technique", "Consider adding deficit deadlifts for off-the-floor strength", "RDLs would complement your pulling strength"])

  const DefaultAnalysis := Analysis(8.0,
    ["Good overall movement pattern", "Consistent tempo and control"],
    ["Focus on full range of motion", "Maintain proper breathing pattern"],
    [],
    ["Practice the movement with lighter weight", "Film from multiple angles for better assessment"])

  /** generateMockAnalysis: `analyses[exercise] || default`. */
  function MockAnalysis(exercise: string): Analysis {
    if exercise == SquatName then SquatAnalysis
    else if exercise == BenchName then BenchAnalysis
    else if exercise == DeadliftName then DeadliftAnalysis
    else DefaultAnalysis
  }

  /** Squat scores 8.5, Bench Press 7.5, Deadlift 9.0 and every other name the default 8.0. */
  lemma MockScores(exercise: string)
    ensures exercise == SquatName ==> MockAnalysis(exercise).overallScore == 8.5
    ensures exercise == BenchName ==> MockAnalysis(exercise).overallScore == 7.5
    ensures exercise == DeadliftName ==> MockAnalysis(exercise).overallScore == 9.0
    ensures exercise !in {SquatName, BenchName, DeadliftName} ==> MockAnalysis(exercise) == DefaultAnalysis
    ensures 7.5 <= MockAnalysis(exercise).overallScore <= 9.0
  {
  }

  /** Only the Bench Press analysis reports a critical issue. */
  lemma OnlyBenchHasCriticalIssues(exercise: string)
    ensures |MockAnalysis(exercise).criticalIssues| > 0 <==> exercise == BenchName
  {
  }

  /** Of the ten choices, the first three get their own analysis and the other seven the default one. */
  lemma ChoicesAnalysed(k: int)
    requires 0 <= k < |ExerciseChoices|
    ensures k >= 3 <==> MockAnalysis(ExerciseChoices[k]) == DefaultAnalysis
  {
    if k >= 3 {
      var e := ExerciseChoices[k];
      assert e != SquatName && e != BenchName && e != DeadliftName by {
        assert e[0] != SquatName[0] && e[0] != DeadliftName[0];
        assert e[0] != BenchName[0] || e[1] != BenchName[1];
      }
    }
  }

  // ---------------------------------------------------------------------------
  // The history

  /** One saved analysis: its id, exercise, time, score and the video's name. */
  datatype HistoryEntry = HistoryEntry(id: int, exercise: string, date: string, score: real, videoName: string)

  const HistoryCap := 10

  /** `[entry, ...history].slice(0, 10)`. */
  function Record(entry: HistoryEntry, history: seq<HistoryEntry>): (r: seq<HistoryEntry>)
    ensures |r| == (if |history| + 1 < HistoryCap then |history| + 1 else HistoryCap)
    ensures r[0] == entry
    ensures r[1..] == history[..|r| - 1]
  {
    var all := [entry] + history;
    var r := all[..if |all| < HistoryCap then |all| else HistoryCap];
    assert r[1..] == history[..|r| - 1];
    r
  }

  /** The first n entries of a list, or all of them when it is shorter. */
  function Take<T>(xs: seq<T>, n: nat): (r: seq<T>)
    ensures |r| == (if |xs| < n then |xs| else n)
    ensures r == xs[..|r|]
  {
    if |xs| < n then xs else xs[..n]
  }

  function Reversed<T>(xs: seq<T>): (r: seq<T>)
    ensures |r| == |xs|
    ensures forall i :: 0 <= i < |xs| ==> r[i] == xs[|xs| - 1 - i]
  {
    if xs == [] then [] else Reversed(xs[1..]) + [xs[0]]
  }

  /** The history after recording the analyses `es`, oldest first. */
  function RecordAll(history: seq<HistoryEntry>, es: seq<HistoryEntry>): seq<HistoryEntry> {
    if es == [] then history else Record(es[|es| - 1], RecordAll(history, es[..|es| - 1]))
  }

  /**
   * Starting from at most ten entries, the history is always the ten most
   * recent analyses, newest first.
   */
  lemma {:induction false} RecordAllKeepsNewest(history: seq<HistoryEntry>, es: seq<HistoryEntry>)
    requires |history| <= HistoryCap
    ensures RecordAll(history, es) == Take(Reversed(es) + history, HistoryCap)
  {
    if es != [] {
      var front, last := es[..|es| - 1], es[|es| - 1];
      RecordAllKeepsNewest(history, front);
      var s := Reversed(front) + history;
      assert Reversed(es) + history == [last] + s by {
        assert Reversed(es) == [last] + Reversed(front);
      }
      assert Record(last, Take(s, HistoryCap)) == Take([last] + s, HistoryCap);
    } else {
      assert Reversed(es) + history == history;
    }
  }

  // ---------------------------------------------------------------------------
  // The page

  /** The chosen file: its MIME type and name. */
  datatype VideoFile = VideoFile(mimeType: string, name: string)

  /** The accepted video: its name and the data URL the reader produced. */
  datatype UploadedVideo = UploadedVideo(name: string, url: string)

  const VideoPrefix := "video/"

  class FormCheckPage {
    var uploadedVideo: Option<UploadedVideo>
    var selectedExercise: string
    var analysis: Option<Analysis>
    var isAnalyzing: bool
    var history: seq<HistoryEntry>
    var storedHistory: Option<seq<HistoryEntry>>

    /** The mount effect loads the saved history. */
    constructor(saved: Option<seq<HistoryEntry>>)
      ensures uploadedVideo.None? && selectedExercise == "" && analysis.None? && !isAnalyzing
      ensures history == saved.GetOr([]) && storedHistory == saved
    {
      uploadedVideo := None;
      selectedExercise := "";
      analysis := None;
      isAnalyzing := false;
      history := saved.GetOr([]);
      storedHistory := saved;
    }

    /** The exercise select. */
    method SelectExercise(name: string)
      modifies this
      ensures selectedExercise == name
      ensures uploadedVideo == old(uploadedVideo) && analysis == old(analysis) && isAnalyzing == old(isAnalyzing)
      ensures history == old(history) && storedHistory == old(storedHistory)
    {
      selectedExercise := name;
    }

    /**
     * handleVideoUpload: a file whose type starts with 'video/' becomes the
     * uploaded video (with the reader's data URL); anything else is refused
     * and the previous video stays.
     */
    method HandleVideoUpload(file: Option<VideoFile>, dataUrl: string) returns (accepted: bool)
      modifies this
      ensures accepted <==> file.Some? && StartsWith(file.value.mimeType, VideoPrefix)
      ensures accepted ==> uploadedVideo == Some(UploadedVideo(file.value.name, dataUrl))
      ensures !accepted ==> uploadedVideo == old(uploadedVideo)
      ensures selectedExercise == old(selectedExercise) && analysis == old(analysis) && isAnalyzing == old(isAnalyzing)
      ensures history == old(history) && storedHistory == old(storedHistory)
    {
      if file.Some? && StartsWith(file.value.mimeType, VideoPrefix) {
        uploadedVideo := Some(UploadedVideo(file.value.name, dataUrl));
        accepted := true;
      } else {
        accepted := false;
      }
    }

    /**
     * analyzeForm, with the delayed analysis taken as one step: without a
     * video or an exercise nothing starts; otherwise the exercise's analysis
     * is shown and recorded at the head of the stored history.
     */
    method AnalyzeForm(id: int, now: string) returns (started: bool)
      modifies this
      ensures started <==> old(uploadedVideo).Some? && old(selectedExercise) != ""
      ensures uploadedVideo == old(uploadedVideo) && selectedExercise == old(selectedExercise)
      ensures !started ==> analysis == old(analysis) && isAnalyzing == old(isAnalyzing)
      ensures !started ==> history == old(history) && storedHistory == old(storedHistory)
      ensures started ==> analysis == Some(MockAnalysis(selectedExercise))
      ensures started ==> history == Record(HistoryEntry(id, selectedExercise, now, analysis.value.overallScore, uploadedVideo.value.name), old(history))
      ensures started ==> storedHistory == Some(history)
      ensures started ==> !isAnalyzing
    {
      if uploadedVideo.None? || selectedExercise == "" {
        started := false;
        return;
      }
      isAnalyzing := true;
      var result := MockAnalysis(selectedExercise);
      analysis := Some(result);
      isAnalyzing := false;
      var entry := HistoryEntry(id, selectedExercise, now, result.overallScore, uploadedVideo.value.name);
      history := Record(entry, history);
      storedHistory := Some(history);
      started := true;
    }
  }
}

=== FILE: lists.dfy ===
/**
 * The array idioms the pages share: `xs.filter(x => x !== v)` and the
 * membership toggle `xs.includes(v) ? xs.filter(x => x !== v) : [...xs, v]`.
 */
module Lists {

  /** `xs.filter(x => x !== v)`: every occurrence of `v` removed, the rest kept in order. */
  function RemoveAll<T(==,!new)>(xs: seq<T>, v: T): (r: seq<T>)
    ensures |r| <= |xs|
    ensures v !in r
    ensures forall w :: w != v ==> (w in r <==> w in xs)
    ensures multiset(r) == multiset(xs)[v := 0]
  {
    if xs == [] then []
    else
      var rest := RemoveAll(xs[1..], v);
      assert xs == [xs[0]] + xs[1..];
      if xs[0] == v then rest else [xs[0]] + rest
  }

  /** The filter works element by element, so the kept values stay in their original order. */
  lemma {:induction false} RemoveAllAppend<T(!new)>(xs: seq<T>, ys: seq<T>, v: T)
    ensures RemoveAll(xs + ys, v) == RemoveAll(xs, v) + RemoveAll(ys, v)
  {
    if xs == [] {
      assert xs + ys == ys;
    } else {
      assert (xs + ys)[1..] == xs[1..] + ys;
      RemoveAllAppend(xs[1..], ys, v);
    }
  }

  /** Removing a value that is absent changes nothing. */
  lemma {:induction false} RemoveAbsent<T(!new)>(xs: seq<T>, v: T)
    requires v !in xs
    ensures RemoveAll(xs, v) == xs
  {
    if xs != [] {
      RemoveAbsent(xs[1..], v);
      assert xs == [xs[0]] + xs[1..];
    }
  }

  /** Removing a value drops the copy appended at the end. */
  lemma {:induction false} RemoveAppended<T(!new)>(xs: seq<T>, v: T)
    ensures RemoveAll(xs + [v], v) == RemoveAll(xs, v)
  {
    if xs == [] {
      assert [] + [v] == [v];
      assert [v][1..] == [];
    } else {
      assert (xs + [v])[1..] == xs[1..] + [v];
      RemoveAppended(xs[1..], v);
    }
  }

  /** The list after clicking the option `v`: deselect it if selected, otherwise select it at the end. */
  function Toggle<T(==,!new)>(xs: seq<T>, v: T): (r: seq<T>)
    ensures v in r <==> v !in xs
    ensures forall w :: w != v ==> (w in r <==> w in xs)
    ensures v !in xs ==> r == xs + [v]
    ensures v in xs ==> |r| < |xs|
  {
    if v in xs then
      var r := RemoveAll(xs, v);
      RemoveShrinks(xs, v);
      r
    else xs + [v]
  }

  lemma {:induction false} RemoveShrinks<T(!new)>(xs: seq<T>, v: T)
    requires v in xs
    ensures |RemoveAll(xs, v)| < |xs|
  {
    if xs[0] != v {
      RemoveShrinks(xs[1..], v);
    }
  }

  /** Selecting an absent option and clicking it again restores the original list. */
  lemma ToggleTwiceRestores<T(!new)>(xs: seq<T>, v: T)
    requires v !in xs
    ensures Toggle(Toggle(xs, v), v) == xs
  {
    RemoveAppended(xs, v);
    RemoveAbsent(xs, v);
  }

  /** Deselecting and reselecting a value present exactly once moves it to the end. */
  lemma ToggleTwiceMovesToEnd<T(!new)>(xs: seq<T>, v: T)
    requires v in xs
    ensures Toggle(Toggle(xs, v), v) == RemoveAll(xs, v) + [v]
  {
  }
}

=== FILE: login.dfy ===
/**
 * The login page: a two-field validation, then a routing decision that
 * looks only at whether a user record and the onboarding flag are stored.
 */
module Login {
  import opened Basics
  import opened Text
  import opened Dashboard

  datatype LoginField = LoginEmail | LoginPassword

  datatype LoginData = LoginData(email: string, password: string)

  const LoginEmailRequired := "Email is required"
  const LoginPasswordRequired := "Password is required"
  const NoAccountText := "No account found. Please sign up first."

  /** validateForm: the e-mail is required once trimmed; the password is required as typed, untrimmed. */
  function Validate(d: LoginData): (errors: map<LoginField, string>)
    ensures LoginEmail in errors <==> IsBlank(d.email)
    ensures LoginEmail in errors ==> errors[LoginEmail] == LoginEmailRequired
    ensures LoginPassword in errors <==> d.password == ""
    ensures LoginPassword in errors ==> errors[LoginPassword] == LoginPasswordRequired
  {
    TrimEmptyIffBlank(d.email);
    var e1: map<LoginField, string> := if Trim(d.email) == "" then map[LoginEmail := LoginEmailRequired] else map[];
    if d.password == "" then e1[LoginPassword := LoginPasswordRequired] else e1
  }

  /** The form is valid exactly when the e-mail has a non-space character and the password is non-empty. */
  lemma LoginValidIff(d: LoginData)
    ensures |Validate(d)| == 0 <==> !IsBlank(d.email) && d.password != ""
  {
    var errors := Validate(d);
    if |errors| == 0 {
      assert errors.Keys == {};
    } else {
      var f :| f in errors;
    }
  }

  /** A password of spaces is accepted: only the e-mail is trimmed. */
  lemma BlankPasswordAccepted(email: string)
    requires !IsBlank(email)
    ensures |Validate(LoginData(email, " "))| == 0
  {
    LoginValidIff(LoginData(email, " "));
  }

  /** What the delayed check decides: go to a page, or report that there is no account. */
  datatype Outcome = Go(to: Route) | NoAccount

  /** The decision on the stored user record and the onboarding-complete flag. */
  function Decide(storedUser: Option<string>, onboardingComplete: Option<string>): (o: Outcome)
    ensures o == NoAccount <==> !Truthy(storedUser)
    ensures o == Go(Dashboard) <==> Truthy(storedUser) && Truthy(onboardingComplete)
    ensures o == Go(Onboarding) <==> Truthy(storedUser) && !Truthy(onboardingComplete)
  {
    if !Truthy(storedUser) then NoAccount
    else if Truthy(onboardingComplete) then Go(Dashboard)
    else Go(Onboarding)
  }

  /**
   * Login agrees with the dashboard's guard: it goes to the dashboard
   * exactly when the guard would load it, to onboarding exactly when the
   * guard would send the user there, and refuses exactly when the guard
   * would send the user back to login.
   */
  lemma LoginAgreesWithGuard(storedUser: Option<string>, onboardingComplete: Option<string>)
    ensures Decide(storedUser, onboardingComplete) == Go(Dashboard) <==> Guard(storedUser, onboardingComplete) == LoadData
    ensures Decide(storedUser, onboardingComplete) == Go(Onboarding) <==> Guard(storedUser, onboardingComplete) == Redirect(Onboarding)
    ensures Decide(storedUser, onboardingComplete) == NoAccount <==> Guard(storedUser, onboardingComplete) == Redirect(Login)
  {
  }

  class LoginPage {
    var form: LoginData
    var errors: map<LoginField, string>
    var isLoading: bool

    constructor()
      ensures form == LoginData("", "") && errors == map[] && !isLoading
    {
      form := LoginData("", "");
      errors := map[];
      isLoading := false;
    }

    /** The inputs' onChange. */
    method Edit(field: LoginField, value: string)
      modifies this
      ensures field == LoginEmail ==> form == old(form).(email := value)
      ensures field == LoginPassword ==> form == old(form).(password := value)
      ensures errors == old(errors) && isLoading == old(isLoading)
    {
      if field == LoginEmail {
        form := form.(email := value);
      } else {
        form := form.(password := value);
      }
    }

    /**
     * handleSubmit, with the delayed check taken at once: an invalid form
     * shows its errors and goes nowhere; a valid one navigates or reports
     * the missing account, whatever credentials were typed.
     */
    method HandleSubmit(storedUser: Option<string>, onboardingComplete: Option<string>) returns (nav: Option<Route>)
      modifies this
      ensures form == old(form)
      ensures |Validate(old(form))| > 0 ==> nav.None? && errors == Validate(old(form)) && isLoading == old(isLoading)
      ensures |Validate(old(form))| == 0 ==> !isLoading
      ensures |Validate(old(form))| == 0 && Decide(storedUser, onboardingComplete).Go? ==>
        nav == Some(Decide(storedUser, onboardingComplete).to) && errors == map[]
      ensures |Validate(old(form))| == 0 && Decide(storedUser, onboardingComplete) == NoAccount ==>
        nav.None? && errors == map[LoginEmail := NoAccountText]
    {
      errors := Validate(form);
      if |errors| > 0 {
        nav := None;
        return;
      }
      isLoading := true;
      match Decide(storedUser, onboardingComplete)
      case Go(r) =>
        isLoading := false;
        nav := Some(r);
      case NoAccount =>
        isLoading := false;
        errors := map[LoginEmail := NoAccountText];
        nav := None;
    }
  }
}

=== FILE: nutrition_page.dfy ===
/**
 * The nutrition page: the water counter that wraps back to 0 after 8, the
 * list of meals logged today, the logged calorie and protein totals, the
 * amounts remaining and the progress bars' widths.
 */
module NutritionPage {
  import opened Basics
  import opened Lists
  import opened NutritionPlanner
  import opened Dashboard

  /** One click on this page's water button: 8 wraps around to 0. */
  function WrapStep(count: int): (r: int)
    ensures r <= 8
    ensures count >= -1 ==> r >= 0
    ensures count < 8 ==> r == count + 1
    ensures count >= 8 ==> r == 0
  {
    if count < 8 then count + 1 else 0
  }

  /** The count after k clicks. */
  function WrapClicks(count: int, k: nat): (r: int)
    ensures 0 <= count <= 8 ==> 0 <= r <= 8
  {
    if k == 0 then count else WrapStep(WrapClicks(count, k - 1))
  }

  /** From a count in 0..8 the counter moves round a cycle of nine values. */
  lemma {:induction false} WrapClicksCycle(count: int, k: nat)
    requires 0 <= count <= 8
    ensures WrapClicks(count, k) == (count + k) % 9
  {
    if k > 0 {
      WrapClicksCycle(count, k - 1);
      var before := (count + k - 1) % 9;
      if before < 8 {
        assert (count + k) % 9 == before + 1;
      } else {
        assert (count + k) % 9 == 0;
      }
    }
  }

  /** Nine clicks bring the count back to where it started. */
  lemma NineClicksReturn(count: int)
    requires 0 <= count <= 8
    ensures WrapClicks(count, 9) == count
  {
    WrapClicksCycle(count, 9);
  }

  /** The stored `{ date, meals }` of meal indices logged. */
  datatype MealLog = MealLog(date: string, meals: seq<int>)

  /** The logged list the page starts from: the stored one when saved today, empty otherwise. */
  function RestoreMeals(log: Option<MealLog>, today: string): (r: seq<int>)
    ensures log.Some? && log.value.date == today ==> r == log.value.meals
    ensures r != [] ==> log.Some? && log.value.date == today
  {
    if log.Some? && log.value.date == today then log.value.meals else []
  }

  /** `nutritionPlan.meals[mealIndex]?.[nutrient] || 0`. */
  function LoggedAmount(meals: seq<Meal>, index: int, n: Nutrient): (r: int)
    ensures !(0 <= index < |meals|) ==> r == 0
    ensures 0 <= index < |meals| ==> r == Amount(meals[index], n)
  {
    if 0 <= index < |meals| then Amount(meals[index], n) else 0
  }

  /** The `reduce` over the logged indices. */
  function LoggedTotal(meals: seq<Meal>, logged: seq<int>, n: Nutrient): (t: int)
    ensures (forall k :: 0 <= k < |logged| ==> !(0 <= logged[k] < |meals|)) ==> t == 0
    ensures (forall k :: 0 <= k < |meals| ==> Amount(meals[k], n) >= 0) ==> t >= 0
  {
    if logged == [] then 0 else LoggedAmount(meals, logged[0], n) + LoggedTotal(meals, logged[1..], n)
  }

  /** The total of two lists one after the other is the sum of their totals. */
  lemma {:induction false} LoggedTotalAppend(meals: seq<Meal>, xs: seq<int>, ys: seq<int>, n: Nutrient)
    ensures LoggedTotal(meals, xs + ys, n) == LoggedTotal(meals, xs, n) + LoggedTotal(meals, ys, n)
  {
    if xs != [] {
      assert (xs + ys)[1..] == xs[1..] + ys;
      LoggedTotalAppend(meals, xs[1..], ys, n);
    } else {
      assert xs + ys == ys;
    }
  }

  /** `a` added up `k` times. */
  function Scale(k: nat, a: int): int {
    if k == 0 then 0 else a + Scale(k - 1, a)
  }

  /** Adding up `k` copies is multiplying by `k`. */
  lemma {:induction false} ScaleIsProduct(k: nat, a: int)
    ensures Scale(k, a) == k * a
  {
    if k > 0 {
      ScaleIsProduct(k - 1, a);
    }
  }

  /** The total of a list is its first entry's amount plus the total of the rest. */
  lemma LoggedTotalCons(meals: seq<Meal>, x: int, rest: seq<int>, n: Nutrient)
    ensures LoggedTotal(meals, [x] + rest, n) == LoggedAmount(meals, x, n) + LoggedTotal(meals, rest, n)
  {
    assert ([x] + rest)[1..] == rest;
  }

  /** Removing an index takes its amount off the total once for each time it is listed. */
  lemma {:induction false} LoggedTotalRemoveCopies(meals: seq<Meal>, xs: seq<int>, i: int, n: Nutrient)
    ensures LoggedTotal(meals, RemoveAll(xs, i), n) == LoggedTotal(meals, xs, n) - Scale(multiset(xs)[i], LoggedAmount(meals, i, n))
  {
    if xs != [] {
      var x, tail := xs[0], xs[1..];
      LoggedTotalRemoveCopies(meals, tail, i, n);
      assert xs == [x] + tail;
      LoggedTotalCons(meals, x, tail, n);
      var m, a := multiset(tail)[i], LoggedAmount(meals, i, n);
      if x == i {
        assert RemoveAll(xs, i) == RemoveAll(tail, i);
        assert multiset(xs)[i] == m + 1;
      } else {
        assert RemoveAll(xs, i) == [x] + RemoveAll(tail, i);
        LoggedTotalCons(meals, x, RemoveAll(tail, i), n);
        assert multiset(xs)[i] == m;
      }
    }
  }

  /** The same, with the copies counted by multiplication. */
  lemma LoggedTotalRemove(meals: seq<Meal>, xs: seq<int>, i: int, n: Nutrient)
    ensures LoggedTotal(meals, RemoveAll(xs, i), n) == LoggedTotal(meals, xs, n) - multiset(xs)[i] * LoggedAmount(meals, i, n)
  {
    LoggedTotalRemoveCopies(meals, xs, i, n);
    ScaleIsProduct(multiset(xs)[i], LoggedAmount(meals, i, n));
  }

  /**
   * Logging a meal that was not logged adds its amount to the total, and
   * unlogging a meal logged once takes it off again.
   */
  lemma ToggleMealTotal(meals: seq<Meal>, logged: seq<int>, i: int, n: Nutrient)
    ensures i !in logged ==> LoggedTotal(meals, Toggle(logged, i), n) == LoggedTotal(meals, logged, n) + LoggedAmount(meals, i, n)
    ensures multiset(logged)[i] == 1 ==> LoggedTotal(meals, Toggle(logged, i), n) == LoggedTotal(meals, logged, n) - LoggedAmount(meals, i, n)
  {
    if i !in logged {
      LoggedTotalAppend(meals, logged, [i], n);
    } else {
      LoggedTotalRemove(meals, logged, i, n);
    }
  }

  /** With all five meals of a plan logged, the logged total is the meals' total. */
  lemma AllMealsLogged(meals: seq<Meal>, n: Nutrient)
    requires |meals| == 5
    ensures LoggedTotal(meals, [0, 1, 2, 3, 4], n) == Total(meals, n)
  {
    TotalOfFive(meals, n);
    assert LoggedTotal(meals, [4], n) == Amount(meals[4], n) by { assert [4][1..] == []; }
    assert LoggedTotal(meals, [3, 4], n) == Amount(meals[3], n) + LoggedTotal(meals, [4], n) by { assert [3, 4][1..] == [4]; }
    assert LoggedTotal(meals, [2, 3, 4], n) == Amount(meals[2], n) + LoggedTotal(meals, [3, 4], n) by { assert [2, 3, 4][1..] == [3, 4]; }
    assert LoggedTotal(meals, [1, 2, 3, 4], n) == Amount(meals[1], n) + LoggedTotal(meals, [2, 3, 4], n) by { assert [1, 2, 3, 4][1..] == [2, 3, 4]; }
    assert [0, 1, 2, 3, 4][1..] == [1, 2, 3, 4];
  }

  /** `target - logged`: what is left, negative once the target is passed. */
  function Remaining(target: int, logged: int): (r: int)
    ensures r < 0 <==> logged > target
    ensures logged + r == target
  {
    target - logged
  }

  /**
   * A user who logs every meal of a generated plan is left with at most
   * 2 kcal either way.
   */
  lemma LoggingEveryMealMeetsTarget(p: PlanGenerator.Profile)
    ensures var plan := GenerateNutritionPlan(p);
      |plan.meals| == 5
      && -2 <= Remaining(plan.dailyCalories, LoggedTotal(plan.meals, [0, 1, 2, 3, 4], Calories)) <= 2
  {
    var plan := GenerateNutritionPlan(p);
    NutritionPlanConsistent(p);
    MealPlanTotals(plan.dailyCalories, plan.protein, plan.carbs, plan.fats, p.dietaryRestrictions);
    AllMealsLogged(plan.meals, Calories);
  }

  /**
   * `Math.min(logged / target * 100, 100)`: the bar width in percent. A zero
   * target gives no finite percentage (None).
   */
  function BarWidth(logged: int, target: int): (w: Option<real>)
    ensures w.Some? <==> target != 0
    ensures w.Some? ==> w.value <= 100.0
    ensures w.Some? ==> (w.value == 100.0 <==> logged as real / target as real >= 1.0)
    ensures w.Some? && logged as real / target as real < 1.0 ==> w.value == logged as real / target as real * 100.0
  {
    if target == 0 then None
    else
      var pct := logged as real / target as real * 100.0;
      Some(if pct < 100.0 then pct else 100.0)
  }

  /** The page's state with the stored logs it writes. */
  class NutritionTracker {
    var water: int
    var storedWater: Option<WaterLog>
    var logged: seq<int>
    var storedMeals: Option<MealLog>

    /** The mount effect: water and meals restored only from today's logs. */
    constructor(waterLog: Option<WaterLog>, mealLog: Option<MealLog>, today: string)
      ensures water == RestoreWater(waterLog, today) && storedWater == waterLog
      ensures logged == RestoreMeals(mealLog, today) && storedMeals == mealLog
    {
      water := RestoreWater(waterLog, today);
      storedWater := waterLog;
      logged := RestoreMeals(mealLog, today);
      storedMeals := mealLog;
    }

    /** handleWaterClick: the count advances round the cycle and is stored with today's date. */
    method HandleWaterClick(today: string)
      modifies this
      ensures water == WrapStep(old(water)) && storedWater == Some(WaterLog(today, water))
      ensures logged == old(logged) && storedMeals == old(storedMeals)
    {
      var newCount := if water < 8 then water + 1 else 0;
      water := newCount;
      storedWater := Some(WaterLog(today, newCount));
    }

    /** toggleMeal: the index's membership flips, the others stay, and the list is stored with today's date. */
    method ToggleMeal(index: int, today: string)
      modifies this
      ensures logged == Toggle(old(logged), index) && storedMeals == Some(MealLog(today, logged))
      ensures index in logged <==> index !in old(logged)
      ensures forall other :: other != index ==> (other in logged <==> other in old(logged))
      ensures water == old(water) && storedWater == old(storedWater)
    {
      logged := Toggle(logged, index);
      storedMeals := Some(MealLog(today, logged));
    }
  }

  /** Toggling the same meal twice restores whether it is logged. */
  lemma ToggleMealTwice(logged: seq<int>, index: int)
    ensures (index in Toggle(Toggle(logged, index), index)) <==> index in logged
  {
  }
}

=== FILE: nutrition_plan.dfy ===
/**
 * The nutrition half of the plan generator (app/generate-plan/page.js):
 * a BMR estimate scaled by training frequency and goal gives the daily
 * calorie target, which is split into macros, five meals and guidelines.
 * Arithmetic is on exact reals; `Math.round` rounds halves upwards.
 */
module NutritionPlanner {
  import opened Basics
  import opened Text
  import opened PlanGenerator

  /** `Math.round`: the nearest integer, halves rounded towards +infinity. */
  function Round(x: real): (r: int)
    ensures x - 0.5 < r as real <= x + 0.5
  {
    (x + 0.5).Floor
  }

  // ---------------------------------------------------------------------------
  // Calorie target

  /** `parseFloat(weight) || 150`: NaN and zero fall back to 150 lb. */
  function BodyWeight(p: Profile): (w: real)
    ensures w != 0.0
    ensures p.weight.Some? && p.weight.value != 0.0 ==> w == p.weight.value
    ensures p.weight.None? || p.weight == Some(0.0) ==> w == 150.0
  {
    match p.weight
    case Some(x) => if x == 0.0 then 150.0 else x
    case None => 150.0
  }

  /** `parseInt(age) || 25` */
  function Age(p: Profile): (a: int)
    ensures a != 0
    ensures ParseInt(p.age).Some? && ParseInt(p.age).value != 0 ==> a == ParseInt(p.age).value
    ensures ParseInt(p.age).None? || ParseInt(p.age) == Some(0) ==> a == 25
  {
    match ParseInt(p.age)
    case Some(n) => if n == 0 then 25 else n
    case None => 25
  }

  const Male := "male"

  /** The simplified BMR: pounds converted to kilograms, a fixed height of 175 cm (men) or 165 cm (everyone else). */
  function Bmr(p: Profile): (r: real)
    ensures r == 4.53592 * BodyWeight(p) - 5.0 * Age(p) as real + (if p.gender == Male then 1098.75 else 870.25)
  {
    var w := BodyWeight(p);
    var a := Age(p) as real;
    if p.gender == Male then 10.0 * w * 0.453592 + 6.25 * 175.0 - 5.0 * a + 5.0
    else 10.0 * w * 0.453592 + 6.25 * 165.0 - 5.0 * a - 161.0
  }

  /** The men's formula gives 228.5 kcal more for the same weight and age (10 cm of height and 166 kcal). */
  lemma BmrGenderGap(p: Profile)
    requires p.gender == Male
    ensures Bmr(p) - Bmr(p.(gender := "female")) == 228.5
  {
  }

  /** Each pound adds 4.53592 kcal; each year of age takes away 5. */
  lemma BmrSlopes(p: Profile, q: Profile)
    requires p.gender == q.gender
    ensures Bmr(q) - Bmr(p) == 4.53592 * (BodyWeight(q) - BodyWeight(p)) - 5.0 * (Age(q) - Age(p)) as real
  {
  }

  /** Two training days 1.375, three 1.55, anything else (the '4-5' and '6+' options, or no answer) 1.725. */
  function ActivityMultiplier(daysPerWeek: string): (m: real)
    ensures 1.375 <= m <= 1.725
    ensures m == 1.725 <==> daysPerWeek != "2" && daysPerWeek != "3"
  {
    if daysPerWeek == "2" then 1.375 else if daysPerWeek == "3" then 1.55 else 1.725
  }

  /**
   * Without an answer the workout plan falls back to three training days
   * while the calorie estimate uses the highest activity level, which an
   * answer of '3' would not: the two halves read the field differently.
   */
  lemma UnansweredDaysMismatch(p: Profile)
    requires p.daysPerWeek == ""
    ensures TrainingDays(p.daysPerWeek) == 3 && ActivityMultiplier(p.daysPerWeek) == 1.725
    ensures ActivityMultiplier(p.daysPerWeek) != ActivityMultiplier("3")
  {
    TrainingDaysBlank(p.daysPerWeek);
  }

  /** The maintenance estimate: the BMR times the activity multiplier, to the nearest calorie. */
  function Tdee(p: Profile): (t: int)
    ensures Bmr(p) * ActivityMultiplier(p.daysPerWeek) - 0.5 < t as real <= Bmr(p) * ActivityMultiplier(p.daysPerWeek) + 0.5
  {
    Round(Bmr(p) * ActivityMultiplier(p.daysPerWeek))
  }

  const LoseFat := "Lose fat"
  const BuildMuscle := "Build muscle"

  /** The calorie target: a 15% deficit for a goal mentioning 'Lose fat', else a 10% surplus for one mentioning 'Build muscle'. */
  function DailyCalories(p: Profile): (c: int)
    ensures Tdee(p) >= 0 && Contains(p.primaryGoal, LoseFat) ==> c <= Tdee(p)
    ensures Tdee(p) >= 0 && !Contains(p.primaryGoal, LoseFat) ==> c >= Tdee(p)
    ensures !Contains(p.primaryGoal, LoseFat) && !Contains(p.primaryGoal, BuildMuscle) ==> c == Tdee(p)
  {
    var tdee := Tdee(p);
    if Contains(p.primaryGoal, LoseFat) then Round(tdee as real * 0.85)
    else if Contains(p.primaryGoal, BuildMuscle) then Round(tdee as real * 1.1)
    else tdee
  }

  /** The goal adjusts the maintenance estimate by -15%, +10% or not at all, to the nearest calorie; 'Lose fat' wins over 'Build muscle'. */
  lemma GoalAdjustment(p: Profile)
    ensures var t, c := Tdee(p) as real, DailyCalories(p) as real;
      && (Contains(p.primaryGoal, LoseFat) ==> 0.85 * t - 0.5 < c <= 0.85 * t + 0.5)
      && (!Contains(p.primaryGoal, LoseFat) && Contains(p.primaryGoal, BuildMuscle) ==> 1.1 * t - 0.5 < c <= 1.1 * t + 0.5)
  {
  }

  // ---------------------------------------------------------------------------
  // Macros

  datatype Macros = Macros(protein: int, fats: int, carbs: int)

  /** 0.8 g protein per pound, 25% of calories from fat, the rest from carbohydrate; nothing clamps carbs at zero. */
  function MacroSplit(calories: int, weight: real): (m: Macros)
    ensures calories - 1 <= 4 * m.protein + 9 * m.fats + 4 * m.carbs <= calories + 2
  {
    var protein := Round(weight * 0.8);
    var fat := Round(calories as real * 0.25 / 9.0);
    var carbs := Round((calories - protein * 4 - fat * 9) as real / 4.0);
    Macros(protein, fat, carbs)
  }

  /** Fat supplies a quarter of the calories and protein is 0.8 g per pound, each to within rounding. */
  lemma MacroShares(calories: int, weight: real)
    ensures var m := MacroSplit(calories, weight);
      calories - 18 < 36 * m.fats <= calories + 18
    ensures weight * 0.8 - 0.5 < MacroSplit(calories, weight).protein as real <= weight * 0.8 + 0.5
  {
  }

  /** A low target against a high body weight drives carbs negative: 70 kcal at 150 lb gives -107 g. */
  lemma NegativeCarbs()
    ensures MacroSplit(70, 150.0) == Macros(120, 2, -107)
  {
    assert Round(150.0 * 0.8) == 120;
    assert Round(70 as real * 0.25 / 9.0) == 2;
    assert Round((70 - 480 - 18) as real / 4.0) == -107;
  }

  // ---------------------------------------------------------------------------
  // Meals

  datatype Meal = Meal(name: string, time: string, calories: int, protein: int, carbs: int, fats: int, foods: seq<string>)

  datatype Nutrient = Calories | Protein | Carbs | Fats

  function Amount(m: Meal, n: Nutrient): int {
    match n
    case Calories => m.calories
    case Protein => m.protein
    case Carbs => m.carbs
    case Fats => m.fats
  }

  /** The sum of one nutrient over a list of meals. */
  function Total(meals: seq<Meal>, n: Nutrient): int {
    if meals == [] then 0 else Amount(meals[0], n) + Total(meals[1..], n)
  }

  const Vegetarian := "Vegetarian"
  const Vegan := "Vegan"

  const VeganBreakfast := ["Oatmeal with banana and almond butter", "Chia seeds", "Plant-based protein shake", "Mixed berries"]
  const StandardBreakfast := ["Scrambled eggs (3 whole)", "Whole grain toast", "Avocado", "Greek yogurt with berries"]
  const MorningSnack := ["Protein bar or shake", "Apple or banana", "Handful of almonds"]
  const VegetarianLunch := ["Quinoa bowl with chickpeas", "Mixed vegetables", "Tahini dressing", "Side salad"]
  const StandardLunch := ["Grilled chicken breast (6oz)", "Brown rice (1 cup)", "Steamed broccoli", "Mixed greens salad"]
  const PreWorkoutSnack := ["Banana", "Rice cakes with almond butter", "Small protein shake"]
  const VeganDinner := ["Tofu stir-fry with vegetables", "Quinoa or brown rice", "Mixed nuts", "Leafy greens"]
  const StandardDinner := ["Salmon or lean beef (6oz)", "Sweet potato", "Asparagus", "Olive oil drizzle"]

  const MealNames := ["Breakfast", "Mid-Morning Snack", "Lunch", "Pre-Workout Snack", "Dinner"]
  const MealTimes := ["7:00 AM", "10:00 AM", "12:30 PM", "3:00 PM", "6:30 PM"]

  /**
   * generateMealPlan: five meals, each a fixed share of every macro. Breakfast
   * and dinner change for 'Vegan', lunch only for 'Vegetarian'.
   */
  function MealPlan(calories: int, protein: int, carbs: int, fat: int, restrictions: seq<string>): (ms: seq<Meal>)
    ensures |ms| == 5
    ensures forall k :: 0 <= k < 5 ==> ms[k].name == MealNames[k] && ms[k].time == MealTimes[k]
  {
    var vegetarian := Vegetarian in restrictions;
    var vegan := Vegan in restrictions;
    [ Meal(MealNames[0], MealTimes[0], Round(calories as real * 0.25), Round(protein as real * 0.25),
           Round(carbs as real * 0.3), Round(fat as real * 0.25), if vegan then VeganBreakfast else StandardBreakfast),
      Meal(MealNames[1], MealTimes[1], Round(calories as real * 0.1), Round(protein as real * 0.15),
           Round(carbs as real * 0.1), Round(fat as real * 0.15), MorningSnack),
      Meal(MealNames[2], MealTimes[2], Round(calories as real * 0.3), Round(protein as real * 0.3),
           Round(carbs as real * 0.3), Round(fat as real * 0.25), if vegetarian then VegetarianLunch else StandardLunch),
      Meal(MealNames[3], MealTimes[3], Round(calories as real * 0.1), Round(protein as real * 0.1),
           Round(carbs as real * 0.15), Round(fat as real * 0.05), PreWorkoutSnack),
      Meal(MealNames[4], MealTimes[4], Round(calories as real * 0.25), Round(protein as real * 0.3),
           Round(carbs as real * 0.15), Round(fat as real * 0.3), if vegan then VeganDinner else StandardDinner) ]
  }

  /** The sum over five meals, written out. */
  lemma TotalOfFive(ms: seq<Meal>, n: Nutrient)
    requires |ms| == 5
    ensures Total(ms, n) == Amount(ms[0], n) + Amount(ms[1], n) + Amount(ms[2], n) + Amount(ms[3], n) + Amount(ms[4], n)
  {
    assert Total(ms[4..], n) == Amount(ms[4], n) by { assert ms[4..][1..] == []; }
    assert Total(ms[3..], n) == Amount(ms[3], n) + Total(ms[4..], n) by { assert ms[3..][1..] == ms[4..]; }
    assert Total(ms[2..], n) == Amount(ms[2], n) + Total(ms[3..], n) by { assert ms[2..][1..] == ms[3..]; }
    assert Total(ms[1..], n) == Amount(ms[1], n) + Total(ms[2..], n) by { assert ms[1..][1..] == ms[2..]; }
  }

  /**
   * The meals add up to the day's calories, carbs and fat to within 2 units.
   * The protein shares sum to 110%, so the meals hold about 10% more protein
   * than the day's target.
   */
  lemma MealPlanTotals(calories: int, protein: int, carbs: int, fat: int, restrictions: seq<string>)
    ensures var ms := MealPlan(calories, protein, carbs, fat, restrictions);
      && |ms| == 5
      && calories - 2 <= Total(ms, Calories) <= calories + 2
      && carbs - 2 <= Total(ms, Carbs) <= carbs + 2
      && fat - 2 <= Total(ms, Fats) <= fat + 2
      && 11 * protein - 24 <= 10 * Total(ms, Protein) <= 11 * protein + 25
  {
    var ms := MealPlan(calories, protein, carbs, fat, restrictions);
    TotalOfFive(ms, Calories);
    TotalOfFive(ms, Protein);
    TotalOfFive(ms, Carbs);
    TotalOfFive(ms, Fats);
  }

  /**
   * The food lists depend on the restrictions only through 'Vegan' (breakfast
   * and dinner) and 'Vegetarian' (lunch); a vegan who did not also tick
   * 'Vegetarian' is served the chicken lunch.
   */
  lemma FoodsFollowRestrictions(calories: int, protein: int, carbs: int, fat: int, r: seq<string>, r': seq<string>)
    ensures var ms, ms' := MealPlan(calories, protein, carbs, fat, r), MealPlan(calories, protein, carbs, fat, r');
      && ((Vegan in r <==> Vegan in r') ==> ms[0].foods == ms'[0].foods && ms[4].foods == ms'[4].foods)
      && ((Vegetarian in r <==> Vegetarian in r') ==> ms[2].foods == ms'[2].foods)
      && ms[1].foods == ms'[1].foods && ms[3].foods == ms'[3].foods
    ensures Vegan in r && Vegetarian !in r ==>
      var ms := MealPlan(calories, protein, carbs, fat, r);
      ms[0].foods == VeganBreakfast && ms[2].foods == StandardLunch && ms[4].foods == VeganDinner
  {
  }

  // ---------------------------------------------------------------------------
  // Guidelines

  /** `.filter(Boolean)` on strings: the non-empty ones, in order. */
  function NonEmptyOnly(xs: seq<string>): (r: seq<string>)
    ensures forall k :: 0 <= k < |r| ==> r[k] != ""
    ensures forall s :: s in r <==> s in xs && s != ""
  {
    if xs == [] then []
    else if xs[0] == "" then NonEmptyOnly(xs[1..])
    else [xs[0]] + NonEmptyOnly(xs[1..])
  }

  /** Filtering a concatenation filters each part. */
  lemma {:induction false} NonEmptyOnlyAppend(xs: seq<string>, ys: seq<string>)
    ensures NonEmptyOnly(xs + ys) == NonEmptyOnly(xs) + NonEmptyOnly(ys)
  {
    if xs == [] {
      assert xs + ys == ys;
    } else {
      assert (xs + ys)[1..] == xs[1..] + ys;
      NonEmptyOnlyAppend(xs[1..], ys);
    }
  }

  /** A list with no empty string passes the filter unchanged. */
  lemma {:induction false} NonEmptyOnlyKeeps(xs: seq<string>)
    requires forall k :: 0 <= k < |xs| ==> xs[k] != ""
    ensures NonEmptyOnly(xs) == xs
  {
    if xs != [] {
      NonEmptyOnlyKeeps(xs[1..]);
    }
  }

  const CalorieTargetText := "Your daily calorie target is "
  const CalorieGoalText := " calories to support your goal: "
  const AimText := "Aim for "
  const ProteinText := "g protein daily to support muscle recovery and growth"
  const SpreadMeals := "Spread meals throughout the day to maintain energy and support metabolism"
  const WaterGuideline := "Drink at least 8 glasses of water daily, more on workout days"
  const MealPrep := "Meal prep on weekends to save time during the week"
  const PlantProtein := "Include protein-rich plant sources like legumes, tofu, and quinoa"
  const TimeKey := "time"

  function CalorieGuideline(calories: int, goal: string): (s: string)
    ensures s != ""
  {
    CalorieTargetText + IntToString(calories) + CalorieGoalText + goal
  }

  function ProteinGuideline(protein: int): (s: string)
    ensures s != ""
  {
    AimText + IntToString(protein) + ProteinText
  }

  /** The six candidate guidelines with the empty (conditional) ones filtered out. */
  function Guidelines(calories: int, protein: int, p: Profile): (g: seq<string>)
    ensures forall k :: 0 <= k < |g| ==> g[k] != ""
    ensures SpreadMeals in g && WaterGuideline in g
    ensures Contains(p.nutritionChallenge, TimeKey) ==> MealPrep in g
    ensures Vegetarian in p.dietaryRestrictions || Vegan in p.dietaryRestrictions ==> PlantProtein in g
  {
    NonEmptyOnly([
      CalorieGuideline(calories, p.primaryGoal),
      ProteinGuideline(protein),
      SpreadMeals,
      WaterGuideline,
      if Contains(p.nutritionChallenge, TimeKey) then MealPrep else "",
      if Vegetarian in p.dietaryRestrictions || Vegan in p.dietaryRestrictions then PlantProtein else ""])
  }

  /** Filtering four non-empty texts followed by two optional ones keeps the four and whichever of the two is non-empty. */
  lemma FilterSix(a: string, b: string, c: string, d: string, e: string, f: string)
    requires a != "" && b != "" && c != "" && d != ""
    ensures NonEmptyOnly([a, b, c, d, e, f]) == [a, b, c, d] + (if e == "" then [] else [e]) + (if f == "" then [] else [f])
  {
    assert [a, b, c, d, e, f] == [a, b, c, d] + [e] + [f];
    NonEmptyOnlyAppend([a, b, c, d] + [e], [f]);
    NonEmptyOnlyAppend([a, b, c, d], [e]);
    NonEmptyOnlyKeeps([a, b, c, d]);
    assert NonEmptyOnly([e]) == (if e == "" then [] else [e]) by { assert [e][1..] == []; }
    assert NonEmptyOnly([f]) == (if f == "" then [] else [f]) by { assert [f][1..] == []; }
  }

  /** Four fixed guidelines, then meal prep for a time-related challenge, then plant protein for vegetarians and vegans. */
  lemma GuidelinesShape(calories: int, protein: int, p: Profile)
    ensures Guidelines(calories, protein, p) ==
      [CalorieGuideline(calories, p.primaryGoal), ProteinGuideline(protein), SpreadMeals, WaterGuideline]
      + (if Contains(p.nutritionChallenge, TimeKey) then [MealPrep] else [])
      + (if Vegetarian in p.dietaryRestrictions || Vegan in p.dietaryRestrictions then [PlantProtein] else [])
  {
    var prep := if Contains(p.nutritionChallenge, TimeKey) then MealPrep else "";
    var plant := if Vegetarian in p.dietaryRestrictions || Vegan in p.dietaryRestrictions then PlantProtein else "";
    assert SpreadMeals != "" && WaterGuideline != "" && MealPrep != "" && PlantProtein != "";
    FilterSix(CalorieGuideline(calories, p.primaryGoal), ProteinGuideline(protein), SpreadMeals, WaterGuideline, prep, plant);
  }


  // ---------------------------------------------------------------------------
  // The plan

  /** The nutrition plan without its id, user id and time stamps. */
  datatype NutritionPlan = NutritionPlan(
    dailyCalories: int, protein: int, carbs: int, fats: int, waterGoal: int,
    meals: seq<Meal>, guidelines: seq<string>)

  /** generateNutritionPlan */
  function GenerateNutritionPlan(p: Profile): (n: NutritionPlan)
    ensures n.dailyCalories == DailyCalories(p) && n.waterGoal == 8
    ensures n.dailyCalories - 1 <= 4 * n.protein + 9 * n.fats + 4 * n.carbs <= n.dailyCalories + 2
    ensures |n.meals| == 5
    ensures Macros(n.protein, n.fats, n.carbs) == MacroSplit(n.dailyCalories, BodyWeight(p))
  {
    var calories := DailyCalories(p);
    PlanFor(calories, MacroSplit(calories, BodyWeight(p)), p)
  }

  /** The plan record built around a calorie target and its macros. */
  function PlanFor(calories: int, m: Macros, p: Profile): NutritionPlan {
    NutritionPlan(calories, m.protein, m.carbs, m.fats, 8,
                  MealPlan(calories, m.protein, m.carbs, m.fats, p.dietaryRestrictions),
                  Guidelines(calories, m.protein, p))
  }

  lemma PlanForConsistent(calories: int, m: Macros, p: Profile)
    ensures var n := PlanFor(calories, m, p);
      && n.dailyCalories - 2 <= Total(n.meals, Calories) <= n.dailyCalories + 2
      && |n.guidelines| >= 4
      && n.guidelines[0] == CalorieTargetText + IntToString(n.dailyCalories) + CalorieGoalText + p.primaryGoal
      && n.guidelines[1] == AimText + IntToString(n.protein) + ProteinText
  {
    MealPlanTotals(calories, m.protein, m.carbs, m.fats, p.dietaryRestrictions);
    GuidelinesShape(calories, m.protein, p);
  }

  /**
   * A generated plan is self-consistent: its macros cover its calories, its
   * meals add up to its totals, and its guidelines quote its numbers.
   */
  lemma NutritionPlanConsistent(p: Profile)
    ensures var n := GenerateNutritionPlan(p);
      && n.dailyCalories - 2 <= Total(n.meals, Calories) <= n.dailyCalories + 2
      && |n.guidelines| >= 4
      && n.guidelines[0] == CalorieTargetText + IntToString(n.dailyCalories) + CalorieGoalText + p.primaryGoal
      && n.guidelines[1] == AimText + IntToString(n.protein) + ProteinText
  {
    var calories := DailyCalories(p);
    PlanForConsistent(calories, MacroSplit(calories, BodyWeight(p)), p);
  }

}

=== FILE: onboarding.dfy ===
/**
 * The nine-step onboarding questionnaire (app/onboarding/page.js): a step
 * counter, the answers collected so far, and the rules that let the user
 * move on. Every change of the answers is written back to storage.
 */
module Onboarding {
  import opened Basics
  import opened Text
  import opened Lists
  import opened PlanGenerator
  import opened NutritionPlanner

  /** The single-valued answers. */
  datatype Field =
    | Name | Age | Gender | Height | Weight
    | PrimaryGoal | Motivation | Timeline
    | FitnessHistory | PastSuccess
    | DaysPerWeek | WorkoutLength | PreferredTime | JobType | SleepHours | StressLevel
    | WorkoutPreference
    | EatingHabits | NutritionChallenge | WaterIntake
    | BiggestObstacle | CommunicationStyle
    | Injuries

  /** The multi-select answers. */
  datatype ListField = ExerciseTypes | PastStruggles | Equipment | DietaryRestrictions | MotivationFactors | TrackingPreference

  const AllFields: set<Field> := {
    Name, Age, Gender, Height, Weight, PrimaryGoal, Motivation, Timeline, FitnessHistory, PastSuccess,
    DaysPerWeek, WorkoutLength, PreferredTime, JobType, SleepHours, StressLevel, WorkoutPreference,
    EatingHabits, NutritionChallenge, WaterIntake, BiggestObstacle, CommunicationStyle, Injuries}
  const AllLists: set<ListField> := {ExerciseTypes, PastStruggles, Equipment, DietaryRestrictions, MotivationFactors, TrackingPreference}

  /** `formData` (the photo, measurements, slider and review flag are not part of this model). */
  datatype Form = Form(scalars: map<Field, string>, lists: map<ListField, seq<string>>)

  /** Every answer has a value. */
  ghost predicate Complete(form: Form) {
    (forall f: Field :: f in form.scalars) && (forall l: ListField :: l in form.lists)
  }

  /** The initial answers: every text empty, every list empty. */
  function DefaultForm(): (form: Form)
    ensures Complete(form)
    ensures forall f: Field :: form.scalars[f] == ""
    ensures forall l: ListField :: form.lists[l] == []
  {
    AllAnswersListed();
    Form(map f | f in AllFields :: "", map l | l in AllLists :: [])
  }

  lemma AllAnswersListed()
    ensures forall f: Field :: f in AllFields
    ensures forall l: ListField :: l in AllLists
  {
    forall f: Field ensures f in AllFields {
      match f
      case Name => case Age => case Gender => case Height => case Weight => case PrimaryGoal =>
      case Motivation => case Timeline => case FitnessHistory => case PastSuccess => case DaysPerWeek =>
      case WorkoutLength => case PreferredTime => case JobType => case SleepHours => case StressLevel =>
      case WorkoutPreference => case EatingHabits => case NutritionChallenge => case WaterIntake =>
      case BiggestObstacle => case CommunicationStyle => case Injuries =>
    }
    forall l: ListField ensures l in AllLists {
      match l
      case ExerciseTypes => case PastStruggles => case Equipment => case DietaryRestrictions =>
      case MotivationFactors => case TrackingPreference =>
    }
  }

  const TotalSteps := 9

  // ---------------------------------------------------------------------------
  // canProceed

  predicate Filled(form: Form, f: Field)
    requires Complete(form)
  {
    form.scalars[f] != ""
  }

  predicate Chosen(form: Form, l: ListField)
    requires Complete(form)
  {
    |form.lists[l]| > 0
  }

  /** canProceed: the answers step `step` insists on. Steps 8 and 9 are optional; other numbers never proceed. */
  predicate CanProceed(step: int, form: Form)
    requires Complete(form)
  {
    if step == 1 then Filled(form, Name) && Filled(form, Age) && Filled(form, Gender) && Filled(form, Height) && Filled(form, Weight)
    else if step == 2 then Filled(form, PrimaryGoal) && Filled(form, Motivation) && Filled(form, Timeline)
    else if step == 3 then Filled(form, FitnessHistory) && Chosen(form, ExerciseTypes)
    else if step == 4 then
      Filled(form, DaysPerWeek) && Filled(form, WorkoutLength) && Filled(form, PreferredTime)
      && Filled(form, JobType) && Filled(form, SleepHours) && Filled(form, StressLevel)
    else if step == 5 then Filled(form, WorkoutPreference) && Chosen(form, Equipment)
    else if step == 6 then
      Filled(form, EatingHabits) && Filled(form, NutritionChallenge) && Chosen(form, DietaryRestrictions) && Filled(form, WaterIntake)
    else if step == 7 then Filled(form, BiggestObstacle) && Chosen(form, MotivationFactors) && Filled(form, CommunicationStyle)
    else step == 8 || step == 9
  }

  /** The required text answers of each step, as a table. */
  function RequiredFields(step: int): set<Field> {
    if step == 1 then {Name, Age, Gender, Height, Weight}
    else if step == 2 then {PrimaryGoal, Motivation, Timeline}
    else if step == 3 then {FitnessHistory}
    else if step == 4 then {DaysPerWeek, WorkoutLength, PreferredTime, JobType, SleepHours, StressLevel}
    else if step == 5 then {WorkoutPreference}
    else if step == 6 then {EatingHabits, NutritionChallenge, WaterIntake}
    else if step == 7 then {BiggestObstacle, CommunicationStyle}
    else {}
  }

  /** The required multi-select answers of each step, as a table. */
  function RequiredLists(step: int): set<ListField> {
    if step == 3 then {ExerciseTypes}
    else if step == 5 then {Equipment}
    else if step == 6 then {DietaryRestrictions}
    else if step == 7 then {MotivationFactors}
    else {}
  }

  /** canProceed agrees with the table: a step proceeds iff it is a real step and all its required answers are given. */
  lemma CanProceedTable(step: int, form: Form)
    requires Complete(form)
    ensures CanProceed(step, form) <==>
      && 1 <= step <= TotalSteps
      && (forall f :: f in RequiredFields(step) ==> Filled(form, f))
      && (forall l :: l in RequiredLists(step) ==> Chosen(form, l))
  {
  }

  /** The empty form is stuck on steps 1 to 7; the body scan and review steps never block. */
  lemma DefaultFormBlocks(step: int)
    ensures 1 <= step <= 7 ==> !CanProceed(step, DefaultForm())
    ensures CanProceed(step, DefaultForm()) <==> step == 8 || step == 9
  {
  }

  // ---------------------------------------------------------------------------
  // The wizard

  class OnboardingWizard {
    var currentStep: int
    var form: Form
    /** The copy under 'athenix_onboarding_data', rewritten after every change. */
    var persisted: Form

    ghost predicate Valid()
      reads this
    {
      1 <= currentStep <= TotalSteps && Complete(form) && persisted == form
    }

    /** The page starts at step 1 with the saved answers if there are any, otherwise the defaults. */
    constructor(saved: Option<Form>)
      requires saved.Some? ==> Complete(saved.value)
      ensures Valid()
      ensures currentStep == 1
      ensures form == if saved.Some? then saved.value else DefaultForm()
    {
      currentStep := 1;
      form := if saved.Some? then saved.value else DefaultForm();
      persisted := if saved.Some? then saved.value else DefaultForm();
    }

    /** handleNext: one step forward, never past the last step. */
    method HandleNext()
      requires Valid()
      modifies this
      ensures Valid()
      ensures currentStep == if old(currentStep) < TotalSteps then old(currentStep) + 1 else old(currentStep)
      ensures form == old(form)
    {
      if currentStep < TotalSteps {
        currentStep := currentStep + 1;
      }
    }

    /** handleBack: one step back, never before the first step. */
    method HandleBack()
      requires Valid()
      modifies this
      ensures Valid()
      ensures currentStep == if old(currentStep) > 1 then old(currentStep) - 1 else old(currentStep)
      ensures form == old(form)
    {
      if currentStep > 1 {
        currentStep := currentStep - 1;
      }
    }

    /** The Next button is rendered only before the last step. */
    predicate NextShown()
      reads this
    {
      currentStep < TotalSteps
    }

    /** The Next button is enabled only when the current step can proceed. */
    predicate NextEnabled()
      requires Valid()
      reads this
    {
      CanProceed(currentStep, form)
    }

    /** The Back button is disabled on step 1. */
    predicate BackDisabled()
      reads this
    {
      currentStep == 1
    }

    /** A click on Next: nothing happens unless the button is shown and enabled. */
    method ClickNext()
      requires Valid()
      modifies this
      ensures Valid()
      ensures form == old(form)
      ensures currentStep == if old(currentStep) < TotalSteps && CanProceed(old(currentStep), old(form))
                             then old(currentStep) + 1 else old(currentStep)
    {
      if NextShown() && NextEnabled() {
        HandleNext();
      }
    }

    /** updateFormData: sets one answer and leaves every other answer as it was. */
    method UpdateFormData(f: Field, value: string)
      requires Valid()
      modifies this
      ensures Valid()
      ensures form.scalars == old(form.scalars)[f := value]
      ensures form.lists == old(form.lists)
      ensures currentStep == old(currentStep)
    {
      form := form.(scalars := form.scalars[f := value]);
      persisted := form;
    }

    /** toggleArrayItem: removes every copy of a selected value, or appends an unselected one. */
    method ToggleArrayItem(l: ListField, value: string)
      requires Valid()
      modifies this
      ensures Valid()
      ensures form.lists == old(form.lists)[l := Toggle(old(form.lists)[l], value)]
      ensures form.scalars == old(form.scalars)
      ensures currentStep == old(currentStep)
    {
      form := form.(lists := form.lists[l := Toggle(form.lists[l], value)]);
      persisted := form;
    }

    /**
     * The click handler of the pastStruggles and motivationFactors options:
     * deselecting always works; selecting works only while fewer than two are chosen.
     */
    method ToggleCapped(l: ListField, value: string)
      requires Valid()
      modifies this
      ensures Valid()
      ensures var xs := old(form.lists)[l];
        form.lists == old(form.lists)[l := if value in xs then RemoveAll(xs, value)
                                           else if |xs| < 2 then xs + [value]
                                           else xs]
      ensures |old(form.lists)[l]| <= 2 ==> |form.lists[l]| <= 2
      ensures form.scalars == old(form.scalars)
      ensures currentStep == old(currentStep)
    {
      var xs := form.lists[l];
      if value in xs {
        form := form.(lists := form.lists[l := RemoveAll(xs, value)]);
        persisted := form;
      } else if |xs| < 2 {
        ToggleArrayItem(l, value);
      }
    }
  }

  /** Selecting an unselected value and clicking it again gives back the original list. */
  lemma ToggleRoundTrip(xs: seq<string>, value: string)
    requires value !in xs
    ensures Toggle(Toggle(xs, value), value) == xs
  {
    ToggleTwiceRestores(xs, value);
  }

  // ---------------------------------------------------------------------------
  // The height select

  /** Option i: i + 48 inches written as feet'inches". */
  function HeightLabel(i: int): string
    requires 0 <= i < 36
  {
    var n := i + 48;
    NatToString(n / 12) + "'" + NatToString(n % 12) + "\""
  }

  /** The 36 options, 4'0" to 6'11". */
  function HeightOptions(): (r: seq<string>)
    ensures |r| == 36
    ensures forall i :: 0 <= i < 36 ==> r[i] == HeightLabel(i)
  {
    seq(36, i requires 0 <= i < 36 => HeightLabel(i))
  }

  /** Option i has 4 to 6 feet and fewer than 12 inches, which together make i + 48 inches; the feet are one digit. */
  lemma HeightOption(i: int)
    requires 0 <= i < 36
    ensures var feet, inches := (i + 48) / 12, (i + 48) % 12;
      && 4 <= feet <= 6 && 0 <= inches < 12 && feet * 12 + inches == i + 48
      && HeightLabel(i) == [DigitChar(feet)] + "'" + NatToString(inches) + "\""
  {
  }

  /** No two options carry the same label. */
  lemma HeightLabelsDistinct(i: int, j: int)
    requires 0 <= i < 36 && 0 <= j < 36
    requires HeightLabel(i) == HeightLabel(j)
    ensures i == j
  {
    HeightOption(i);
    HeightOption(j);
    var a, b := HeightLabel(i), HeightLabel(j);
    var fi, fj := (i + 48) / 12, (j + 48) / 12;
    assert a[0] == DigitChar(fi) && b[0] == DigitChar(fj);
    var ni, nj := NatToString((i + 48) % 12), NatToString((j + 48) % 12);
    assert a[2..|a| - 1] == ni;
    assert b[2..|b| - 1] == nj;
    NatToStringInjective((i + 48) % 12, (j + 48) % 12);
  }

  // ---------------------------------------------------------------------------
  // Option lists that meet the plan generator

  const GoalOptions := [
    "Lose fat and see muscle definition",
    "Build noticeable muscle mass",
    "Get stronger",
    "Improve athletic performance",
    "Feel more confident",
    "Have more energy",
    "Get back in shape after break",
    "Maintain fitness efficiently"]

  /** No goal the form offers mentions 'Build muscle'. */
  lemma NoGoalOptionMentionsBuildMuscle(k: int)
    requires 0 <= k < |GoalOptions|
    ensures !Contains(GoalOptions[k], BuildMuscle)
  {
    var g := GoalOptions[k];
    forall i | 0 <= i <= |g| - |BuildMuscle| ensures !OccursAt(g, BuildMuscle, i) {
      assert g[i] != BuildMuscle[0] || g[i + 6] != BuildMuscle[6];
    }
  }

  /**
   * So for every goal chosen on the form the calorie target is either the
   * deficit or maintenance: the 10% surplus is never applied.
   */
  lemma FormGoalsNeverGetSurplus(p: Profile)
    requires p.primaryGoal in GoalOptions
    ensures !Contains(p.primaryGoal, LoseFat) ==> DailyCalories(p) == Tdee(p)
  {
    var k :| 0 <= k < |GoalOptions| && GoalOptions[k] == p.primaryGoal;
    NoGoalOptionMentionsBuildMuscle(k);
  }

  const DaysOptions := ["2", "3", "4-5", "6+"]

  /** The four day options train 2, 3, 4 and 6 days. */
  lemma DaysOptionsTrain(k: int)
    requires 0 <= k < |DaysOptions|
    ensures TrainingDays(DaysOptions[k]) == [2, 3, 4, 6][k]
  {
    TrainingDaysLeadingDigit(DaysOptions[k]);
  }
}

=== FILE: plan_generator.dfy ===
/**
 * The workout half of the plan generator (app/generate-plan/page.js):
 * a questionnaire record becomes a 12-week, 3-phase workout plan whose
 * first phase carries four weeks of day-by-day detail.
 */
module PlanGenerator {
  import opened Basics
  import opened Text

  /** The questionnaire answers the generator reads (parsed numbers arrive already parsed). */
  datatype Profile = Profile(
    daysPerWeek: string,            // one of '2', '3', '4-5', '6+' when it comes from the form
    equipment: seq<string>,
    workoutLength: string,
    injuries: string,
    primaryGoal: string,
    gender: string,
    weight: Option<real>,           // parseFloat(weight); None stands for NaN
    age: string,
    nutritionChallenge: string,
    dietaryRestrictions: seq<string>
  )

  datatype Exercise = Exercise(name: string, sets: int, reps: string, rest: string, weight: string, notes: string)

  /** One training day; `name` and `targetMuscles` are None where the source indexes past its table (`undefined`). */
  datatype Day = Day(
    day: int,
    name: Option<string>,
    targetMuscles: Option<string>,
    estimatedTime: string,
    warmup: seq<string>,
    exercises: seq<Exercise>,
    cooldown: seq<string>,
    notes: string
  )

  /** `weeks_detail`: the key `week${n}` is represented by the week number n. */
  type WeeksDetail = map<int, seq<Day>>

  datatype Phase = Phase(
    phase: int,
    name: string,
    weeks: seq<int>,
    focus: string,
    description: string,
    weeksDetail: Option<WeeksDetail>,
    unlocked: Option<bool>
  )

  /** The plan without its id, user id and generation time stamp. */
  datatype WorkoutPlan = WorkoutPlan(currentPhase: int, currentWeek: int, totalPhases: int, totalWeeks: int, phases: seq<Phase>)

  // ---------------------------------------------------------------------------
  // parseInt(daysPerWeek) || 3

  /** The longest prefix of decimal digits. */
  function DigitPrefix(s: string): (r: string)
    ensures |r| <= |s| && r == s[..|r|]
    ensures forall i :: 0 <= i < |r| ==> IsDigit(r[i])
    ensures |r| == |s| || !IsDigit(s[|r|])
  {
    if |s| > 0 && IsDigit(s[0]) then [s[0]] + DigitPrefix(s[1..]) else []
  }

  /**
   * `parseInt(s)` in base ten: leading white space is skipped, one sign is
   * read, then the longest run of digits; no digits gives NaN (None).
   */
  function ParseInt(s: string): (r: Option<int>)
    ensures IsBlank(s) ==> r.None?
    ensures |s| > 0 && (forall i :: 0 <= i < |s| ==> IsDigit(s[i])) ==> r == Some(DigitsValue(s))
    ensures r.Some? && r.value < 0 ==> TrimStart(s)[0] == '-'
  {
    DigitsParseWhole(s);
    var t := TrimStart(s);
    var negative := |t| > 0 && t[0] == '-';
    var body := if |t| > 0 && (t[0] == '-' || t[0] == '+') then t[1..] else t;
    var digits := DigitPrefix(body);
    if digits == [] then None
    else
      var v: int := DigitsValue(digits);
      Some(if negative then -v else v)
  }

  /** A text of digits only is neither trimmed nor cut short. */
  lemma DigitsParseWhole(s: string)
    ensures |s| > 0 && (forall i :: 0 <= i < |s| ==> IsDigit(s[i])) ==> TrimStart(s) == s && DigitPrefix(s) == s
  {
    if |s| > 0 && (forall i :: 0 <= i < |s| ==> IsDigit(s[i])) {
      assert !IsWhitespace(s[0]);
      var d := DigitPrefix(s);
      assert |d| == |s|;
    }
  }

  /** `parseInt(daysPerWeek) || 3`: NaN and zero fall back to 3. */
  function TrainingDays(daysPerWeek: string): (n: int)
    ensures n != 0
    ensures ParseInt(daysPerWeek).Some? && ParseInt(daysPerWeek).value != 0 ==> n == ParseInt(daysPerWeek).value
    ensures ParseInt(daysPerWeek).None? || ParseInt(daysPerWeek) == Some(0) ==> n == 3
  {
    match ParseInt(daysPerWeek)
    case None => 3
    case Some(n) => if n == 0 then 3 else n
  }

  /** A text starting with one digit not followed by another parses to that digit. */
  lemma ParseSingleDigit(s: string)
    requires |s| > 0 && IsDigit(s[0]) && (|s| == 1 || !IsDigit(s[1]))
    ensures ParseInt(s) == Some(s[0] as int - '0' as int)
  {
    assert !IsWhitespace(s[0]);
    assert TrimStart(s) == s;
    assert s[0] != '-' && s[0] != '+';
    assert DigitPrefix(s[1..]) == [];
    assert DigitPrefix(s) == [s[0]];
    assert [s[0]][..0] == [];
    assert DigitsValue([s[0]]) == s[0] as int - '0' as int;
  }

  /**
   * The form's options '2', '3', '4-5' and '6+' all start with one non-zero
   * digit not followed by another, so each trains that many days: '4-5'
   * gives 4 and '6+' gives 6.
   */
  lemma TrainingDaysLeadingDigit(s: string)
    requires |s| > 0 && '1' <= s[0] <= '9' && (|s| == 1 || !IsDigit(s[1]))
    ensures TrainingDays(s) == s[0] as int - '0' as int
    ensures 1 <= TrainingDays(s) <= 9
  {
    ParseSingleDigit(s);
  }

  /** A missing or blank answer parses to NaN and falls back to three days. */
  lemma TrainingDaysBlank(s: string)
    requires IsBlank(s)
    ensures ParseInt(s).None?
    ensures TrainingDays(s) == 3
  {
    assert TrimStart(s) == [];
  }

  // ---------------------------------------------------------------------------
  // The split tables

  /** `[...][i]`: the entry, or `undefined` past the end. */
  function Lookup(xs: seq<string>, i: int): (r: Option<string>)
    ensures r.Some? <==> 0 <= i < |xs|
    ensures r.Some? ==> r.value == xs[i]
  {
    if 0 <= i < |xs| then Some(xs[i]) else None
  }

  const FullBodyNames: seq<string> := ["Full Body A", "Full Body B", "Full Body C"]
  const UpperLowerNames: seq<string> := ["Upper Body", "Lower Body", "Upper Body", "Lower Body"]
  const SixDayNames: seq<string> := ["Push", "Pull", "Legs", "Upper Body", "Lower Body", "Full Body"]

  const FullBodyMuscles: seq<string> := ["Chest, Back, Legs, Arms", "Shoulders, Back, Legs, Core", "Full Body"]
  const UpperLowerMuscles: seq<string> := ["Chest, Back, Shoulders, Arms", "Quads, Hamstrings, Glutes, Calves"]
  const SixDayMuscles: seq<string> :=
    ["Chest, Shoulders, Triceps", "Back, Biceps", "Quads, Hamstrings, Glutes", "Upper Body", "Lower Body", "Full Body"]

  /** getDayName */
  function DayName(day: int, totalDays: int): (r: Option<string>)
    ensures r.Some? <==> 1 <= day <= (if totalDays <= 3 then 3 else if totalDays == 4 then 4 else 6)
  {
    if totalDays <= 3 then Lookup(FullBodyNames, day - 1)
    else if totalDays == 4 then Lookup(UpperLowerNames, day - 1)
    else Lookup(SixDayNames, day - 1)
  }

  /** getTargetMuscles; its days are numbered from 1, so `day % 2` is never negative. */
  function TargetMuscles(day: int, totalDays: int): (r: Option<string>)
    requires day >= 1
    ensures r.Some? <==> totalDays == 4 || DayName(day, totalDays).Some?
  {
    if totalDays <= 3 then Lookup(FullBodyMuscles, day - 1)
    else if totalDays == 4 then Lookup(UpperLowerMuscles, if day % 2 == 1 then 0 else 1)
    else Lookup(SixDayMuscles, day - 1)
  }

  /** Up to three days: full-body sessions A, B, C. */
  lemma FullBodySplit(day: int, totalDays: int)
    requires 1 <= day <= totalDays <= 3
    ensures DayName(day, totalDays) == Some(FullBodyNames[day - 1])
    ensures TargetMuscles(day, totalDays) == Some(FullBodyMuscles[day - 1])
  {
  }

  /** Four days: upper and lower body alternate, odd days upper. */
  lemma UpperLowerSplit(day: int)
    requires 1 <= day <= 4
    ensures DayName(day, 4) == Some(if day % 2 == 1 then "Upper Body" else "Lower Body")
    ensures TargetMuscles(day, 4) ==
      Some(if day % 2 == 1 then "Chest, Back, Shoulders, Arms" else "Quads, Hamstrings, Glutes, Calves")
    ensures DayName(day, 4) == Some("Upper Body") <==> TargetMuscles(day, 4) == Some(UpperLowerMuscles[0])
  {
  }

  /** Five or more days: the six-entry rotation; a seventh day has neither name nor muscles. */
  lemma RotationSplit(day: int, totalDays: int)
    requires 1 <= day <= totalDays && totalDays >= 5
    ensures day <= 6 ==> DayName(day, totalDays) == Some(SixDayNames[day - 1])
    ensures day <= 6 ==> TargetMuscles(day, totalDays) == Some(SixDayMuscles[day - 1])
    ensures day > 6 ==> DayName(day, totalDays).None? && TargetMuscles(day, totalDays).None?
  {
  }

  // ---------------------------------------------------------------------------
  // Exercise selection

  /** `equipment.some(e => e.includes('gym') || e.includes('weights'))`, case-sensitive. */
  predicate HasGym(equipment: seq<string>) {
    exists i :: 0 <= i < |equipment| && (Contains(equipment[i], "gym") || Contains(equipment[i], "weights"))
  }

  const Bodyweight := "Bodyweight"
  const LightDumbbells := "Light dumbbells"

  const GymExercises: seq<Exercise> :=
    [ Exercise("Barbell Squat", 3, "10-12", "90s", "", "Core lower body exercise"),
      Exercise("Bench Press", 3, "10-12", "90s", "", "Primary chest builder"),
      Exercise("Bent-Over Row", 3, "10-12", "90s", "", "Back thickness"),
      Exercise("Overhead Press", 3, "8-10", "90s", "", "Shoulder development"),
      Exercise("Romanian Deadlift", 3, "10-12", "90s", "", "Hamstrings and glutes"),
      Exercise("Plank", 3, "30-60s hold", "60s", Bodyweight, "Core stability") ]

  const BodyweightExercises: seq<Exercise> :=
    [ Exercise("Push-ups", 3, "10-15", "60s", Bodyweight, "Chest, shoulders, triceps"),
      Exercise("Bodyweight Squats", 3, "15-20", "60s", Bodyweight, "Legs and glutes"),
      Exercise("Dumbbell Rows", 3, "12-15", "60s", LightDumbbells, "Back and biceps"),
      Exercise("Lunges", 3, "10-12 each leg", "60s", Bodyweight, "Legs and balance"),
      Exercise("Plank", 3, "30-60s hold", "60s", Bodyweight, "Core"),
      Exercise("Glute Bridges", 3, "15-20", "60s", Bodyweight, "Glutes and hamstrings") ]

  /** The exercise list a day is given. */
  function PlannedExercises(day: int, totalDays: int, hasGym: bool): (exercises: seq<Exercise>)
    ensures |exercises| == 6 || exercises == []
    ensures !hasGym ==> forall k :: 0 <= k < |exercises| ==> exercises[k].weight == Bodyweight || exercises[k].weight == LightDumbbells
    ensures exercises == [] <==> hasGym && totalDays > 3 && day != 1
  {
    if hasGym then (if totalDays <= 3 || day == 1 then GymExercises else [])
    else BodyweightExercises
  }

  /**
   * generateExercises: pushes the barbell set (gym, and at most three days or
   * day 1), nothing (gym, other days) or the bodyweight set. `week` is unused.
   */
  method GenerateExercises(day: int, totalDays: int, hasGym: bool, week: int) returns (exercises: seq<Exercise>)
    ensures exercises == PlannedExercises(day, totalDays, hasGym)
  {
    if hasGym {
      if totalDays <= 3 || day == 1 {
        exercises := GymExercises;
      } else {
        exercises := [];
      }
    } else {
      exercises := BodyweightExercises;
    }
  }

  /** A gym user training four or more days gets no exercises on day 2 and later. */
  lemma GymDaysAfterFirstAreEmpty(day: int, totalDays: int)
    requires totalDays >= 4 && day >= 2
    ensures PlannedExercises(day, totalDays, true) == []
    ensures PlannedExercises(1, totalDays, true) == GymExercises
  {
  }

  // ---------------------------------------------------------------------------
  // Phase 1 detail

  const Warmup: seq<string> := [
    "5-10 min light cardio (walk, bike, or row)",
    "Dynamic stretches: arm circles, leg swings, torso twists",
    "Light activation exercises for target muscles"]

  const Cooldown: seq<string> := [
    "5 min light cardio cooldown",
    "Static stretches for worked muscles (hold 30 sec each)",
    "Deep breathing exercises"]

  const Week2Note := "Increase weight by 5-10% if exercises felt easy last week."
  const Week3Note := "Continue progressive overload. Focus on mind-muscle connection."
  const Week4Note := "Deload week - reduce weight by 20% to recover and prepare for Phase 2."

  /** The week-1 note; the injury remark is added when any injury text was entered. */
  function Week1Note(injuries: string): string {
    FormNote + (if injuries != "" then InjuryNote else "")
  }

  const FormNote := "Focus on form over weight. Rest 60-90 seconds between sets. "
  const InjuryNote := "Note: Modify exercises as needed for your limitations."

  const DefaultLength := "45 min"

  /** `userData.workoutLength || '45 min'` */
  function EstimatedTime(workoutLength: string): string {
    if workoutLength != "" then workoutLength else DefaultLength
  }

  /** The record pushed for training day `day` of week 1. */
  function PlannedDay(p: Profile, day: int, totalDays: int, hasGym: bool): (d: Day)
    requires day >= 1
    ensures d.day == day && d.estimatedTime != ""
    ensures StartsWith(d.notes, FormNote)
    ensures d.exercises == PlannedExercises(day, totalDays, hasGym)
  {
    Day(day, DayName(day, totalDays), TargetMuscles(day, totalDays), EstimatedTime(p.workoutLength),
        Warmup, PlannedExercises(day, totalDays, hasGym), Cooldown, Week1Note(p.injuries))
  }

  /** `week.map(day => ({ ...day, notes }))`: the same days with the note replaced. */
  function WithNotes(week: seq<Day>, note: string): (r: seq<Day>)
    ensures |r| == |week|
    ensures forall i :: 0 <= i < |week| ==> r[i] == week[i].(notes := note)
  {
    if week == [] then [] else [week[0].(notes := note)] + WithNotes(week[1..], note)
  }

  /** The number of days week 1 gets for a day count: none when it is not positive. */
  function WeekLength(totalDays: int): nat {
    if totalDays > 0 then totalDays else 0
  }

  /** Days 1..count of week 1, in order. */
  function PlannedWeek(p: Profile, count: nat, totalDays: int, hasGym: bool): (week: seq<Day>)
    ensures |week| == count
  {
    if count == 0 then [] else PlannedWeek(p, count - 1, totalDays, hasGym) + [PlannedDay(p, count, totalDays, hasGym)]
  }

  /** Entry i of the planned week is the record of day i + 1. */
  lemma {:induction false} PlannedWeekDays(p: Profile, count: nat, totalDays: int, hasGym: bool, i: int)
    requires 0 <= i < count
    ensures |PlannedWeek(p, count, totalDays, hasGym)| == count
    ensures PlannedWeek(p, count, totalDays, hasGym)[i] == PlannedDay(p, i + 1, totalDays, hasGym)
  {
    if i < count - 1 {
      PlannedWeekDays(p, count - 1, totalDays, hasGym, i);
    } else if count > 1 {
      PlannedWeekDays(p, count - 1, totalDays, hasGym, 0);
    }
  }

  /** What generatePhase1Workouts returns for a profile and a day count. */
  ghost predicate IsPhase1Detail(d: WeeksDetail, p: Profile, totalDays: int) {
    d == WeeksOf(PlannedWeek(p, WeekLength(totalDays), totalDays, HasGym(p.equipment)))
  }

  /** The four weeks of phase 1 built from week 1: the same days under each week's note. */
  function WeeksOf(week1: seq<Day>): (d: WeeksDetail)
    ensures d.Keys == {1, 2, 3, 4} && d[1] == week1
    ensures d[2] == WithNotes(week1, Week2Note) && d[3] == WithNotes(week1, Week3Note) && d[4] == WithNotes(week1, Week4Note)
  {
    map[1 := week1, 2 := WithNotes(week1, Week2Note), 3 := WithNotes(week1, Week3Note), 4 := WithNotes(week1, Week4Note)]
  }

  /** Each of the four weeks has the days of week 1, in the same order. */
  lemma WeeksOfKeepsDays(week1: seq<Day>, w: int, i: int)
    requires 1 <= w <= 4 && 0 <= i < |week1|
    ensures w in WeeksOf(week1) && |WeeksOf(week1)[w]| == |week1| && WeeksOf(week1)[w][i].day == week1[i].day
  {
    if w == 1 {
    } else if w == 2 {
      assert WeeksOf(week1)[w][i] == week1[i].(notes := Week2Note);
    } else if w == 3 {
      assert WeeksOf(week1)[w][i] == week1[i].(notes := Week3Note);
    } else {
      assert WeeksOf(week1)[w][i] == week1[i].(notes := Week4Note);
    }
  }

  /** generatePhase1Workouts: the `for` loop that pushes days 1..daysPerWeek, then three re-noted copies. */
  method GeneratePhase1Workouts(p: Profile, daysPerWeek: int) returns (detail: WeeksDetail)
    ensures IsPhase1Detail(detail, p, daysPerWeek)
  {
    var hasGym := HasGym(p.equipment);
    var week1: seq<Day> := [];
    var day := 1;
    while day <= daysPerWeek
      invariant 1 <= day <= WeekLength(daysPerWeek) + 1
      invariant week1 == PlannedWeek(p, day - 1, daysPerWeek, hasGym)
    {
      var exercises := GenerateExercises(day, daysPerWeek, hasGym, 1);
      var d := Day(day, DayName(day, daysPerWeek), TargetMuscles(day, daysPerWeek),
                   EstimatedTime(p.workoutLength), Warmup, exercises, Cooldown, Week1Note(p.injuries));
      week1 := week1 + [d];
      day := day + 1;
    }
    assert week1 == PlannedWeek(p, WeekLength(daysPerWeek), daysPerWeek, hasGym);
    detail := WeeksOf(week1);
  }

  /** Every week of phase 1 has one entry per training day, entry i being day i + 1. */
  lemma Phase1DayNumbers(p: Profile, totalDays: int, w: int, i: int)
    requires 1 <= w <= 4 && 0 <= i < WeekLength(totalDays)
    ensures var d := WeeksOf(PlannedWeek(p, WeekLength(totalDays), totalDays, HasGym(p.equipment)));
      |d[w]| == WeekLength(totalDays) && d[w][i].day == i + 1
  {
    var week1 := PlannedWeek(p, WeekLength(totalDays), totalDays, HasGym(p.equipment));
    PlannedWeekDays(p, WeekLength(totalDays), totalDays, HasGym(p.equipment), i);
    WeeksOfKeepsDays(week1, w, i);
  }

  /** Every week of phase 1 lists the training days 1, 2, ... in order; weeks differ only in the note. */
  lemma Phase1Weeks(p: Profile, totalDays: int, w: int, i: int)
    requires 1 <= w <= 4 && 0 <= i < WeekLength(totalDays)
    ensures var d := WeeksOf(PlannedWeek(p, WeekLength(totalDays), totalDays, HasGym(p.equipment)));
      && |d[w]| == WeekLength(totalDays)
      && d[w][i].day == i + 1
      && d[w][i].exercises == PlannedExercises(i + 1, totalDays, HasGym(p.equipment))
      && d[w][i].(notes := "") == d[1][i].(notes := "")
      && d[w][i].notes == (if w == 1 then Week1Note(p.injuries)
                           else if w == 2 then Week2Note
                           else if w == 3 then Week3Note
                           else Week4Note)
  {
    var week1 := PlannedWeek(p, WeekLength(totalDays), totalDays, HasGym(p.equipment));
    PlannedWeekDays(p, WeekLength(totalDays), totalDays, HasGym(p.equipment), i);
    var d := WeeksOf(week1);
    var note := if w == 1 then Week1Note(p.injuries) else if w == 2 then Week2Note else if w == 3 then Week3Note else Week4Note;
    assert d[w][i] == week1[i].(notes := note);
  }

  // ---------------------------------------------------------------------------
  // The plan

  const Phase1Name := "Foundation Building"
  const Phase2Name := "Progressive Overload"
  const Phase3Name := "Peak Performance"
  const Phase1Focus := "Learning proper form, building base strength, establishing consistency"
  const Phase2Focus := "Increasing intensity, building muscle, improving work capacity"
  const Phase3Focus := "Maximizing results, fine-tuning physique, peak conditioning"
  const Phase1Description := "This phase focuses on mastering fundamental movement patterns and building a solid foundation. We'll progressively increase volume while ensuring you're comfortable with each exercise."
  const Phase2Description := "Now that you've built a foundation, we'll progressively increase weights and introduce advanced techniques like supersets and drop sets. This phase is where you'll see significant strength and muscle gains."
  const Phase3Description := "The final phase focuses on maximizing your results with advanced training techniques, higher intensity, and strategic deloads. This is where your transformation becomes undeniable."

  /** Phase k (counting from 0) is number k + 1, covers weeks 4k+1 .. 4k+4, and only the first has detail. */
  ghost predicate PhaseShape(ph: Phase, k: int) {
    && ph.phase == k + 1
    && ph.weeks == [4 * k + 1, 4 * k + 2, 4 * k + 3, 4 * k + 4]
    && (k == 0 ==> ph.weeksDetail.Some? && ph.unlocked.None?)
    && (k != 0 ==> ph.weeksDetail.None? && ph.unlocked == Some(false))
  }

  /** The three-phase structure shared by every generated plan. */
  ghost predicate IsPlanSkeleton(plan: WorkoutPlan) {
    && plan.currentPhase == 1 && plan.currentWeek == 1
    && plan.totalPhases == 3 && plan.totalWeeks == 12
    && |plan.phases| == 3
    && PhaseShape(plan.phases[0], 0) && PhaseShape(plan.phases[1], 1) && PhaseShape(plan.phases[2], 2)
  }

  /** generateWorkoutPlan */
  method GenerateWorkoutPlan(p: Profile) returns (plan: WorkoutPlan)
    ensures IsPlanSkeleton(plan)
    ensures IsPhase1Detail(plan.phases[0].weeksDetail.value, p, TrainingDays(p.daysPerWeek))
    ensures plan.phases[0].name == Phase1Name && plan.phases[1].name == Phase2Name && plan.phases[2].name == Phase3Name
  {
    var daysPerWeek := TrainingDays(p.daysPerWeek);
    var detail := GeneratePhase1Workouts(p, daysPerWeek);
    var phase1 := Phase(1, Phase1Name, [1, 2, 3, 4], Phase1Focus, Phase1Description, Some(detail), None);
    var phase2 := Phase(2, Phase2Name, [5, 6, 7, 8], Phase2Focus, Phase2Description, None, Some(false));
    var phase3 := Phase(3, Phase3Name, [9, 10, 11, 12], Phase3Focus, Phase3Description, None, Some(false));
    plan := WorkoutPlan(1, 1, 3, 12, [phase1, phase2, phase3]);
    assert plan.phases[0] == phase1 && plan.phases[1] == phase2 && plan.phases[2] == phase3;
  }

  /** The phases partition weeks 1..12: week w belongs to exactly the phase (w + 3) / 4. */
  lemma SkeletonPartitionsWeeks(plan: WorkoutPlan, w: int)
    requires IsPlanSkeleton(plan)
    requires 1 <= w <= 12
    ensures forall k :: 0 <= k < 3 ==> (w in plan.phases[k].weeks <==> k == (w - 1) / 4)
  {
    forall k | 0 <= k < 3 ensures w in plan.phases[k].weeks <==> k == (w - 1) / 4 {
      assert PhaseShape(plan.phases[k], k);
    }
  }
}

=== FILE: plan_page.dfy ===
/**
 * The plan overview page: which phase the stored week falls in, which
 * phases are locked, the "Weeks a-b" label of each phase and the button
 * that leads to the detailed workouts.
 */
module PlanPage {
  import opened Basics
  import opened Text
  import opened PlanGenerator

  /**
   * `parseInt(localStorage.getItem(key)) || fallback`: a missing entry, a
   * text without digits and the number 0 all give the fallback.
   */
  function StoredNumber(stored: Option<string>, fallback: int): (r: int)
    ensures stored.None? ==> r == fallback
    ensures fallback != 0 ==> r != 0
    ensures r != fallback ==> stored.Some? && ParseInt(stored.value) == Some(r)
    ensures stored.Some? && ParseInt(stored.value).Some? && ParseInt(stored.value).value != 0 ==> r == ParseInt(stored.value).value
    ensures stored.Some? && (ParseInt(stored.value).None? || ParseInt(stored.value) == Some(0)) ==> r == fallback
  {
    match stored
    case None => fallback
    case Some(s) =>
      match ParseInt(s)
      case None => fallback
      case Some(n) => if n == 0 then fallback else n
  }

  /** A number written in decimal parses back to itself. */
  lemma ParseNatToString(n: nat)
    ensures ParseInt(NatToString(n)) == Some(n)
  {
    var s := NatToString(n);
    assert IsDigit(s[0]) && !IsWhitespace(s[0]);
    assert TrimStart(s) == s;
    assert DigitPrefix(s) == s;
  }

  /** A positive week or phase number stored as text is read back unchanged. */
  lemma StoredNumberRoundTrip(n: nat, fallback: int)
    requires n > 0
    ensures StoredNumber(Some(NatToString(n)), fallback) == n
  {
    ParseNatToString(n);
  }

  /** `Math.ceil(week / 4)`: the phase shown for a week. */
  function DisplayedPhase(week: int): (r: int)
    ensures 4 * (r - 1) < week <= 4 * r
  {
    -((-week) / 4)
  }

  /** Weeks 1-4 show phase 1, weeks 5-8 phase 2 and weeks 9-12 phase 3. */
  lemma DisplayedPhaseOfWeek(week: int)
    requires 1 <= week <= 12
    ensures 1 <= DisplayedPhase(week) <= 3
    ensures DisplayedPhase(week) == 1 <==> week <= 4
    ensures DisplayedPhase(week) == 3 <==> week >= 9
  {
  }

  /** The lock rule shared by the plan page and the workouts page's phase selector. */
  predicate Locked(phase: int, week: int) {
    phase > 1 && ((phase == 2 && week < 5) || (phase == 3 && week < 9))
  }

  /** Phase 1 never locks; phase 2 locks before week 5 and phase 3 before week 9; no other phase locks. */
  lemma LockRule(phase: int, week: int)
    ensures phase == 1 ==> !Locked(phase, week)
    ensures phase == 2 ==> (Locked(phase, week) <==> week < 5)
    ensures phase == 3 ==> (Locked(phase, week) <==> week < 9)
    ensures (phase < 1 || phase > 3) ==> !Locked(phase, week)
  {
  }

  /** The phase card is marked CURRENT when the week's displayed phase is its number. */
  predicate Current(phase: int, week: int) {
    DisplayedPhase(week) == phase
  }

  /**
   * Within the twelve weeks exactly one of the phases 1-3 is current, and it
   * is not locked; after week 12 none of them is.
   */
  lemma ExactlyOneCurrent(week: int)
    ensures 1 <= week <= 12 ==>
      forall phase :: 1 <= phase <= 3 ==> (Current(phase, week) <==> phase == (week + 3) / 4)
    ensures forall phase :: Current(phase, week) && 1 <= week ==> !Locked(phase, week)
    ensures week > 12 ==> forall phase :: 1 <= phase <= 3 ==> !Current(phase, week)
  {
    var r := DisplayedPhase(week);
    if 1 <= week {
      assert r == (week + 3) / 4;
    }
  }

  /** The text JSX renders for `weeks[i]`: the number, or nothing when the entry is missing. */
  function WeekText(weeks: seq<int>, i: int): (r: string)
    ensures 0 <= i < |weeks| && weeks[i] >= 0 ==> r == NatToString(weeks[i])
    ensures !(0 <= i < |weeks|) ==> r == ""
  {
    if 0 <= i < |weeks| then IntToString(weeks[i]) else ""
  }

  /** `Weeks {weeks[0]}-{weeks[weeks.length - 1]}` without the leading word. */
  function RangeLabel(ph: Phase): string {
    WeekText(ph.weeks, 0) + "-" + WeekText(ph.weeks, |ph.weeks| - 1)
  }

  /** The generated phases are labelled 1-4, 5-8 and 9-12. */
  lemma GeneratedRangeLabels(plan: WorkoutPlan, k: int)
    requires IsPlanSkeleton(plan)
    requires 0 <= k < 3
    ensures RangeLabel(plan.phases[k]) == NatToString(4 * k + 1) + "-" + NatToString(4 * k + 4)
  {
    assert PhaseShape(plan.phases[k], k);
  }

  /** The label tells the phases apart: the first week before the dash is the phase's own. */
  lemma RangeLabelsDistinct(plan: WorkoutPlan, j: int, k: int)
    requires IsPlanSkeleton(plan)
    requires 0 <= j < 3 && 0 <= k < 3 && j != k
    ensures RangeLabel(plan.phases[j]) != RangeLabel(plan.phases[k])
  {
    GeneratedRangeLabels(plan, j);
    GeneratedRangeLabels(plan, k);
    var a, b := NatToString(4 * j + 1), NatToString(4 * k + 1);
    assert a[0] != b[0] by {
      assert 4 * j + 1 < 10 && 4 * k + 1 < 10;
    }
    assert RangeLabel(plan.phases[j])[0] == a[0];
    assert RangeLabel(plan.phases[k])[0] == b[0];
  }

  /** A locked generated phase announces the week at which its lock lifts. */
  lemma UnlockWeekShown(plan: WorkoutPlan, k: int, week: int)
    requires IsPlanSkeleton(plan)
    requires 1 <= k < 3
    ensures Locked(k + 1, week) <==> week < plan.phases[k].weeks[0]
  {
    assert PhaseShape(plan.phases[k], k);
  }

  /** The "View Detailed Workouts" button is rendered for a phase that carries week details. */
  predicate ShowsDetailButton(ph: Phase) {
    ph.weeksDetail.Some?
  }

  /** In a generated plan only phase 1 has the button. */
  lemma OnlyFirstPhaseShowsDetail(plan: WorkoutPlan, k: int)
    requires IsPlanSkeleton(plan)
    requires 0 <= k < 3
    ensures ShowsDetailButton(plan.phases[k]) <==> k == 0
  {
    assert PhaseShape(plan.phases[k], k);
  }
}

=== FILE: progress_page.dfy ===
/**
 * The progress record kept under `athenix_progress` and the progress page
 * that appends check-ins and photos to it and shows the weight trend.
 */
module ProgressPage {
  import opened Basics

  datatype CheckIn = CheckIn(date: string, weight: real, energyLevel: int, sleepQuality: int, stressLevel: int, notes: string)

  datatype Photo = Photo(url: string, date: string)

  /**
   * The stored progress record. Every field may be absent from the stored
   * JSON; the weights are the numbers the stored values coerce to.
   */
  datatype Progress = Progress(
    startWeight: Option<real>,
    currentWeight: Option<real>,
    startDate: Option<string>,
    workoutsCompleted: Option<int>,
    currentStreak: Option<int>,
    checkIns: Option<seq<CheckIn>>,
    photos: Option<seq<Photo>>
  )

  /** `{}`: the record read when nothing is stored. */
  const EmptyProgress := Progress(None, None, None, None, None, None, None)

  /** The check-in form; the weight is what the user typed. */
  datatype CheckInForm = CheckInForm(weight: string, energyLevel: int, sleepQuality: int, stressLevel: int, notes: string)

  /** The form's initial and post-submit contents. */
  const BlankCheckIn := CheckInForm("", 5, 5, 5, "")

  /** The record after a check-in of the parsed weight at time `now`. */
  function CheckedIn(pr: Progress, form: CheckInForm, weight: real, now: string): (r: Progress)
    ensures r.checkIns.Some?
  {
    var entry := CheckIn(now, weight, form.energyLevel, form.sleepQuality, form.stressLevel, form.notes);
    pr.(currentWeight := Some(weight), checkIns := Some(pr.checkIns.GetOr([]) + [entry]))
  }

  /**
   * A check-in appends one entry at the end, keeps the earlier ones, makes
   * the weight current, and leaves the other fields as they were.
   */
  lemma CheckInAppends(pr: Progress, form: CheckInForm, weight: real, now: string)
    ensures var r := CheckedIn(pr, form, weight, now);
      var before := pr.checkIns.GetOr([]);
      && |r.checkIns.value| == |before| + 1
      && r.checkIns.value[..|before|] == before
      && r.checkIns.value[|before|].weight == weight
      && r.checkIns.value[|before|].notes == form.notes
      && r.currentWeight == Some(weight)
      && r.(currentWeight := pr.currentWeight, checkIns := pr.checkIns) == pr
  {
  }

  /** The record after a photo with data URL `url` is read at time `now`. */
  function WithPhoto(pr: Progress, url: string, now: string): (r: Progress)
    ensures r.photos.Some?
  {
    pr.(photos := Some(pr.photos.GetOr([]) + [Photo(url, now)]))
  }

  /** A photo upload appends one photo at the end and changes nothing else. */
  lemma PhotoAppends(pr: Progress, url: string, now: string)
    ensures var r := WithPhoto(pr, url, now);
      var before := pr.photos.GetOr([]);
      && |r.photos.value| == |before| + 1
      && r.photos.value[..|before|] == before
      && r.photos.value[|before|] == Photo(url, now)
      && r.(photos := pr.photos) == pr
  {
  }

  /** The progress page's state: the record shown, its stored copy and the check-in form. */
  class ProgressTracker {
    var progress: Progress
    var stored: Option<Progress>
    var form: CheckInForm

    constructor(saved: Progress)
      ensures progress == saved && stored == Some(saved) && form == BlankCheckIn
    {
      progress := saved;
      stored := Some(saved);
      form := BlankCheckIn;
    }

    /**
     * submitCheckIn: an empty weight is refused and nothing changes;
     * otherwise the check-in is recorded, stored, and the form is reset.
     * `weight` is `parseFloat` of the typed text.
     */
    method SubmitCheckIn(weight: real, now: string) returns (accepted: bool)
      modifies this
      ensures accepted <==> old(form.weight) != ""
      ensures !accepted ==> progress == old(progress) && stored == old(stored) && form == old(form)
      ensures accepted ==> progress == CheckedIn(old(progress), old(form), weight, now)
      ensures accepted ==> stored == Some(progress) && form == BlankCheckIn
    {
      if form.weight == "" {
        accepted := false;
        return;
      }
      progress := CheckedIn(progress, form, weight, now);
      stored := Some(progress);
      form := BlankCheckIn;
      accepted := true;
    }

    /** handlePhotoUpload: with no file chosen nothing changes; otherwise the photo is appended and stored. */
    method HandlePhotoUpload(file: Option<string>, now: string)
      modifies this
      ensures file.None? ==> progress == old(progress) && stored == old(stored)
      ensures file.Some? ==> progress == WithPhoto(old(progress), file.value, now) && stored == Some(progress)
      ensures form == old(form)
    {
      if file.Some? {
        progress := WithPhoto(progress, file.value, now);
        stored := Some(progress);
      }
    }
  }

  /** `startWeight - currentWeight`; NaN (None) when either is missing. */
  function WeightChange(pr: Progress): (r: Option<real>)
    ensures r.Some? <==> pr.startWeight.Some? && pr.currentWeight.Some?
  {
    if pr.startWeight.Some? && pr.currentWeight.Some? then Some(pr.startWeight.value - pr.currentWeight.value) else None
  }

  datatype Trend = Down | Up | NoIcon

  /** The trend icon: down for a loss, up for a gain, none when unchanged or unknown. */
  function TrendIcon(change: Option<real>): (t: Trend)
    ensures t == Down <==> change.Some? && change.value > 0.0
    ensures t == Up <==> change.Some? && change.value < 0.0
  {
    match change
    case None => NoIcon
    case Some(c) => if c > 0.0 then Down else if c < 0.0 then Up else NoIcon
  }

  /** After a check-in the trend compares the starting weight with the weight just entered. */
  lemma TrendAfterCheckIn(pr: Progress, form: CheckInForm, weight: real, now: string)
    requires pr.startWeight.Some?
    ensures TrendIcon(WeightChange(CheckedIn(pr, form, weight, now))) == Down <==> weight < pr.startWeight.value
    ensures TrendIcon(WeightChange(CheckedIn(pr, form, weight, now))) == NoIcon <==> weight == pr.startWeight.value
  {
  }
}

=== FILE: signup.dfy ===
/**
 * The signup page: the four-field validation (name, e-mail pattern,
 * password length, confirmation) and the submit that stores the new user
 * record and moves on to onboarding.
 */
module Signup {
  import opened Basics
  import opened Text

  datatype SignupField = Name | Email | Password | ConfirmPassword

  /** The form as typed. */
  datatype SignupData = SignupData(name: string, email: string, password: string, confirmPassword: string)

  const EmptySignup := SignupData("", "", "", "")

  const NameRequired := "Name is required"
  const EmailRequired := "Email is required"
  const EmailInvalid := "Email is invalid"
  const PasswordRequired := "Password is required"
  const PasswordTooShort := "Password must be at least 8 characters"
  const PasswordsDiffer := "Passwords do not match"

  const MinPasswordLength := 8

  // ---------------------------------------------------------------------------
  // The e-mail pattern

  /**
   * The regular expression `\S+@\S+\.\S+` matches around an '@' at `a` and a
   * '.' at `b`: a non-space just before the '@', only non-spaces (at least
   * one) between them, and a non-space just after the '.'.
   */
  predicate EmailShape(s: string, a: int, b: int) {
    && 0 < a && a + 1 < b && b + 1 < |s|
    && s[a] == '@' && s[b] == '.'
    && !IsWhitespace(s[a - 1])
    && (forall i :: a < i < b ==> !IsWhitespace(s[i]))
    && !IsWhitespace(s[b + 1])
  }

  /** `/\S+@\S+\.\S+/.test(s)`: the pattern is not anchored, so it may match anywhere in `s`. */
  predicate EmailPattern(s: string) {
    exists a, b :: 0 < a < b < |s| && EmailShape(s, a, b)
  }

  /** An address of the usual form matches. */
  lemma UsualAddressMatches(user: string, domain: string, tld: string)
    requires |user| > 0 && |domain| > 0 && |tld| > 0
    requires forall i :: 0 <= i < |user| ==> !IsWhitespace(user[i])
    requires forall i :: 0 <= i < |domain| ==> !IsWhitespace(domain[i])
    requires !IsWhitespace(tld[0])
    ensures EmailPattern(user + "@" + domain + "." + tld)
  {
    var s := user + "@" + domain + "." + tld;
    var a, b := |user|, |user| + 1 + |domain|;
    assert s[a - 1] == user[|user| - 1];
    assert forall i :: a < i < b ==> s[i] == domain[i - a - 1];
    assert s[b + 1] == tld[0];
    assert EmailShape(s, a, b);
  }

  /** Text without an '@', or without a '.', never matches. */
  lemma MatchNeedsAtAndDot(s: string)
    ensures EmailPattern(s) ==> '@' in s && '.' in s
  {
    if EmailPattern(s) {
      var a, b :| 0 < a < b < |s| && EmailShape(s, a, b);
      assert s[a] == '@' && s[b] == '.';
    }
  }

  /** A space right before the only '@' defeats the pattern. */
  lemma SpaceBeforeAtFails(s: string, a: int)
    requires 0 < a < |s| && s[a] == '@' && IsWhitespace(s[a - 1])
    requires forall i :: 0 <= i < |s| && i != a ==> s[i] != '@'
    ensures !EmailPattern(s)
  {
    forall a', b | 0 < a' && a' + 1 < b && b + 1 < |s| && s[a'] == '@'
      ensures !EmailShape(s, a', b)
    {
      assert a' == a;
    }
  }

  /**
   * Because the pattern is unanchored, text around a matching address keeps
   * it matching: surrounding spaces and extra characters are accepted.
   */
  lemma PaddingStillMatches(s: string, pre: string, post: string)
    requires EmailPattern(s)
    ensures EmailPattern(pre + s + post)
  {
    var a, b :| 0 < a < b < |s| && EmailShape(s, a, b);
    var t := pre + s + post;
    assert forall i :: 0 <= i < |s| ==> t[|pre| + i] == s[i];
    assert t[a + |pre|] == s[a] && t[a + |pre| - 1] == s[a - 1];
    assert t[b + |pre|] == s[b] && t[b + |pre| + 1] == s[b + 1];
    assert forall i :: a + |pre| < i < b + |pre| ==> t[i] == s[i - |pre|];
    assert EmailShape(t, a + |pre|, b + |pre|);
  }

  // ---------------------------------------------------------------------------
  // Validation

  /** The name check: required once trimmed. */
  function NameError(name: string): (e: Option<string>)
    ensures e.Some? <==> IsBlank(name)
    ensures e.Some? ==> e.value == NameRequired
  {
    TrimEmptyIffBlank(name);
    if Trim(name) == "" then Some(NameRequired) else None
  }

  /** The e-mail check: required once trimmed, then the pattern on the untrimmed text. */
  function EmailError(email: string): (e: Option<string>)
    ensures e.Some? <==> IsBlank(email) || !EmailPattern(email)
    ensures e.Some? ==> e.value == (if IsBlank(email) then EmailRequired else EmailInvalid)
  {
    TrimEmptyIffBlank(email);
    if Trim(email) == "" then Some(EmailRequired)
    else if !EmailPattern(email) then Some(EmailInvalid)
    else None
  }

  /** The password check: required, then at least eight UTF-16 code units. */
  function PasswordError(password: string): (e: Option<string>)
    ensures e.Some? <==> Utf16Length(password) < MinPasswordLength
    ensures e.Some? ==> e.value == (if password == "" then PasswordRequired else PasswordTooShort)
    ensures |password| >= MinPasswordLength ==> e.None?
    ensures 2 * |password| < MinPasswordLength ==> e.Some?
  {
    if password == "" then Some(PasswordRequired)
    else if Utf16Length(password) < MinPasswordLength then Some(PasswordTooShort)
    else None
  }

  /** Four emoji are eight code units, so they pass the length check as a password. */
  lemma FourEmojiPasswordAccepted()
    ensures PasswordError("\U{1F600}\U{1F600}\U{1F600}\U{1F600}").None?
  {
    Utf16LengthAstral("\U{1F600}\U{1F600}\U{1F600}\U{1F600}");
  }

  /** The confirmation check, made whatever the other checks found. */
  function ConfirmError(password: string, confirmPassword: string): (e: Option<string>)
    ensures e.Some? <==> password != confirmPassword
    ensures e.Some? ==> e.value == PasswordsDiffer
  {
    if password != confirmPassword then Some(PasswordsDiffer) else None
  }

  function FieldError(d: SignupData, f: SignupField): Option<string> {
    match f
    case Name => NameError(d.name)
    case Email => EmailError(d.email)
    case Password => PasswordError(d.password)
    case ConfirmPassword => ConfirmError(d.password, d.confirmPassword)
  }

  const AllSignupFields := {Name, Email, Password, ConfirmPassword}

  lemma AllFieldsListed()
    ensures forall f: SignupField :: f in AllSignupFields
  {
    forall f: SignupField
      ensures f in AllSignupFields
    {
      match f
      case Name =>
      case Email =>
      case Password =>
      case ConfirmPassword =>
    }
  }

  /** validateForm: the error messages, one per failing field and none for the others. */
  function Validate(d: SignupData): (errors: map<SignupField, string>)
    ensures forall f :: f in errors <==> FieldError(d, f).Some?
    ensures forall f :: f in errors ==> errors[f] == FieldError(d, f).value
  {
    AllFieldsListed();
    map f | f in AllSignupFields && FieldError(d, f).Some? :: FieldError(d, f).value
  }

  /** No message is shown exactly when no field has an error. */
  lemma NoErrorsIff(d: SignupData)
    ensures |Validate(d)| == 0 <==>
      && FieldError(d, Name).None? && FieldError(d, Email).None?
      && FieldError(d, Password).None? && FieldError(d, ConfirmPassword).None?
  {
    var errors := Validate(d);
    if |errors| == 0 {
      assert errors.Keys == {};
      assert Name !in errors && Email !in errors && Password !in errors && ConfirmPassword !in errors;
    } else {
      var f :| f in errors;
      assert FieldError(d, f).Some?;
      match f
      case Name =>
      case Email =>
      case Password =>
      case ConfirmPassword =>
    }
  }

  /** The form is valid exactly when every field passes its own check. */
  lemma ValidIff(d: SignupData)
    ensures |Validate(d)| == 0 <==>
      && !IsBlank(d.name)
      && !IsBlank(d.email) && EmailPattern(d.email)
      && Utf16Length(d.password) >= MinPasswordLength
      && d.password == d.confirmPassword
  {
    NoErrorsIff(d);
    assert FieldError(d, Name).None? <==> !IsBlank(d.name);
    assert FieldError(d, Email).None? <==> !IsBlank(d.email) && EmailPattern(d.email);
  }

  /** The empty form fails on every field but the confirmation, which matches an empty password. */
  lemma EmptyFormErrors()
    ensures Validate(EmptySignup).Keys == {Name, Email, Password}
  {
  }

  // ---------------------------------------------------------------------------
  // The page

  /** The record stored under `athenix_user`. */
  datatype UserRecord = UserRecord(name: string, email: string, id: string)

  const UserIdPrefix := "user_"

  class SignupPage {
    var form: SignupData
    var errors: map<SignupField, string>
    var isLoading: bool
    var storedUser: Option<UserRecord>

    constructor(stored: Option<UserRecord>)
      ensures form == EmptySignup && errors == map[] && !isLoading && storedUser == stored
    {
      form := EmptySignup;
      errors := map[];
      isLoading := false;
      storedUser := stored;
    }

    /** One of the inputs' onChange: the field takes the typed value; errors stay until the next submit. */
    method Edit(field: SignupField, value: string)
      modifies this
      ensures field == Name ==> form == old(form).(name := value)
      ensures field == Email ==> form == old(form).(email := value)
      ensures field == Password ==> form == old(form).(password := value)
      ensures field == ConfirmPassword ==> form == old(form).(confirmPassword := value)
      ensures errors == old(errors) && isLoading == old(isLoading) && storedUser == old(storedUser)
    {
      match field
      case Name => form := form.(name := value);
      case Email => form := form.(email := value);
      case Password => form := form.(password := value);
      case ConfirmPassword => form := form.(confirmPassword := value);
    }

    /**
     * handleSubmit, with the delayed step taken at once: an invalid form
     * shows its errors and stores nothing; a valid one stores the name and
     * e-mail exactly as typed, with an id from the clock, and goes to
     * onboarding. `now` is `Date.now()`.
     */
    method HandleSubmit(now: nat) returns (nav: Option<Route>)
      modifies this
      ensures errors == Validate(old(form)) && form == old(form)
      ensures |errors| > 0 ==> nav.None? && storedUser == old(storedUser) && isLoading == old(isLoading)
      ensures |errors| == 0 ==> nav == Some(Onboarding) && !isLoading
      ensures |errors| == 0 ==> storedUser == Some(UserRecord(form.name, form.email, UserIdPrefix + NatToString(now)))
    {
      errors := Validate(form);
      if |errors| > 0 {
        nav := None;
        return;
      }
      isLoading := true;
      storedUser := Some(UserRecord(form.name, form.email, UserIdPrefix + NatToString(now)));
      isLoading := false;
      nav := Some(Onboarding);
    }
  }
}

=== FILE: text.dfy ===
/**
 * The JavaScript string operations the pages rely on, on `string = seq<char>`:
 * `includes`, `startsWith`, `trim`, `toLowerCase`, number-to-decimal
 * conversion in template literals, `Array.prototype.join` and `split`.
 */
module Text {

  /** `s.includes(t)`: `t` occurs in `s` at some position. */
  predicate Contains(s: string, t: string) {
    exists i :: 0 <= i <= |s| - |t| && OccursAt(s, t, i)
  }

  /** `t` occurs in `s` starting at index `i`. */
  predicate OccursAt(s: string, t: string, i: int) {
    0 <= i && i + |t| <= |s| && s[i..i + |t|] == t
  }

  /** `s.startsWith(p)`. */
  predicate StartsWith(s: string, p: string) {
    |p| <= |s| && s[..|p|] == p
  }

  /** A string contains every text it starts with, and itself. */
  lemma StartsWithContains(s: string, p: string)
    requires StartsWith(s, p)
    ensures Contains(s, p)
  {
    assert OccursAt(s, p, 0);
  }

  /** A text found in a part of a string is found in the whole string. */
  lemma ContainsInfix(pre: string, s: string, post: string, t: string)
    requires Contains(s, t)
    ensures Contains(pre + s + post, t)
  {
    var i :| 0 <= i <= |s| - |t| && OccursAt(s, t, i);
    var w := pre + s + post;
    assert w[|pre| + i..|pre| + i + |t|] == s[i..i + |t|];
    assert OccursAt(w, t, |pre| + i);
  }

  /**
   * The characters that `String.prototype.trim` removes and that the
   * regular-expression class `\s` matches: ECMAScript WhiteSpace and
   * LineTerminator code points.
   */
  predicate IsWhitespace(c: char) {
    || c == ' ' || c == '\t' || c == '\n' || c == '\r'
    || c == '\U{0B}' || c == '\U{0C}' || c == '\U{A0}' || c == '\U{1680}'
    || ('\U{2000}' <= c <= '\U{200A}')
    || c == '\U{2028}' || c == '\U{2029}' || c == '\U{202F}' || c == '\U{205F}'
    || c == '\U{3000}' || c == '\U{FEFF}'
  }

  /** Every character is white space: what `s.trim()` turns into `''`. */
  predicate IsBlank(s: string) {
    forall i :: 0 <= i < |s| ==> IsWhitespace(s[i])
  }

  /** `s.trimStart()`: the suffix left after dropping leading white space. */
  function TrimStart(s: string): (r: string)
    ensures |r| <= |s| && r == s[|s| - |r|..]
    ensures r == [] || !IsWhitespace(r[0])
    ensures forall i :: 0 <= i < |s| - |r| ==> IsWhitespace(s[i])
    ensures IsBlank(s) ==> r == []
  {
    if |s| > 0 && IsWhitespace(s[0]) then TrimStart(s[1..]) else s
  }

  /** `s.trimEnd()`: the prefix left after dropping trailing white space. */
  function TrimEnd(s: string): (r: string)
    ensures |r| <= |s| && r == s[..|r|]
    ensures r == [] || !IsWhitespace(r[|r| - 1])
    ensures forall i :: |r| <= i < |s| ==> IsWhitespace(s[i])
  {
    if |s| > 0 && IsWhitespace(s[|s| - 1]) then TrimEnd(s[..|s| - 1]) else s
  }

  /** `s.trim()`. */
  function Trim(s: string): string {
    TrimEnd(TrimStart(s))
  }

  /** `!s.trim()` holds exactly for the strings made only of white space. */
  lemma TrimEmptyIffBlank(s: string)
    ensures Trim(s) == "" <==> IsBlank(s)
  {
    var a := TrimStart(s);
    if Trim(s) == "" {
      assert |a| == 0;
    } else {
      var r := Trim(s);
      assert !IsWhitespace(r[0]) by {
        if |a| > 0 { assert r[0] == a[0]; }
      }
      assert r[0] == s[|s| - |a|];
    }
  }

  /** `toLowerCase` on one character; only the ASCII letters are mapped. */
  function LowerChar(c: char): char {
    if 'A' <= c <= 'Z' then (c as int + 32) as char else c
  }

  /**
   * `s.length`: JavaScript counts UTF-16 code units, so a character above
   * U+FFFF (an emoji, say) is written as a surrogate pair and counts twice.
   */
  function Utf16Length(s: string): (n: nat)
    ensures |s| <= n <= 2 * |s|
    ensures n == 0 <==> s == ""
  {
    if s == [] then 0 else (if s[0] as int > 0xFFFF then 2 else 1) + Utf16Length(s[1..])
  }

  /** On text from the Basic Multilingual Plane the two lengths agree. */
  lemma {:induction false} Utf16LengthBmp(s: string)
    requires forall i :: 0 <= i < |s| ==> s[i] as int <= 0xFFFF
    ensures Utf16Length(s) == |s|
  {
    if s != [] {
      Utf16LengthBmp(s[1..]);
    }
  }

  /** Text made only of characters above U+FFFF is twice as long to JavaScript. */
  lemma {:induction false} Utf16LengthAstral(s: string)
    requires forall i :: 0 <= i < |s| ==> s[i] as int > 0xFFFF
    ensures Utf16Length(s) == 2 * |s|
  {
    if s != [] {
      Utf16LengthAstral(s[1..]);
    }
  }

  /** `s.toLowerCase()` (ASCII letters). */
  function ToLower(s: string): (r: string)
    ensures |r| == |s|
    ensures forall i :: 0 <= i < |s| ==> r[i] == LowerChar(s[i])
  {
    if s == [] then [] else [LowerChar(s[0])] + ToLower(s[1..])
  }

  predicate IsDigit(c: char) {
    '0' <= c <= '9'
  }

  function DigitChar(d: int): (c: char)
    requires 0 <= d < 10
    ensures IsDigit(c)
  {
    ('0' as int + d) as char
  }

  /** The number a string of decimal digits denotes. */
  function DigitsValue(s: string): nat
    requires forall i :: 0 <= i < |s| ==> IsDigit(s[i])
  {
    if s == [] then 0
    else
      assert IsDigit(s[|s| - 1]);
      DigitsValue(s[..|s| - 1]) * 10 + (s[|s| - 1] as int - '0' as int)
  }

  /** A natural number written in decimal, as a template literal writes it. */
  function NatToString(n: nat): (r: string)
    ensures |r| > 0
    ensures forall i :: 0 <= i < |r| ==> IsDigit(r[i])
    ensures DigitsValue(r) == n
  {
    if n < 10 then [DigitChar(n)]
    else
      var r := NatToString(n / 10) + [DigitChar(n % 10)];
      assert r[..|r| - 1] == NatToString(n / 10);
      r
  }

  /** Different numbers are written differently. */
  lemma NatToStringInjective(m: nat, n: nat)
    requires NatToString(m) == NatToString(n)
    ensures m == n
  {
  }

  /** An integer written in decimal, with a leading '-' when negative. */
  function IntToString(i: int): (r: string)
    ensures |r| > 0
    ensures r[0] == '-' <==> i < 0
    ensures var digits := if i < 0 then r[1..] else r;
      && |digits| > 0
      && (forall k :: 0 <= k < |digits| ==> IsDigit(digits[k]))
      && DigitsValue(digits) == (if i < 0 then -i else i)
    ensures i >= 0 ==> r == NatToString(i)
  {
    if i < 0 then "-" + NatToString(-i) else NatToString(i)
  }

  /** `xs.join(sep)`: the parts with `sep` between neighbours. */
  function Join(xs: seq<string>, sep: string): string {
    if |xs| == 0 then ""
    else if |xs| == 1 then xs[0]
    else xs[0] + sep + Join(xs[1..], sep)
  }

  /** A character that occurs neither in the parts nor in the separator does not occur in the joined text. */
  lemma {:induction false} JoinAvoids(xs: seq<string>, sep: string, c: char)
    requires c !in sep
    requires forall k :: 0 <= k < |xs| ==> c !in xs[k]
    ensures c !in Join(xs, sep)
  {
    if |xs| > 1 {
      JoinAvoids(xs[1..], sep, c);
    }
  }

  /** The joined text begins with the first part followed by the separator. */
  lemma JoinStartsWithHead(xs: seq<string>, sep: string)
    requires |xs| > 1
    ensures StartsWith(Join(xs, sep), xs[0] + sep)
  {
    var j := Join(xs, sep);
    assert j == (xs[0] + sep) + Join(xs[1..], sep);
  }

  /** `s.split(c)` for a one-character separator: the pieces between occurrences of `c`. */
  function Split(s: string, c: char): (r: seq<string>)
    ensures |r| > 0
  {
    if |s| == 0 then [""]
    else
      var rest := Split(s[1..], c);
      if s[0] == c then [""] + rest else [[s[0]] + rest[0]] + rest[1..]
  }

  lemma {:induction false} SplitPrefix(x: string, t: string, c: char)
    requires c !in x
    ensures Split(x + t, c) == [x + Split(t, c)[0]] + Split(t, c)[1..]
  {
    if |x| > 0 {
      assert (x + t)[1..] == x[1..] + t;
      SplitPrefix(x[1..], t, c);
      assert [x[0]] + (x[1..] + Split(t, c)[0]) == x + Split(t, c)[0];
    } else {
      assert x + t == t;
      var r := Split(t, c);
      assert x + r[0] == r[0];
      assert r == [r[0]] + r[1..];
    }
  }

  /** Splitting a joined text recovers the parts when no part contains the separator. */
  lemma {:induction false} SplitJoin(xs: seq<string>, c: char)
    requires |xs| > 0
    requires forall k :: 0 <= k < |xs| ==> c !in xs[k]
    ensures Split(Join(xs, [c]), c) == xs
  {
    if |xs| == 1 {
      SplitPrefix(xs[0], "", c);
      assert xs[0] + "" == xs[0];
    } else {
      var rest := Join(xs[1..], [c]);
      SplitJoin(xs[1..], c);
      assert Join(xs, [c]) == xs[0] + ([c] + rest);
      assert ([c] + rest)[1..] == rest;
      assert Split([c] + rest, c) == [""] + xs[1..];
      SplitPrefix(xs[0], [c] + rest, c);
      assert xs[0] + "" == xs[0];
    }
  }
}

=== FILE: workouts_page.dfy ===
/**
 * The workouts page: the phase selector and its unlock rule, the week's
 * workout list, per-exercise completion marks and the completed-workout
 * counter in the progress record.
 */
module WorkoutsPage {
  import opened Basics
  import opened Text
  import opened Lists
  import opened PlanGenerator
  import opened PlanPage
  import opened ProgressPage

  /** The selector's click handler switches to a phase only under this condition. */
  predicate Selectable(phase: int, week: int) {
    phase == 1 || (phase == 2 && week >= 5) || (phase == 3 && week >= 9)
  }

  /**
   * For the three phases the button is disabled exactly when a click would
   * be ignored; a phase numbered past 3 is enabled yet never selectable.
   */
  lemma DisabledIffNotSelectable(phase: int, week: int)
    ensures 1 <= phase <= 3 ==> (Locked(phase, week) <==> !Selectable(phase, week))
    ensures phase > 3 ==> !Locked(phase, week) && !Selectable(phase, week)
  {
  }

  /** `workoutPlan.phases[currentPhase - 1]`; None where the page would fail on an undefined phase. */
  function PhaseAt(plan: WorkoutPlan, n: int): (r: Option<Phase>)
    ensures r.Some? <==> 1 <= n <= |plan.phases|
    ensures r.Some? ==> r.value in plan.phases
  {
    if 1 <= n <= |plan.phases| then Some(plan.phases[n - 1]) else None
  }

  /** `phase.weeks_detail?.[`week${week}`] || []`. */
  function WeekWorkouts(ph: Phase, week: int): (r: seq<Day>)
    ensures ph.weeksDetail.None? ==> r == []
    ensures ph.weeksDetail.Some? && week !in ph.weeksDetail.value ==> r == []
    ensures ph.weeksDetail.Some? && week in ph.weeksDetail.value ==> r == ph.weeksDetail.value[week]
  {
    match ph.weeksDetail
    case None => []
    case Some(d) => if week in d then d[week] else []
  }

  /**
   * In a generated plan, phase 1 lists the training days in each of its
   * four weeks, any other week of phase 1 is empty, and phases 2 and 3 show
   * no workouts at all.
   */
  lemma GeneratedWeekWorkouts(p: Profile, plan: WorkoutPlan, totalDays: int, week: int)
    requires IsPlanSkeleton(plan)
    requires IsPhase1Detail(plan.phases[0].weeksDetail.value, p, totalDays)
    ensures 1 <= week <= 4 ==> |WeekWorkouts(plan.phases[0], week)| == WeekLength(totalDays)
    ensures !(1 <= week <= 4) ==> WeekWorkouts(plan.phases[0], week) == []
    ensures WeekWorkouts(plan.phases[1], week) == [] && WeekWorkouts(plan.phases[2], week) == []
  {
    assert PhaseShape(plan.phases[1], 1) && PhaseShape(plan.phases[2], 2);
    var n := WeekLength(totalDays);
    if 1 <= week <= 4 && n > 0 {
      Phase1DayNumbers(p, totalDays, week, 0);
    }
  }

  /** `${day}-${index}`: the completion key of an exercise. */
  function ExerciseId(day: int, index: nat): string {
    IntToString(day) + "-" + NatToString(index)
  }

  /** Two texts of digits, each followed by a dash and a rest, agree only when the digits and the rests do. */
  lemma SplitAtFirstDash(a1: string, y1: string, a2: string, y2: string)
    requires forall k :: 0 <= k < |a1| ==> IsDigit(a1[k])
    requires forall k :: 0 <= k < |a2| ==> IsDigit(a2[k])
    requires a1 + "-" + y1 == a2 + "-" + y2
    ensures a1 == a2 && y1 == y2
  {
    var s := a1 + "-" + y1;
    FirstDashAfterDigits(a1, y1);
    FirstDashAfterDigits(a2, y2);
    assert a1 == s[..|a1|] == a2;
    assert y1 == s[|a1| + 1..] == y2;
  }

  /** Different (day, position) pairs get different keys. */
  lemma ExerciseIdInjective(d1: int, i1: nat, d2: int, i2: nat)
    requires d1 >= 0 && d2 >= 0
    requires ExerciseId(d1, i1) == ExerciseId(d2, i2)
    ensures d1 == d2 && i1 == i2
  {
    SplitAtFirstDash(NatToString(d1), NatToString(i1), NatToString(d2), NatToString(i2));
    NatToStringInjective(d1, d2);
    NatToStringInjective(i1, i2);
  }


  /** The index of the first '-' in a string, or its length when there is none. */
  function FirstDash(s: string): nat {
    if s == [] || s[0] == '-' then 0 else 1 + FirstDash(s[1..])
  }

  /** After a run of digits, the first dash is the one that follows them. */
  lemma {:induction false} FirstDashAfterDigits(b: string, y: string)
    requires forall k :: 0 <= k < |b| ==> IsDigit(b[k])
    ensures FirstDash(b + "-" + y) == |b|
  {
    if b != [] {
      assert (b + "-" + y)[1..] == b[1..] + "-" + y;
      FirstDashAfterDigits(b[1..], y);
    }
  }

  /**
   * The key names neither the week nor the phase: in a phase whose weeks are
   * copies of one week 1, the same exercise slot of the same training day has
   * the same key in all four weeks.
   */
  lemma SameKeyInEveryWeek(ph: Phase, week1: seq<Day>, w1: int, w2: int, i: int, j: nat)
    requires ph.weeksDetail == Some(WeeksOf(week1))
    requires 1 <= w1 <= 4 && 1 <= w2 <= 4
    requires 0 <= i < |week1|
    ensures |WeekWorkouts(ph, w1)| == |WeekWorkouts(ph, w2)| == |week1|
    ensures ExerciseId(WeekWorkouts(ph, w1)[i].day, j) == ExerciseId(WeekWorkouts(ph, w2)[i].day, j)
  {
    WeeksOfKeepsDays(week1, w1, i);
    WeeksOfKeepsDays(week1, w2, i);
  }

  /**
   * So in a generated plan, marking an exercise done in one week of phase 1
   * marks it done in every week of phase 1.
   */
  lemma CompletionSharedAcrossWeeks(p: Profile, plan: WorkoutPlan, totalDays: int, w1: int, w2: int, i: int, j: nat)
    requires IsPlanSkeleton(plan)
    requires IsPhase1Detail(plan.phases[0].weeksDetail.value, p, totalDays)
    requires 1 <= w1 <= 4 && 1 <= w2 <= 4
    requires 0 <= i < WeekLength(totalDays)
    ensures |WeekWorkouts(plan.phases[0], w1)| == |WeekWorkouts(plan.phases[0], w2)| == WeekLength(totalDays)
    ensures ExerciseId(WeekWorkouts(plan.phases[0], w1)[i].day, j) == ExerciseId(WeekWorkouts(plan.phases[0], w2)[i].day, j)
  {
    var week1 := PlannedWeek(p, WeekLength(totalDays), totalDays, HasGym(p.equipment));
    PlannedWeekDays(p, WeekLength(totalDays), totalDays, HasGym(p.equipment), i);
    SameKeyInEveryWeek(plan.phases[0], week1, w1, w2, i, j);
  }


  /** `progress.workoutsCompleted = (progress.workoutsCompleted || 0) + 1` on the stored record, `{}` when absent. */
  function CountWorkout(stored: Option<Progress>): (r: Progress)
    ensures r.workoutsCompleted.Some?
  {
    var pr := stored.GetOr(EmptyProgress);
    pr.(workoutsCompleted := Some(pr.workoutsCompleted.GetOr(0) + 1))
  }

  /** The counter goes up by exactly one, from 0 when absent, and every other field is kept. */
  lemma CountWorkoutIncrements(stored: Option<Progress>)
    ensures var before := stored.GetOr(EmptyProgress);
      && CountWorkout(stored).workoutsCompleted.value == before.workoutsCompleted.GetOr(0) + 1
      && CountWorkout(stored).(workoutsCompleted := before.workoutsCompleted) == before
  {
  }

  /** The stored record after n confirmed completions. */
  function CountedTimes(stored: Option<Progress>, n: nat): Option<Progress> {
    if n == 0 then stored else Some(CountWorkout(CountedTimes(stored, n - 1)))
  }

  /** n completions raise the counter by n. */
  lemma {:induction false} CountedTimesAdds(stored: Option<Progress>, n: nat)
    requires n > 0
    ensures CountedTimes(stored, n).Some?
    ensures CountedTimes(stored, n).value.workoutsCompleted == Some(stored.GetOr(EmptyProgress).workoutsCompleted.GetOr(0) + n)
  {
    if n > 1 {
      CountedTimesAdds(stored, n - 1);
    }
  }

  /** The page's state, with the stored completion list and progress record it writes. */
  class WorkoutTracker {
    var plan: WorkoutPlan
    var currentPhase: int
    var currentWeek: int
    var selectedDay: Option<Day>
    var completed: seq<string>
    var storedCompleted: Option<seq<string>>
    var storedProgress: Option<Progress>

    /** The mount effect: phase and week from storage, defaulting to 1, and the saved completion marks. */
    constructor(plan: WorkoutPlan, storedPhase: Option<string>, storedWeek: Option<string>,
                savedCompleted: Option<seq<string>>, savedProgress: Option<Progress>)
      ensures this.plan == plan
      ensures currentPhase == StoredNumber(storedPhase, 1) && currentWeek == StoredNumber(storedWeek, 1)
      ensures selectedDay.None? && completed == savedCompleted.GetOr([])
      ensures storedCompleted == savedCompleted && storedProgress == savedProgress
    {
      this.plan := plan;
      currentPhase := StoredNumber(storedPhase, 1);
      currentWeek := StoredNumber(storedWeek, 1);
      selectedDay := None;
      completed := savedCompleted.GetOr([]);
      storedCompleted := savedCompleted;
      storedProgress := savedProgress;
    }

    /** A click on a phase button: a selectable phase becomes current at its first week; otherwise nothing changes. */
    method SelectPhase(ph: Phase)
      requires |ph.weeks| > 0
      modifies this
      ensures Selectable(ph.phase, old(currentWeek)) ==> currentPhase == ph.phase && currentWeek == ph.weeks[0]
      ensures !Selectable(ph.phase, old(currentWeek)) ==> currentPhase == old(currentPhase) && currentWeek == old(currentWeek)
      ensures plan == old(plan) && selectedDay == old(selectedDay) && completed == old(completed)
      ensures storedCompleted == old(storedCompleted) && storedProgress == old(storedProgress)
    {
      if Selectable(ph.phase, currentWeek) {
        currentPhase := ph.phase;
        currentWeek := ph.weeks[0];
      }
    }

    /** A click on a week button. */
    method SelectWeek(week: int)
      modifies this
      ensures currentWeek == week
      ensures plan == old(plan) && currentPhase == old(currentPhase) && selectedDay == old(selectedDay)
      ensures completed == old(completed) && storedCompleted == old(storedCompleted) && storedProgress == old(storedProgress)
    {
      currentWeek := week;
    }

    /** A click on a workout card opens that day. */
    method OpenDay(d: Day)
      modifies this
      ensures selectedDay == Some(d)
      ensures plan == old(plan) && currentPhase == old(currentPhase) && currentWeek == old(currentWeek)
      ensures completed == old(completed) && storedCompleted == old(storedCompleted) && storedProgress == old(storedProgress)
    {
      selectedDay := Some(d);
    }

    /** The back arrow closes an open day, and otherwise leaves for the dashboard. */
    method Back() returns (nav: Option<Route>)
      modifies this
      ensures old(selectedDay).Some? ==> selectedDay.None? && nav.None?
      ensures old(selectedDay).None? ==> selectedDay.None? && nav == Some(Dashboard)
      ensures plan == old(plan) && currentPhase == old(currentPhase) && currentWeek == old(currentWeek)
      ensures completed == old(completed) && storedCompleted == old(storedCompleted) && storedProgress == old(storedProgress)
    {
      if selectedDay.Some? {
        selectedDay := None;
        nav := None;
      } else {
        nav := Some(Dashboard);
      }
    }

    /** toggleExercise: the id's mark flips, the other marks stay, and the list is stored. */
    method ToggleExercise(id: string)
      modifies this
      ensures completed == Toggle(old(completed), id) && storedCompleted == Some(completed)
      ensures id in completed <==> id !in old(completed)
      ensures forall other :: other != id ==> (other in completed <==> other in old(completed))
      ensures plan == old(plan) && currentPhase == old(currentPhase) && currentWeek == old(currentWeek)
      ensures selectedDay == old(selectedDay) && storedProgress == old(storedProgress)
    {
      completed := Toggle(completed, id);
      storedCompleted := Some(completed);
    }

    /** completeWorkout: once confirmed, the day closes and the stored counter goes up by one. */
    method CompleteWorkout(confirmed: bool)
      modifies this
      ensures confirmed ==> selectedDay.None? && storedProgress == Some(CountWorkout(old(storedProgress)))
      ensures !confirmed ==> selectedDay == old(selectedDay) && storedProgress == old(storedProgress)
      ensures plan == old(plan) && currentPhase == old(currentPhase) && currentWeek == old(currentWeek)
      ensures completed == old(completed) && storedCompleted == old(storedCompleted)
    {
      if confirmed {
        selectedDay := None;
        storedProgress := Some(CountWorkout(storedProgress));
      }
    }
  }

  /**
   * Selecting a phase of a generated plan moves to a week that the plan
   * page shows as that same phase, and where that phase is unlocked.
   */
  lemma SelectionAgreesWithDisplay(plan: WorkoutPlan, k: int)
    requires IsPlanSkeleton(plan)
    requires 0 <= k < 3
    ensures var ph := plan.phases[k];
      && |ph.weeks| > 0
      && DisplayedPhase(ph.weeks[0]) == ph.phase
      && Selectable(ph.phase, ph.weeks[0])
      && !Locked(ph.phase, ph.weeks[0])
  {
    assert PhaseShape(plan.phases[k], k);
  }
}
